=== FILE: README.md ===
# pfs-chronicle-generator core, modelled in Dafny

This project models the data path of the Pathfinder Society chronicle generator, in four parts.

**Layouts and their inheritance.** A layout document may name a `parent` layout. The stores resolve the parent first. They then merge: the child's top-level fields win, the `presets`, `canvas` and `parameters` maps are unioned with the child winning, and `content` is concatenated parent-first. Results are cached by id. The browser store (`LayoutStore`) and the command-line store (`StandaloneLayoutStore`) are both modelled, together with the season display names and the listing of layouts by season.

**The renderer** (`PdfGenerator`). It covers:
- preset resolution: recursive, last preset wins, the element's own fields win over all presets;
- nested canvases resolved to page rectangles;
- `param:` values;
- the font and colour tables;
- alignment and the y-flip;
- multiline rows;
- the aspect ratio;
- the ordered dispatch, where only `text` and `multiline` elements draw.

The page is a `(width, height)` pair. Draw calls accumulate as a sequence of `DrawText` records. Font metrics are uninterpreted functions.

**The command-line filler** (`fill_fields`). It covers the required flags, `--parameter k=v` parsing, and the `charactername` and `societyid` pre-processing before rendering.

**The layout-authoring tools** (`chronicle2layout`, `chronical2layout`, `generate_layouts`). OCR and contour detection are inputs: Tesseract rows and detected boxes arrive as lists. What remains is modelled:
- checkbox de-duplication;
- the choice of the items region;
- clamping the crop;
- word de-duplication;
- grouping words into lines;
- dropping the heading;
- grouping lines into items;
- building the layout with strike-out choices;
- the batch driver's naming of files, ids and descriptions.

Modules, one concept each:

| file | module | models |
|---|---|---|
| wrappers.dfy | Wrappers | `Option`, `Result`, JavaScript truthiness of an optional string |
| strings.dfy | Strings | ASCII case, split/join, strip, words, decimal digits |
| sequences.dfy | Sequences | flatten, filter, stable insertion sort (sorted, a permutation, ties kept in order), map union |
| py_builtins.dfy | PyBuiltins | Python `int()` truncation, `np.median` |
| layout.dfy | LayoutModel | the layout document shapes; elements and presets as key/value records |
| layout_store.dfy | LayoutStore | merge, resolution with cache, display names, listing by season |
| standalone_store.dfy | StandaloneStore | registration of documents by id, its merge and resolution |
| pdf_generator.dfy | PdfGenerator | the renderer |
| pdf_scenarios.dfy | PdfScenarios | the renderer's documented example layouts, proved |
| fill_fields.dfy | FillFields | the command-line filler |
| checkboxes.dfy | Checkboxes | checkbox de-duplication (both authoring tools) |
| region.dfy | Region | items-region choice, `transform_coordinates`, crop clamping |
| ocr_words.dfy | OcrWords | OCR words, line boxes, heading filter |
| chronicle_lines.dfy | ChronicleLines | chronicle2layout's word de-duplication and line grouping |
| chronical_lines.dfy | ChronicalLines | chronical2layout's threshold clustering |
| item_grouping.dfy | ItemGrouping | grouping text lines into items |
| layout_authoring.dfy | LayoutAuthoring | the generated layout |
| generate_layouts.dfy | GenerateLayouts | the batch driver's names and ids |

Unbounded recursions are modelled with a `fuel: nat` parameter, and running out of fuel is an error result. This applies to:
- the layout parent chain;
- the preset chain;
- the canvas parent chain;
- Python's `transform_coordinates`.

In the source an unbounded recursion ends differently per place. In the browser store (`LayoutStore.getLayout`) every level first awaits a `fetch` (scripts/LayoutStore.ts:24) and only then recurses into the parent (:29), so a parent cycle keeps fetching and the promise never settles. In the command-line store (`StandaloneLayoutStore.getLayout`) the recursion (scripts/StandaloneLayoutStore.ts:42) comes before any await, so a cycle overflows the stack and the promise is rejected. The preset and canvas chains overflow the stack, and Python raises `RecursionError`. The model reports all of these as a failure once the fuel runs out. For the layout parent chain, the lemmas `LayoutStore.ResolveFuelMonotonic` and `LayoutStore.GetLayoutAgreesWithResolve` show that more fuel never changes a successful answer. No such lemma is stated for the preset chain, the canvas chain or `transform_coordinates`.

## Model

| member | source | states |
|---|---|---|
| LayoutModel.ParseElementType | scripts/model/layout.ts:64 | an element tag parses exactly when it is one of the eight tag names, and parses to the tag that prints as that name |
| LayoutModel.ElementTagRoundTrip | scripts/model/layout.ts:64 | every element tag parses back from its own name |
| LayoutModel.ParseParamType | scripts/model/layout.ts:29 | a parameter type parses exactly when it is `text`, `societyid`, `choice` or `multiline`, and parses to the type of that name |
| LayoutModel.PresetProps | scripts/model/layout.ts:44-61 | a preset as a JavaScript object: it has a key exactly when the preset's field is present, carrying that field's value |
| LayoutModel.ElementProps | scripts/model/layout.ts:63-80 | an element as a JavaScript object: a key exactly for each present field, and always its `type` |
| LayoutStore.MergeLayoutsSpec | scripts/LayoutStore.ts:162-172 | merged scalars are the child's when present, else the parent's; `presets`, `canvas` and `parameters` hold exactly the union of both key sets, with child values winning and absent maps read as empty; `content` is parent content then child content, lengths adding up |
| LayoutStore.MergeAssociative | scripts/LayoutStore.ts:162-172 | merging is associative, so a chain of parents merges the same way however it is bracketed |
| LayoutStore.Resolve | scripts/LayoutStore.ts:14-37 | an unregistered id is "not found"; a document without a truthy parent resolves to itself unchanged |
| LayoutStore.ResolveFuelMonotonic | scripts/LayoutStore.ts:28-30 | once resolution succeeds, more recursion depth gives the same layout |
| LayoutStore.ResolvedContentIsChainContent | scripts/LayoutStore.ts:28-30 | a layout resolves exactly when its ancestor chain does; its content is the concatenation of the chain's contents, oldest ancestor first, and its length is the sum of theirs |
| LayoutStore.GetLayout | scripts/LayoutStore.ts:14-37 | a cached id returns the cached layout and leaves the store alone; an unknown id fails and leaves it alone; an unparented document is returned and cached; every success is cached; no earlier cache entry changes |
| LayoutStore.GetLayoutIdempotent | scripts/LayoutStore.ts:15-17 | asking again for a layout that resolved returns the same layout and the same store |
| LayoutStore.GetLayoutSound | scripts/LayoutStore.ts:35-36 | a cache holding only true resolutions keeps holding only true resolutions, and every answer is a true resolution |
| LayoutStore.GetLayoutAgreesWithResolve | scripts/LayoutStore.ts:14-37 | with a sound cache, the cached lookup gives exactly the pure resolution |
| LayoutStore.DisplayNameSpec | scripts/LayoutStore.ts:54-65 | `s<digits>` (either case of `s`) becomes `Season <digits>`; any other directory name keeps its length, turns `_` into spaces and upper-cases exactly the first character of each `_`-separated word |
| LayoutStore.JoinTitleIsCharwise | scripts/LayoutStore.ts:62-64 | splitting on `_`, capitalising each word and joining with spaces is the same as the character-by-character rewrite |
| LayoutStore.DirFormatOfDisplayName | scripts/LayoutStore.ts:86-93 | for a directory name without spaces that is not `season_<digits>`, converting its display name back gives the lower-cased directory name |
| LayoutStore.GetLayoutsByParent | scripts/LayoutStore.ts:83-108 | a falsy parent lists nothing; otherwise the listing holds exactly the registered entries whose id has a second `.`-part starting with the directory form of the parent, each as often as it is registered |
| LayoutStore.GetLayoutsByParentSorted | scripts/LayoutStore.ts:106 | the listing is ordered by description under the given comparison |
| LayoutStore.GetLayoutsByParentExact | scripts/LayoutStore.ts:83-108 | the corrected listing, in which a season's digits must not run on into more digits; same membership and multiplicity rules otherwise |
| LayoutStore.IdMatchesExactRefines | scripts/LayoutStore.ts:99-100 | the corrected match implies the prefix match, agrees with it unless the prefix ends in a digit, and differs only when another digit follows the prefix |
| StandaloneStore.Register | scripts/StandaloneLayoutStore.ts:14-28 | exactly the documents with a truthy id are registered, keyed by that id, and a later document with the same id replaces an earlier one |
| StandaloneStore.Enter | scripts/StandaloneLayoutStore.ts:22-25 | a document with a truthy id is stored under that id, replacing any earlier one; a document without one is skipped |
| StandaloneStore.MergeLayoutsAgree | scripts/StandaloneLayoutStore.ts:52-59 | the command-line store's merge gives the same layout as the browser store's merge |
| StandaloneStore.GetLayout | scripts/StandaloneLayoutStore.ts:30-50 | a cached id is returned unchanged; an unregistered id is "not found"; every success is cached |
| StandaloneStore.GetLayoutAgrees | scripts/StandaloneLayoutStore.ts:30-50 | the command-line store resolves and caches exactly as the browser store does |
| PdfGenerator.ResolveNames | scripts/PdfGenerator.ts:46-56 | a non-empty preset list needs a preset table; the last listed preset's own fields are in the result with its values |
| PdfGenerator.ResolveElement | scripts/PdfGenerator.ts:46-58 | every field of the element itself, `type` included, overrides whatever the presets gave; an element without presets resolves to its own fields |
| PdfGenerator.PresetFieldsFillGaps | scripts/PdfGenerator.ts:57 | a key the element lacks is present exactly when the presets give it, with the presets' value |
| PdfGenerator.ResolveNamesAppend | scripts/PdfGenerator.ts:49-55 | resolving two preset lists one after the other is resolving each and letting the later one override |
| PdfGenerator.MissingPresetSkipped | scripts/PdfGenerator.ts:50-51 | a preset name missing from the table changes nothing |
| PdfGenerator.LaterPresetWins | scripts/PdfGenerator.ts:52-53 | after appending a preset, its own fields win; then what it inherits through its own presets; keys neither gives keep their earlier value or absence |
| PdfGenerator.CanvasRect | scripts/PdfGenerator.ts:60-64 | an absent table or an unknown canvas name fails; success means the canvas exists |
| PdfGenerator.RootCanvasRect | scripts/PdfGenerator.ts:75-80 | a canvas without a truthy parent is its percent box scaled to the page |
| PdfGenerator.NestedCanvasRect | scripts/PdfGenerator.ts:68-74 | a parented canvas is its percent box scaled into its parent's resolved rectangle |
| PdfGenerator.FullChildIsParent | scripts/PdfGenerator.ts:68-74 | a `(0,0,100,100)` child canvas resolves to its parent's rectangle |
| PdfGenerator.QuadrantOfFullPage | scripts/PdfGenerator.ts:60-82 | a `(0,0,50,50)` canvas under a full-page root is the page's top-left quadrant |
| PdfGenerator.PlaceCompose | scripts/PdfGenerator.ts:70-73 | placing a canvas inside a placed canvas is placing their composed percent box once |
| PdfGenerator.FontFor | scripts/PdfGenerator.ts:84-98 | an absent, empty or unknown font name gives Helvetica |
| PdfGenerator.FontLookupRoundTrip | scripts/PdfGenerator.ts:88-95 | any spelling whose lower case is a table name gives that table's font |
| PdfGenerator.FontCaseInsensitive | scripts/PdfGenerator.ts:93 | the font lookup ignores letter case |
| PdfGenerator.ColorFor | scripts/PdfGenerator.ts:100-116 | an absent, empty or unknown colour name gives black |
| PdfGenerator.ColorLookupRoundTrip | scripts/PdfGenerator.ts:104-113 | any spelling whose lower case is a table name gives that table's colour |
| PdfGenerator.TextSize | scripts/PdfGenerator.ts:140 | the size is the font size when it is non-zero, and 12 when the font size is absent or zero; it is never zero |
| PdfGenerator.ResolveValue | scripts/PdfGenerator.ts:222-231 | a falsy value gives nothing; a value not starting with `param:` is returned unchanged; anything else returned is a data value |
| PdfGenerator.ParamReference | scripts/PdfGenerator.ts:226-228 | `param:n` gives `data[n]` when `n` is a key, else nothing |
| PdfGenerator.AlignmentMeaning | scripts/PdfGenerator.ts:144-156 | `C` leaves equal margins left and right, else `R` puts the text's right edge on the box's right edge, else the text starts at the box's left; `M` leaves equal space above and below, else `B` puts the baseline on the box bottom, else the text's top is the box top; `C` beats `R` and `M` beats `B` |
| PdfGenerator.DrawTextOps | scripts/PdfGenerator.ts:118-167 | a falsy value draws nothing; a truthy one draws exactly one text when the canvas resolves, with the resolved text, font, size and colour, the aligned x, and y flipped once as page height minus (canvas top + baseline offset) |
| PdfGenerator.RowOps | scripts/PdfGenerator.ts:197-219 | row `k` is drawn exactly when `k` is below the row limit and a split line exists, in order, each as its own draw |
| PdfGenerator.RowCount | scripts/PdfGenerator.ts:197 | the number of rows drawn is the number of split lines when `lines` is unset or zero, else the smaller of `lines` and that number |
| PdfGenerator.MultilineRows | scripts/PdfGenerator.ts:175-217 | the rows are the value split at every newline, in the element's box, font, size and colour (`getColor(color)`); with `lines` set and non-zero the row limit is `lines` and `lines` line heights fill the box, otherwise every row may be drawn and one line height is the box height |
| PdfGenerator.MultilineRowPlacement | scripts/PdfGenerator.ts:169-219 | for a truthy value on a resolved canvas, `drawMultilineText` succeeds and row `k` is drawn exactly when `k` is below the number of rows and below `lines` (when `lines` is set and non-zero); its text is the `k`-th row, it has the element's font, size and colour, and its baseline lies `k` line heights (the box height over `lines`, or over 1 when `lines` is unset or zero) plus the text height below the box top, measured from the page top |
| PdfGenerator.MultilineRowsPlaced | scripts/PdfGenerator.ts:185-219 | the rows built for one element are placed with its `lines`, box, canvas, page height, font, size, colour and alignment |
| PdfGenerator.RowsPlacement | scripts/PdfGenerator.ts:197-219 | the loop over the rows draws row `k` exactly when `k` is below the number of rows and the row limit, with the `k`-th text, the rows' font, size and colour, aligned, `k` line heights plus the text height below the box top |
| PdfGenerator.DrawMultilineOps | scripts/PdfGenerator.ts:169-220 | a falsy value draws nothing; for a truthy value an unresolved canvas is that failure and a resolved one succeeds; never more draws than split lines, each in the element's colour (where each row lands is stated by `PdfGenerator.MultilineRowPlacement`) |
| PdfGenerator.DrawElement | scripts/PdfGenerator.ts:32-44 | a failing preset resolution is the element's error; tags other than `text` and `multiline` draw nothing; a text element draws at most once |
| PdfGenerator.DrawAllAppend | scripts/PdfGenerator.ts:27-29 | drawing two element lists in sequence draws the first list's calls, then the second's |
| PdfGenerator.DrawAllSingle | scripts/PdfGenerator.ts:27-29 | a one-element list draws what that element draws |
| PdfGenerator.NonDrawingContentDrawsNothing | scripts/PdfGenerator.ts:35-43 | content made only of non-drawing tags, none of them naming presets, produces no draw calls |
| PdfGenerator.ApplyAspect | scripts/PdfGenerator.ts:20-25 | a falsy ratio leaves the page alone; any resized page keeps its height |
| PdfGenerator.AspectRatioHolds | scripts/PdfGenerator.ts:20-25 | a `W:H` ratio in digits gives width `height·W/H`, so the page's width-to-height ratio is `W/H` |
| PdfGenerator.WidthFor | scripts/PdfGenerator.ts:23 | the computed width over the height is the ratio `W/H` |
| PdfGenerator.Generate | scripts/PdfGenerator.ts:19-30 | a successful run keeps the page height, has content and has applied the aspect ratio, and its draws are those of drawing the content elements in order on the resized page; with a usable aspect ratio and content, it succeeds exactly when drawing the content does; without content it fails |
| PdfGenerator.GenerateInOrder | scripts/PdfGenerator.ts:27-29 | content `a + b` draws `a`'s draws followed by `b`'s, and an error in `a` is the run's error |
| PdfGenerator.SingleTextDrawsOnce | scripts/PdfGenerator.ts:19-44 | a layout with one text element draws nothing for a falsy value and exactly its one text draw otherwise |
| PdfScenarios.SimpleTextFromParameter | scripts/PdfGenerator.test.ts:18-54 | the parameter example draws once: "Test Character" in Helvetica, size 18, red |
| PdfScenarios.PresetsCombine | scripts/PdfGenerator.test.ts:56-91 | two presets combine: "Hello World" in Times Roman, size 24, red |
| PdfScenarios.LaterPresetOverrides | scripts/PdfGenerator.test.ts:93-121 | the later preset's font size 16 overrides the earlier 10, in Courier |
| PdfScenarios.AspectRatioAndCentring | scripts/PdfGenerator.test.ts:123-178 | `603:783` keeps the height and gives the ratio 603/783; centred text on a full-page canvas lands at `((W−tw)/2, (H−th)/2)` |
| PdfScenarios.OneTextDraw | scripts/PdfGenerator.ts:19-44 | a layout without an aspect ratio holding one uncanvassed text element with a non-empty value draws once, with that value, in the font, size and colour its properties name |
| PdfScenarios.HelveticaCapitalised | scripts/PdfGenerator.ts:93 | the capitalised name "Helvetica" selects Helvetica |
| FillFields.IndexOf | scripts/fill_fields.ts:8-10 | the first position of a flag, or none exactly when the flag is absent |
| FillFields.RequiredFlags | scripts/fill_fields.ts:12-19 | the run fails with the usage error exactly when `--pdf`, `--layout-dir` or `--layout-name` is missing; otherwise each value is the token after the flag's first occurrence |
| FillFields.KeyValueOf | scripts/fill_fields.ts:25 | in `k=v` the key is the text before the first `=`, the value is the text between the first and the second `=`, and the rest is dropped |
| FillFields.KeyWithoutValue | scripts/fill_fields.ts:25 | a parameter without `=` has itself as key and an undefined value |
| FillFields.ParamTokens | scripts/fill_fields.ts:22-29 | each collected parameter uses up a `--parameter` flag and the token after it, so there are at most half as many parameters as arguments; failure happens only when the last argument is a `--parameter` with no value after it |
| FillFields.ParamTokensAppend | scripts/fill_fields.ts:22-29 | once a prefix of the arguments scans cleanly, the rest scans on its own: scanning `a + b` is the tokens of `a` followed by those of `b` |
| FillFields.FlagAsValue | scripts/fill_fields.ts:27 | the consumed token is never rescanned, even when it is `--parameter` itself |
| FillFields.TrailingFlagFails | scripts/fill_fields.ts:23-25 | a `--parameter` at the very end fails, because its value token is missing |
| FillFields.AssignKeys | scripts/fill_fields.ts:26 | a key is defined exactly when some parameter token carries it |
| FillFields.LastWriteWins | scripts/fill_fields.ts:26 | a key's value comes from the last token that carries it |
| FillFields.Collect | scripts/fill_fields.ts:21-29 | collecting fails, with the missing-value error, exactly when the token scan fails |
| FillFields.LaterParameterOverwrites | scripts/fill_fields.ts:22-29 | appending `--parameter k=v` overwrites `k` with `v` and changes nothing else |
| FillFields.ParseParameters | scripts/fill_fields.ts:21-29 | the scanning loop computes the same parameters, or the same failure, as the token-pair reading |
| FillFields.MoveCharacterName | scripts/fill_fields.ts:39-42 | a truthy `charactername` moves to `char` and is removed; otherwise nothing changes; no other key changes |
| FillFields.SplitSocietyId | scripts/fill_fields.ts:43-49 | `societyid` is kept; exactly two `-` parts give `societyid.player` = part 0 and `societyid.char_without_first_digit` = part 1 without its first character; any other count adds nothing |
| FillFields.Preprocess | scripts/fill_fields.ts:38-49 | no key other than `char`, `charactername` and the two derived keys changes, and `societyid` is kept |
| FillFields.SocietyIdParts | scripts/fill_fields.ts:43-49 | `player-character` yields the player and the character number without its first digit |
| FillFields.SocietyIdUnsplit | scripts/fill_fields.ts:45 | a society id that does not split into exactly two `-` parts leaves the derived keys as they were |
| FillFields.DataOf | scripts/fill_fields.ts:51 | the renderer's data holds exactly the parameters that have a value, with that value |
| FillFields.CharacterNameRendersAsChar | scripts/fill_fields.ts:39-42 | after pre-processing, `param:char` renders the original `charactername` |
| FillFields.UntouchedParameterRenders | scripts/fill_fields.ts:38-49 | any other parameter renders through `param:` exactly as given |
| FillFields.FillFields | scripts/fill_fields.ts:6-52 | the usage error comes first and exactly for a missing required flag; a missing parameter value fails next; a success found the named layout in the store and is exactly what the generator draws for it with the pre-processed parameters |
| FillFields.RunRendersCharacterName | scripts/fill_fields.ts:36-52 | in a successful run given a `charactername`, the layout is rendered with data in which `param:char` is that name |
| Checkboxes.AnyNear | chronicle2layout/src/chronicle2layout.py:108-109 | the scan answers true exactly when some kept box is within 0.5 of the box in both x and y |
| Checkboxes.KeepApart | chronicle2layout/src/chronicle2layout.py:106-110 | over boxes sorted by `(x, y)`, the kept boxes are pairwise apart, every box is near a kept one, kept boxes come from the input, and they stay sorted |
| Checkboxes.Dedup | chronical2layout/src/chronical2layout.py:98-103 | the de-duplicated boxes are pairwise apart, sorted by `(x, y)`, drawn from the detections, and every detection is near one of them |
| Region.TransformCoordinates | chronicle2layout/src/chronicle2layout.py:198-212 | an unknown canvas gives no region; a canvas without a parent is its own corners |
| Region.TransformStaysInside | chronicle2layout/src/chronicle2layout.py:202-211 | with every canvas inside 0–100 %, every result is on the page and a child lies inside its parent's region |
| Region.TransformMatchesRenderer | chronicle2layout/src/chronicle2layout.py:198-212 | when no canvas names an empty parent, the authoring tool's region is the renderer's canvas rectangle on a 100×100 page, and one exists exactly when the other does |
| Region.PlaceIsInterpolation | chronicle2layout/src/chronicle2layout.py:206-211 | the renderer's placement inside a parent is the tool's corner-by-corner interpolation |
| Region.ParseRegionArg | chronicle2layout/src/chronicle2layout.py:519-529 | an absent `--region` is "not given"; anything but four non-blank fields is an error; with four fields it succeeds exactly when each parses as a float, and then the region holds the four values in order |
| Region.RegionFieldsOfJoin | chronicle2layout/src/chronicle2layout.py:523 | fields without commas or whitespace, joined with commas, are split and stripped back into the same fields |
| Region.RegionArgRoundTrip | chronicle2layout/src/chronicle2layout.py:519-526 | four whole numbers written in decimal and joined with commas are read back as the region of those four numbers |
| Region.RegionFor | chronicle2layout/src/chronicle2layout.py:182-221 | a given region is used as is; otherwise the base layout's `items` canvas when it resolves; otherwise `[0.5, 50.8, 40, 83]` |
| Region.Clamp | chronicle2layout/src/chronicle2layout.py:231-234 | a pixel lands in `[0, dim−1]`, unchanged when already inside, 0 when below and `dim−1` when beyond |
| Region.CropBox | chronicle2layout/src/chronicle2layout.py:224-238 | the crop is empty exactly when the clamped right or bottom edge is not beyond the left or top one; otherwise it is the box of the four clamped pixel edges and lies inside the image |
| Region.CropInside | chronicle2layout/src/chronicle2layout.py:226-229 | a region already inside the image crops to its truncated pixel corners |
| Region.InvertedRegionIsEmpty | chronicle2layout/src/chronicle2layout.py:235-236 | a region whose right edge is not beyond its left gives no crop |
| Region.DefaultRegionOnLetterPage | chronical2layout/src/chronical2layout.py:163-164 | the default region on a 612×792 page rendered at zoom 6 crops to pixels (18, 2414)–(1468, 3944) |
| OcrWords.LineBox | chronicle2layout/src/chronicle2layout.py:322-326 | the line box contains every word of the line, and each of its four edges is attained by some word |
| OcrWords.LineRecord | chronicle2layout/src/chronicle2layout.py:316-338 | a line's record is its words joined with spaces and its box in percent of the crop |
| OcrWords.SortEachSorted | chronicle2layout/src/chronicle2layout.py:307 | each line comes out ordered by `left` |
| OcrWords.SortEachKeepsWords | chronicle2layout/src/chronicle2layout.py:313 | sorting each line keeps all the words |
| OcrWords.KeptLines | chronicle2layout/src/chronicle2layout.py:319-320 | a line is kept exactly when its lower-cased text does not contain `items` |
| OcrWords.ToTextLines | chronicle2layout/src/chronicle2layout.py:316-338 | no more records than lines, and no record mentions `items` |
| OcrWords.SortEachByLeft | chronicle2layout/src/chronicle2layout.py:313 | line `i` of the result is line `i` of the input sorted by `left` |
| OcrWords.ToTextLinesComplete | chronical2layout/src/chronical2layout.py:220-239 | every line not mentioning `items` yields its record, and every record comes from such a line |
| ChronicleLines.CollectWordsFirsts | chronicle2layout/src/chronicle2layout.py:261-278 | the collected words are exactly the stripped non-blank rows that are the first of their `(x//2, y//2)` bucket |
| ChronicleLines.CollectWords | chronicle2layout/src/chronicle2layout.py:261-278 | collected words are non-blank and lie in pairwise different buckets |
| ChronicleLines.Joins | chronicle2layout/src/chronicle2layout.py:299 | a word joins a line exactly when its `top` is within the threshold of some word already in the line |
| ChronicleLines.GroupFromFlatten | chronicle2layout/src/chronicle2layout.py:292-314 | grouping loses, reorders and invents no word |
| ChronicleLines.GroupFromShape | chronicle2layout/src/chronicle2layout.py:299-310 | each word of a line is within the threshold of an earlier word of that line, and each line's first word is within it of no word of the line before |
| ChronicleLines.GroupingUnique | chronicle2layout/src/chronicle2layout.py:292-314 | any split of the words into such lines is the one the scan produces |
| ChronicleLines.GroupingExists | chronicle2layout/src/chronicle2layout.py:292-314 | the scan's lines are such a split |
| ChronicleLines.LinesKeepWords | chronicle2layout/src/chronicle2layout.py:283-314 | every collected word is in exactly one line, as often as it was collected |
| ChronicleLines.ExtractTextLines | chronicle2layout/src/chronicle2layout.py:150-340 | an empty crop or no collected word gives no lines; no line mentions `items` |
| ChronicalLines.NonBlankWords | chronical2layout/src/chronical2layout.py:188-197 | the words are exactly those of the rows with non-blank text, and there are none exactly when every row is blank |
| ChronicalLines.NonBlankWordsSound | chronical2layout/src/chronical2layout.py:191-197 | every word comes from a row with text |
| ChronicalLines.VThresh | chronical2layout/src/chronical2layout.py:203 | the threshold is at least 8, and equals 8 or the truncated `0.9·median_h` |
| ChronicalLines.ClusterTight | chronical2layout/src/chronical2layout.py:209-212 | over ascending tops, with the running top at or above the last word's, every cluster's consecutive words are at most the threshold apart |
| ChronicalLines.ClusterApart | chronical2layout/src/chronical2layout.py:213-216 | over ascending tops, with the running top between the cluster's first and last words, each new cluster starts more than the threshold below the previous cluster's first word |
| ChronicalLines.ClusterFlatten | chronical2layout/src/chronical2layout.py:205-218 | concatenating the clusters gives back the scanned words |
| ChronicalLines.ClustersOfSortedWords | chronical2layout/src/chronical2layout.py:205-218 | over the words sorted by `(top, left)`, consecutive words of a cluster are at most the threshold apart in `top`, and each cluster's first word lies more than the threshold below the previous cluster's first word |
| ChronicalLines.LinesKeepWords | chronical2layout/src/chronical2layout.py:205-222 | the clusters concatenate to the sorted words, and the lines keep every word |
| ChronicalLines.ExtractTextLines | chronical2layout/src/chronical2layout.py:143-241 | an empty crop or no non-blank word gives no lines; no line mentions `items` |
| ItemGrouping.NumberInIffDigit | chronicle2layout/src/chronicle2layout.py:420 | containing one of "1"…"20" is the same as containing a digit 1–9 |
| ItemGrouping.NumberInExists | chronicle2layout/src/chronicle2layout.py:420 | the recursive number test is `any(str(i) in text for i in range(1, n+1))` |
| ItemGrouping.ItemStartNotBlank | chronicle2layout/src/chronicle2layout.py:419-420 | an item start is never blank |
| ItemGrouping.Collapse | chronicle2layout/src/chronicle2layout.py:435-439 | collapsing leaves no two neighbouring equal parts, never lengthens, and keeps the first and last parts |
| ItemGrouping.CollapseRuns | chronicle2layout/src/chronicle2layout.py:435-439 | the parts are the collapsed parts, in order, each repeated over a run of at least one |
| ItemGrouping.CollapseSameParts | chronicle2layout/src/chronicle2layout.py:435-439 | collapsing keeps the same set of parts |
| ItemGrouping.CollapseFixes | chronicle2layout/src/chronicle2layout.py:435-439 | parts without neighbouring repeats are left as they are |
| ItemGrouping.CollapseIdempotent | chronicle2layout/src/chronicle2layout.py:435-439 | collapsing twice is collapsing once |
| ItemGrouping.MidItem | chronicle2layout/src/chronicle2layout.py:429-444 | a mid-stream item spans from its first line's top to its last line's bottom |
| ItemGrouping.MidItemNoRepeats | chronicle2layout/src/chronicle2layout.py:433-441 | a mid-stream item's text has no two neighbouring equal words |
| ItemGrouping.FinalItem | chronicle2layout/src/chronicle2layout.py:458-466 | the last item spans from its first line's top to its last line's bottom |
| ItemGrouping.FinalItemKeepsRepeats | chronicle2layout/src/chronicle2layout.py:458-466 | the last item's text is not collapsed: a final `Item 2 gem gem` keeps its repeated word |
| ItemGrouping.FlushedWords | chronicle2layout/src/chronicle2layout.py:433-466 | the final item's words are all its lines' words in order with every repeat, while a mid-scan item's words are its stripped lines' words with repeated neighbours collapsed |
| ItemGrouping.TrackedLines | chronicle2layout/src/chronicle2layout.py:422-455 | the tracked lines are non-blank and no more than the input lines |
| ItemGrouping.TrackedLinesAreKept | chronicle2layout/src/chronicle2layout.py:422-455 | the tracked lines are exactly the lines that are neither skipped nor blank, in their original order, each with its stripped text and band |
| ItemGrouping.ItemsAreSegments | chronicle2layout/src/chronicle2layout.py:422-466 | the items are one per segment of the tracked lines; the segments concatenate to the tracked lines; only a segment's first line may start an item; every later segment starts with one |
| ItemGrouping.ItemsFromSegments | chronicle2layout/src/chronicle2layout.py:422-466 | the item loop is the same as cutting the tracked lines into segments and turning each segment into one item |
| LayoutAuthoring.SafeName | chronicle2layout/src/chronicle2layout.py:480 | a safe name has at most 50 characters and no space, `,`, `.`, `(`, `)`, `'` or `"` |
| LayoutAuthoring.SafeNameCounts | chronicle2layout/src/chronicle2layout.py:480 | every other character of `text[:50]` occurs in the safe name as often as in the text, and the underscores are the text's underscores plus its spaces |
| LayoutAuthoring.SafeNameKeepsOrder | chronicle2layout/src/chronicle2layout.py:480 | the safe name is `text[:50]` with spaces made underscores, filtered to the characters not deleted, in their original order |
| LayoutAuthoring.SafeNameOfPlainText | chronicle2layout/src/chronicle2layout.py:480 | a text of at most 50 characters with no space or deleted character is its own safe name |
| Strings.ReplaceCharCount | chronicle2layout/src/chronicle2layout.py:480 | `replace(" ", "_")` leaves no space, adds the spaces to the underscores and keeps every other count |
| Strings.RemoveCharsCounts | chronicle2layout/src/chronicle2layout.py:480 | the chained `replace(c, "")` calls leave none of the deleted characters and keep every other character's count |
| Strings.RemoveCharsIsFilter | chronicle2layout/src/chronicle2layout.py:480 | deleting characters is filtering by "not deleted", so the kept characters stay in order |
| LayoutAuthoring.PresetNameNotShared | chronicle2layout/src/chronicle2layout.py:481 | an item preset never replaces the shared `strikeout_item` preset |
| LayoutAuthoring.ByIndexInjective | chronicle2layout/src/chronicle2layout.py:481 | presets named by choice index differ for different choices |
| LayoutAuthoring.Accumulate | chronicle2layout/src/chronicle2layout.py:470-491 | the choices are the item texts without duplicates; each has a branch and nothing else does; the first choice is the first item's text |
| LayoutAuthoring.ChoicesInFirstOrder | chronicle2layout/src/chronicle2layout.py:476-477 | the choices are in the order of each text's first appearance |
| LayoutAuthoring.BranchesStrikeTheirChoice | chronicle2layout/src/chronicle2layout.py:488-491 | each choice's branch is exactly one `line` element with presets `strikeout_item` and its own preset |
| LayoutAuthoring.PresetKeys | chronicle2layout/src/chronicle2layout.py:384-392 | the presets are the shared strike-out preset and exactly one preset per choice |
| LayoutAuthoring.SafeNamesCollide | chronicle2layout/src/chronicle2layout.py:480-485 | as written, two different texts with the same safe name share one preset, so the first is struck at the second's position |
| LayoutAuthoring.CollidingItems | chronicle2layout/src/chronicle2layout.py:480 | "A." and "A" are different item texts with the same safe name and different positions |
| LayoutAuthoring.SharedNameOverwrites | chronicle2layout/src/chronicle2layout.py:482-485 | as written, adding an item whose text differs from an existing choice but has the same safe name makes that choice's preset hold the new item's position |
| LayoutAuthoring.ChoicesStruckAtTheirItem | chronicle2layout/src/chronicle2layout.py:479-491 | corrected naming: every choice's preset holds the position of the last item with that text |
| LayoutAuthoring.IfTruthy | chronicle2layout/src/chronicle2layout.py:365-370 | an argument is copied exactly when it is truthy |
| LayoutAuthoring.ChoiceParameter | chronicle2layout/src/chronicle2layout.py:493-496 | the example is the first choice, or empty when there are none |
| LayoutAuthoring.ChoiceElement | chronicle2layout/src/chronicle2layout.py:393-399 | the one content element is a `choice` on `param:strikeout_item_lines` keyed by item text |
| LayoutAuthoring.Generate | chronicle2layout/src/chronicle2layout.py:343-498 | `id`, `description` and `parent` appear exactly when their arguments are truthy; checkboxes are attached as given; the content is one choice element |
| LayoutAuthoring.GeneratedChoices | chronicle2layout/src/chronicle2layout.py:474-496 | the parameter's choices are exactly the distinct item texts, and its example is the first item's text or empty |
| LayoutAuthoring.GeneratedStrikesAtItems | chronicle2layout/src/chronicle2layout.py:479-491 | each item text has one strike line whose preset holds the position of the last item with that text |
| LayoutAuthoring.GeneratedDrawsNothing | chronicle2layout/src/chronicle2layout.py:393-399 | the renderer draws nothing for a generated layout, since its only element is a `choice` |
| GenerateLayouts.ConfigFor | chronicle2layout/src/generate_layouts.py:21-43 | only seasons 5, 6 and 7 are configured, each with its `Season N`, `sN` and `pfs2.seasonN` names |
| GenerateLayouts.SplitExt | chronicle2layout/src/generate_layouts.py:48 | stem and extension concatenate to the name, and the extension is empty or one final dotted part |
| GenerateLayouts.DescriptionIgnoresExtension | chronicle2layout/src/generate_layouts.py:48 | a file extension does not change the description |
| GenerateLayouts.CapitalWords | chronicle2layout/src/generate_layouts.py:50 | the words are the runs starting with a capital, and there are none exactly when there is no capital |
| GenerateLayouts.CapitalWordsFlatten | chronicle2layout/src/generate_layouts.py:50 | the capital words concatenate to the title minus what precedes its first capital |
| GenerateLayouts.CapitalWordsOfFlatten | chronicle2layout/src/generate_layouts.py:50 | splitting concatenated capital words gives them back |
| GenerateLayouts.TitleWords | chronicle2layout/src/generate_layouts.py:50-53 | with a capital, the words are the capital runs; without one, `_` becomes a space and the title splits on whitespace |
| GenerateLayouts.Capitalize | chronicle2layout/src/generate_layouts.py:56 | `capitalize()` keeps the length and the lower-case form, upper-cases the first character and lower-cases the rest |
| GenerateLayouts.CapitalizeIdempotent | chronicle2layout/src/generate_layouts.py:56 | capitalising twice is capitalising once |
| GenerateLayouts.TitleToDescription | chronicle2layout/src/generate_layouts.py:45-57 | the description is `PFS2 Chronicle Sheet for {num}: ` followed by the capitalised title words joined by spaces |
| GenerateLayouts.ZFill | chronicle2layout/src/generate_layouts.py:77 | `zfill` never shortens; an unsigned string shorter than the width gets zeros on the left up to the width; a string of digits stays a string of digits |
| GenerateLayouts.ZFillValue | chronicle2layout/src/generate_layouts.py:77 | zero padding keeps the number's value |
| GenerateLayouts.ScenarioNumber | chronicle2layout/src/generate_layouts.py:77 | the scenario number has at least two characters |
| GenerateLayouts.LayoutName | chronicle2layout/src/generate_layouts.py:81-83 | one trailing `Chronicle` is removed from `{season}-{num}-{title}`, and nothing else changes |
| GenerateLayouts.LayoutNameDropsSuffix | chronicle2layout/src/generate_layouts.py:82-83 | a title ending in `Chronicle` loses exactly that suffix |
| GenerateLayouts.LayoutNameKeepsOtherTitles | chronicle2layout/src/generate_layouts.py:81-83 | any other title keeps its name |
| GenerateLayouts.Process | chronicle2layout/src/generate_layouts.py:59-123 | a configured season with a matching filename and a generated layout gives file `{layout_name}.json`, id `pfs2.s{season}-{num}`, description `{season}-{num} {title}` and the season's parent; nothing else in the layout changes |
| GenerateLayouts.GeneratedIdParts | chronicle2layout/src/generate_layouts.py:110 | a generated id splits on `.` into `pfs2` and `s{season}-{num}` |
| GenerateLayouts.ListedUnderOwnSeason | chronicle2layout/src/generate_layouts.py:110 | a generated id matches its own season's directory form in the by-parent listing |
| GenerateLayouts.ListedUnderPrefixSeason | scripts/LayoutStore.ts:99-100 | as written, a generated id matches the directory form of every season whose number is a prefix of its own |
| GenerateLayouts.PrefixSeasonListed | chronicle2layout/src/generate_layouts.py:110 | as written, a layout is listed under every season whose number is a prefix of its own |
| GenerateLayouts.SeasonTenUnderSeasonOne | scripts/LayoutStore.ts:97-101 | as written, a season-10 layout is listed under "Season 1" |
| GenerateLayouts.ExactListedIffSameSeason | scripts/LayoutStore.ts:97-101 | with the corrected match, a generated id matches a season exactly when it is its own season |
| GenerateLayouts.ExactListingOwnSeasonOnly | scripts/LayoutStore.ts:83-108 | the corrected listing shows a generated layout under exactly its own season |
| Strings.JoinSplit | scripts/LayoutStore.ts:62-64 | joining the parts of a split with the separator gives back the string |
| Strings.SplitJoin | scripts/LayoutStore.ts:62-64 | splitting a separator-free join of parts gives the parts back |
| Strings.Strip | chronicle2layout/src/chronicle2layout.py:262 | the stripped text has no whitespace at either end, and is empty exactly when the text is blank |
| PyBuiltins.Trunc | chronical2layout/src/chronical2layout.py:212 | `int()` truncates toward zero |
| PyBuiltins.MedianBounds | chronical2layout/src/chronical2layout.py:202 | at least half of the heights are at or below the median and at least half at or above it; some height lies on each side, and for an odd count the median is one of the heights |
| Sequences.SortSorted | chronicle2layout/src/chronicle2layout.py:284 | the sort orders by the key |
| Sequences.SortStable | chronicle2layout/src/chronicle2layout.py:307 | under a strict weak order, elements that tie keep their input order |
| Sequences.FilterCountPermutation | chronical2layout/src/chronical2layout.py:202 | how many values pass a test does not depend on their order |
| Sequences.Sort | chronicle2layout/src/chronicle2layout.py:284 | sorting keeps exactly the same elements, each as often |

## Left out

- pdf-lib is not modelled: loading and saving documents, `embedFont`, `setSize` and `drawText` themselves. The page is a record, draw calls are a log, and the font metrics are uninterpreted functions in `PdfGenerator.Metrics`.
- Storage and I/O are not modelled. This covers `LayoutStore.findAllLayouts` (the file picker, `fetch`, `JSON.parse`, `Promise.all`) and the season-directory bookkeeping inside it. It covers the `fetch` in `getLayout`. It also covers the directory walk and YAML reading of `StandaloneLayoutStore.findAllLayouts`, the PDF read and write of `fill_fields.ts`, and the globbing, subprocess call and JSON file round trip of `process_season`. Raw documents are a given id-to-document map, or a given list in reading order for registration.
- `getLayoutChoices`, `getLayouts` and `getSeasons` are not modelled. They only copy the registered index out. `getSeasons` orders by `parseInt` and `localeCompare`.
- Locale-dependent ordering is not modelled. `localeCompare` is an abstract comparison passed to `GetLayoutsByParent`.
- Image and OCR work is not modelled: PyMuPDF rendering, OpenCV contour detection and its size, squareness and fill filters, and Tesseract. Tesseract's rows, the detected boxes and the rendered image size are inputs.
- Debug images, the command-line `main` functions and JSON printing are not modelled. The exception is the `--region` parsing, in `Region.ParseRegionArg`.
- Python `round(..., 3)` and `round(..., 1)` are not modelled. Percentages and preset positions are carried exactly.
- Floating point is not modelled. Dafny `real` replaces JavaScript numbers and Python floats, so the test file's `toBeCloseTo` tolerances become exact equalities.
- Case mapping and whitespace are ASCII only. The source's Unicode case mapping and whitespace classes are not modelled.
- Region.ParseFloat: reads an optional sign and a plain decimal literal. Python's `float` also accepts exponents, `inf`, `nan` and underscores, which are not modelled and are treated as unparseable.
- PdfGenerator.ApplyAspect: a ratio whose parts are not plain decimal literals, or whose height is zero, is an error. In JavaScript it yields a `NaN` or infinite width, and the model does not represent those values.
- PdfGenerator.JsNumber: only blank text and plain decimal literals are read. Signs, exponents, hexadecimal and `Infinity` are not modelled.
- Object keys inherited from JavaScript prototypes (`"constructor"` in the colour or font table, for instance) are not modelled. The tables are exactly their listed entries.
- Unbounded recursion is modelled with fuel. The parent chain of `getLayout`, the preset chain of `resolvePresets`, the canvas chain of `getCanvasRect` and `transform_coordinates` each carry `fuel`. For the command-line store's parent chain, the preset chain and the canvas chain, exhaustion stands for the stack overflow of the source. For `transform_coordinates` it stands for Python's `RecursionError`, which is caught and gives the default region. For the browser store's parent chain see the next line.
- LayoutStore.GetLayout: a parent cycle in the browser store never settles in the source (each level awaits a `fetch` before recursing, scripts/LayoutStore.ts:24-29), whereas the model returns the cycle failure once the fuel runs out; the model does not express non-termination.
- `getLayout(undefined)` and a `null` versus an absent `parent` are not distinguished. Both are an absent optional string, and an empty string is falsy like them.
- LayoutStore.Pick: a JSON `null` is not distinguished from an absent key for any optional scalar of a layout, preset or content entry. In the source, a child's explicit `null` overrides the parent's value under `{...parent, ...child}` and yields `null`. In the model the child's field is absent, so the parent's value is kept.
- The base-layout path choice in `extract_text_lines` (the `layout_dir`/`layout_id` file, then `s5/Season 5.json`, then `pfs2.json`) is not modelled, since it is file-system probing. The chosen layout arrives as an optional input.
- `SEASON_CONFIGS`' filename regular expressions are not modelled. Their two match groups arrive as inputs.
- `title_to_description` is modelled, but `process_season` never calls it.
- ChronicleLines.GroupFrom: `last_y` is not modelled, because the line grouping assigns it and never reads it.
- ChronicalLines.Threshold: `int(np.median(heights)) if heights else 12` falls back to 12 only for an empty list, and the list cannot be empty at that point. The model requires a non-empty word list.
- JSON key order of the generated layout is not modelled. Maps are unordered.
- The remaining tags (`rectangle`, `trigger`, `choice`, `line`, `strikeout`, `checkbox`) are not rendered. They draw nothing, because the dispatcher has no case for them.
- Top-level layout fields the core only carries (`flags`, `regions`, `checkboxes`, `item_lines`, `notes`, `defaultChronicleLocation`) are an uninterpreted `extra` map. It merges child-wins like the other scalars.
- LayoutAuthoring.Generate: names each item preset `item.line.<choice index>` instead of `item.line.<safe text>`. This is the corrected naming of the second finding below. The tool's naming is `LayoutAuthoring.PresetName` with `ByText`, and its effect is shown by `LayoutAuthoring.SafeNamesCollide`.

## Findings

| source | as written | input that shows it | evidently intended | confidence | as-written member | corrected member |
|---|---|---|---|---|---|---|
| scripts/LayoutStore.ts:97-101 | a layout is listed under a season when the second `.`-part of its id merely starts with `s<N>` | "Season 1" lists `pfs2.s10-01` (season 10) | list a layout only under its own season | high, not executed | GenerateLayouts.SeasonTenUnderSeasonOne | GenerateLayouts.ExactListingOwnSeasonOnly |
| chronicle2layout/src/chronicle2layout.py:480-485 | preset names come from the item text with punctuation deleted, so two different texts can share a preset, and the later item's position overwrites the earlier one's | items "A." at y 10 and "A" at y 20 both become `item.line.A`; choosing "A." strikes at y 20 | each choice strikes through its own item | high, not executed | LayoutAuthoring.SafeNamesCollide | LayoutAuthoring.ChoicesStruckAtTheirItem |

=== FILE: checkboxes.dfy ===
/** The checkbox de-duplication pass shared by both layout-authoring tools
    (chronicle2layout and chronical2layout). Contour detection is outside the
    model: the detected boxes arrive as a list, in percent of the page. */
module Checkboxes {

  import opened Sequences

  /** A detected box, in percent of the page. */
  datatype Box = Box(x: real, y: real, x2: real, y2: real)

  function Abs(r: real): real {
    if r < 0.0 then -r else r
  }

  /** Within half a percent of each other in both x and y. */
  predicate Near(a: Box, b: Box) {
    Abs(a.x - b.x) < 0.5 && Abs(a.y - b.y) < 0.5
  }

  /** `sorted(..., key=lambda r: (r['x'], r['y']))`: the tuple key compared lexicographically. */
  predicate Before(a: Box, b: Box) {
    a.x < b.x || (a.x == b.x && a.y < b.y)
  }

  lemma {:induction false} BeforeIsStrictOrder()
    ensures StrictOrder(Before)
  {
  }

  /** Some kept box is near `r`. */
  ghost predicate Covered(kept: seq<Box>, r: Box) {
    exists d :: d in kept && Near(d, r)
  }

  /** `any(abs(d.x - r.x) < 0.5 and abs(d.y - r.y) < 0.5 for d in kept)` */
  function AnyNear(kept: seq<Box>, r: Box): (b: bool)
    ensures b <==> Covered(kept, r)
  {
    if |kept| == 0 then false
    else
      assert kept == [kept[0]] + kept[1..];
      Near(kept[0], r) || AnyNear(kept[1..], r)
  }

  /** No two kept boxes are near each other. */
  predicate Separated(kept: seq<Box>) {
    forall i, j :: 0 <= i < j < |kept| ==> !Near(kept[i], kept[j])
  }

  /** Keeping a box that is near no kept box and precedes none of them keeps
      the kept boxes apart and in order. */
  lemma {:induction false} KeepStep(kept: seq<Box>, r: Box)
    requires Separated(kept) && Sorted(kept, Before)
    requires forall d :: d in kept ==> !Before(r, d) && !Near(d, r)
    ensures Separated(kept + [r]) && Sorted(kept + [r], Before)
  {
    var next := kept + [r];
    forall a, b | 0 <= a < b < |next|
      ensures !Near(next[a], next[b]) && !Before(next[b], next[a])
    {
      if b == |kept| {
        assert next[a] in kept;
      } else {
        assert next[a] == kept[a] && next[b] == kept[b];
      }
    }
  }

  /** A kept box stays kept, and a newly kept box covers itself. */
  lemma {:induction false} CoveredAppend(kept: seq<Box>, r: Box)
    ensures forall x :: Covered(kept, x) ==> Covered(kept + [r], x)
    ensures Covered(kept + [r], r)
  {
    forall x | Covered(kept, x)
      ensures Covered(kept + [r], x)
    {
      var d :| d in kept && Near(d, x);
      assert d in kept + [r];
    }
    assert r in kept + [r] && Near(r, r);
  }

  /** After the first `i` sorted boxes: the kept ones are apart and in order,
      each of the first `i` is covered, and `from` says where each kept box
      was found. */
  ghost predicate KeptSoFar(sorted: seq<Box>, i: int, kept: seq<Box>, from: seq<nat>) {
    && 0 <= i <= |sorted| && |from| == |kept|
    && Separated(kept) && Sorted(kept, Before)
    && (forall k :: 0 <= k < i ==> Covered(kept, sorted[k]))
    && FoundBefore(sorted, i, kept, from)
  }

  /** A box already covered is skipped. */
  lemma {:induction false} KeepSkip(sorted: seq<Box>, i: int, kept: seq<Box>, from: seq<nat>)
    requires KeptSoFar(sorted, i, kept, from) && i < |sorted|
    requires Covered(kept, sorted[i])
    ensures KeptSoFar(sorted, i + 1, kept, from)
  {
  }

  /** The kept boxes were found at the recorded positions before `i`. */
  predicate FoundBefore(sorted: seq<Box>, i: int, kept: seq<Box>, from: seq<nat>) {
    |from| == |kept| && forall j :: 0 <= j < |kept| ==> from[j] < i && from[j] < |sorted| && sorted[from[j]] == kept[j]
  }

  /** A box near no kept box, taken from after all of them, keeps the kept
      boxes apart and in order. */
  lemma {:induction false} TakeApart(sorted: seq<Box>, i: int, kept: seq<Box>, from: seq<nat>)
    requires Sorted(sorted, Before) && 0 <= i < |sorted|
    requires Separated(kept) && Sorted(kept, Before) && FoundBefore(sorted, i, kept, from)
    requires !Covered(kept, sorted[i])
    ensures Separated(kept + [sorted[i]]) && Sorted(kept + [sorted[i]], Before)
  {
    var r := sorted[i];
    forall d | d in kept
      ensures !Before(r, d) && !Near(d, r)
    {
      var j :| 0 <= j < |kept| && kept[j] == d;
      assert sorted[from[j]] == d;
    }
    KeepStep(kept, r);
  }

  /** Recording the position of a newly kept box. */
  lemma {:induction false} TakeFound(sorted: seq<Box>, i: int, kept: seq<Box>, from: seq<nat>)
    requires 0 <= i < |sorted| && FoundBefore(sorted, i, kept, from)
    ensures FoundBefore(sorted, i + 1, kept + [sorted[i]], from + [i])
  {
    var next, at := kept + [sorted[i]], from + [i];
    forall j | 0 <= j < |next|
      ensures at[j] < i + 1 && at[j] < |sorted| && sorted[at[j]] == next[j]
    {
      if j < |kept| {
        assert at[j] == from[j] && next[j] == kept[j];
      }
    }
  }

  /** A box near no kept box is kept. */
  lemma {:induction false} KeepTake(sorted: seq<Box>, i: int, kept: seq<Box>, from: seq<nat>)
    requires Sorted(sorted, Before)
    requires KeptSoFar(sorted, i, kept, from) && i < |sorted|
    requires !Covered(kept, sorted[i])
    ensures KeptSoFar(sorted, i + 1, kept + [sorted[i]], from + [i])
  {
    TakeApart(sorted, i, kept, from);
    TakeFound(sorted, i, kept, from);
    CoveredAppend(kept, sorted[i]);
  }

  /** After the last box: every kept box was found among the sorted ones. */
  lemma {:induction false} KeptAll(sorted: seq<Box>, kept: seq<Box>, from: seq<nat>)
    requires KeptSoFar(sorted, |sorted|, kept, from)
    ensures Separated(kept) && Sorted(kept, Before)
    ensures forall k :: 0 <= k < |sorted| ==> Covered(kept, sorted[k])
    ensures forall d :: d in kept ==> d in sorted
  {
    forall d | d in kept
      ensures d in sorted
    {
      var j :| 0 <= j < |kept| && kept[j] == d;
      assert sorted[from[j]] == d;
    }
  }

  /** The greedy pass over boxes already in `(x, y)` order. */
  method KeepApart(sorted: seq<Box>) returns (kept: seq<Box>)
    requires Sorted(sorted, Before)
    ensures Separated(kept)
    ensures forall k :: 0 <= k < |sorted| ==> Covered(kept, sorted[k])
    ensures forall d :: d in kept ==> d in sorted
    ensures Sorted(kept, Before)
  {
    kept := [];
    ghost var from: seq<nat> := [];
    for i := 0 to |sorted|
      invariant KeptSoFar(sorted, i, kept, from)
    {
      if AnyNear(kept, sorted[i]) {
        KeepSkip(sorted, i, kept, from);
      } else {
        KeepTake(sorted, i, kept, from);
        kept := kept + [sorted[i]];
        from := from + [i];
      }
    }
    KeptAll(sorted, kept, from);
  }

  /** Sort by `(x, y)`, then keep each box that is not near one already kept:
      the kept boxes are pairwise apart, every detected box is near a kept one,
      and nothing is invented. */
  method Dedup(results: seq<Box>) returns (deduped: seq<Box>)
    ensures Separated(deduped)
    ensures forall r :: r in results ==> Covered(deduped, r)
    ensures forall d :: d in deduped ==> d in results
    ensures Sorted(deduped, Before)
  {
    BeforeIsStrictOrder();
    var sorted := Sort(results, Before);
    SortSorted(results, Before);
    deduped := KeepApart(sorted);
    forall r | r in results
      ensures Covered(deduped, r)
    {
      assert r in multiset(sorted);
      var k :| 0 <= k < |sorted| && sorted[k] == r;
    }
    forall d | d in deduped
      ensures d in results
    {
      assert d in multiset(sorted);
    }
  }
}

=== FILE: chronical_lines.dfy ===
/** Text-line extraction of the second layout-authoring tool (chronical2layout):
    no position de-duplication, and lines are clusters built by comparing each
    word's top with a running, truncated midpoint of the cluster's tops. */
module ChronicalLines {

  import opened Wrappers
  import opened Sequences
  import opened PyBuiltins
  import opened OcrWords
  import Region

  /** The words of the rows with text, in row order. */
  function NonBlankWords(rows: seq<OcrRow>): (words: seq<Word>)
    ensures |words| <= |rows|
    ensures forall w :: w in words ==> w.text != ""
    ensures forall row :: row in rows && HasText(row) ==> WordOf(row) in words
    ensures words == [] <==> forall row :: row in rows ==> !HasText(row)
    decreases |rows|
  {
    if |rows| == 0 then []
    else
      assert forall row :: row in rows ==> row == rows[0] || row in rows[1..];
      (if HasText(rows[0]) then [WordOf(rows[0])] else []) + NonBlankWords(rows[1..])
  }

  /** Every word comes from a row with text. */
  lemma {:induction false} NonBlankWordsSound(rows: seq<OcrRow>)
    ensures forall w :: w in NonBlankWords(rows) ==> exists row :: row in rows && HasText(row) && WordOf(row) == w
    decreases |rows|
  {
    if |rows| > 0 {
      NonBlankWordsSound(rows[1..]);
      forall w | w in NonBlankWords(rows)
        ensures exists row :: row in rows && HasText(row) && WordOf(row) == w
      {
        if w in NonBlankWords(rows[1..]) {
          var row :| row in rows[1..] && HasText(row) && WordOf(row) == w;
          assert row in rows;
        } else {
          assert rows[0] in rows;
        }
      }
    }
  }

  /** `v_thresh = max(8, int(median_h * 0.9))` */
  function VThresh(medianH: int): (v: int)
    ensures v >= 8
    ensures v >= Trunc(medianH as real * 0.9)
    ensures v == 8 || v == Trunc(medianH as real * 0.9)
  {
    var t := Trunc(medianH as real * 0.9);
    if t > 8 then t else 8
  }

  /** The threshold for a non-empty word list: `median_h` is
      `int(np.median(heights))`. The tool's fallback of 12 for an empty
      height list cannot be reached, because the word list is not empty. */
  function Threshold(words: seq<Word>): (v: int)
    requires |words| > 0
    ensures v >= 8
  {
    VThresh(Trunc(Median(Heights(words))))
  }

  /** The clustering scan: a word joins the current cluster when its top is at
      most `v` below `lastTop`, which then moves to the truncated midpoint of
      itself and the word's top; otherwise the word starts a new cluster. */
  function Cluster(current: seq<Word>, lastTop: int, rest: seq<Word>, v: int): (clusters: seq<seq<Word>>)
    requires |current| > 0
    ensures |clusters| > 0 && forall c :: c in clusters ==> |c| > 0
    ensures |clusters[0]| >= |current| && clusters[0][..|current|] == current
    decreases |rest|
  {
    if |rest| == 0 then [current]
    else if rest[0].top - lastTop <= v then
      var r := Cluster(current + [rest[0]], Trunc((lastTop + rest[0].top) as real / 2.0), rest[1..], v);
      assert r[0][..|current|] == r[0][..|current| + 1][..|current|];
      r
    else [current] + Cluster([rest[0]], rest[0].top, rest[1..], v)
  }

  /** The scan loses, reorders and invents no word. */
  lemma {:induction false} ClusterFlatten(current: seq<Word>, lastTop: int, rest: seq<Word>, v: int)
    requires |current| > 0
    ensures Flatten(Cluster(current, lastTop, rest, v)) == current + rest
    decreases |rest|
  {
    if |rest| == 0 {
      assert current + rest == current;
      assert Flatten([current]) == current + Flatten([current][1..]);
    } else if rest[0].top - lastTop <= v {
      ClusterFlatten(current + [rest[0]], Trunc((lastTop + rest[0].top) as real / 2.0), rest[1..], v);
      assert current + [rest[0]] + rest[1..] == current + rest;
    } else {
      ClusterFlatten([rest[0]], rest[0].top, rest[1..], v);
      var tail := Cluster([rest[0]], rest[0].top, rest[1..], v);
      assert ([current] + tail)[1..] == tail;
      assert [rest[0]] + rest[1..] == rest;
    }
  }

  /** Tops never decrease along the sequence. */
  predicate TopsAscend(words: seq<Word>) {
    forall i, j :: 0 <= i < j < |words| ==> words[i].top <= words[j].top
  }

  /** No step between neighbouring words of a cluster is more than `v`. */
  predicate Tight(cluster: seq<Word>, v: int) {
    forall k :: 1 <= k < |cluster| ==> cluster[k].top - cluster[k - 1].top <= v
  }

  /** Ascending tops stay ascending in the remainder, which starts no higher
      than the last word before it. */
  lemma {:induction false} AscendSplit(current: seq<Word>, rest: seq<Word>)
    requires |current| > 0 && |rest| > 0
    requires TopsAscend(current + rest)
    ensures TopsAscend(rest)
    ensures current[|current| - 1].top <= rest[0].top
  {
    var all := current + rest;
    assert all[|current|] == rest[0] && all[|current| - 1] == current[|current| - 1];
    forall i, j | 0 <= i < j < |rest|
      ensures rest[i].top <= rest[j].top
    {
      assert rest[i] == all[|current| + i] && rest[j] == all[|current| + j];
    }
  }

  /** Over words in ascending top order, every step inside a cluster is at
      most `v`: the running midpoint never rises above the latest word's top. */
  lemma {:induction false} ClusterTight(current: seq<Word>, lastTop: int, rest: seq<Word>, v: int)
    requires |current| > 0
    requires TopsAscend(current + rest)
    requires lastTop <= current[|current| - 1].top
    requires Tight(current, v)
    ensures forall c :: c in Cluster(current, lastTop, rest, v) ==> Tight(c, v)
    decreases |rest|
  {
    if |rest| > 0 {
      var w := rest[0];
      AscendSplit(current, rest);
      if w.top - lastTop <= v {
        var next := current + [w];
        TruncBetween(lastTop, (lastTop + w.top) as real / 2.0, w.top);
        assert next + rest[1..] == current + rest;
        ClusterTight(next, Trunc((lastTop + w.top) as real / 2.0), rest[1..], v);
      } else {
        assert [w] + rest[1..] == rest;
        ClusterTight([w], w.top, rest[1..], v);
      }
    }
  }

  /** Each cluster starts more than `v` below the start of the one before it. */
  predicate StartsApart(cs: seq<seq<Word>>, v: int)
    requires forall c :: c in cs ==> |c| > 0
  {
    forall i :: 0 <= i < |cs| - 1 ==> cs[i + 1][0].top - cs[i][0].top > v
  }

  lemma {:induction false} StartsApartCons(current: seq<Word>, tail: seq<seq<Word>>, v: int)
    requires |current| > 0 && |tail| > 0 && forall c :: c in tail ==> |c| > 0
    requires StartsApart(tail, v)
    requires tail[0][0].top - current[0].top > v
    ensures StartsApart([current] + tail, v)
  {
    var cs: seq<seq<Word>> := [current] + tail;
    forall i | 0 <= i < |cs| - 1
      ensures cs[i + 1][0].top - cs[i][0].top > v
    {
      if i > 0 {
        assert cs[i] == tail[i - 1] && cs[i + 1] == tail[i];
      }
    }
  }

  /** Over words in ascending top order, each cluster starts more than `v`
      below the start of the one before it: the running midpoint never drops
      below the cluster's first top. */
  lemma {:induction false} ClusterApart(current: seq<Word>, lastTop: int, rest: seq<Word>, v: int)
    requires |current| > 0
    requires TopsAscend(current + rest)
    requires current[0].top <= lastTop <= current[|current| - 1].top
    ensures StartsApart(Cluster(current, lastTop, rest, v), v)
    decreases |rest|
  {
    if |rest| > 0 {
      var w := rest[0];
      AscendSplit(current, rest);
      if w.top - lastTop <= v {
        var next := current + [w];
        TruncBetween(lastTop, (lastTop + w.top) as real / 2.0, w.top);
        assert next + rest[1..] == current + rest;
        var mid := Trunc((lastTop + w.top) as real / 2.0);
        assert next[0] == current[0] && next[|next| - 1] == w;
        ClusterApart(next, mid, rest[1..], v);
      } else {
        assert [w] + rest[1..] == rest;
        ClusterApart([w], w.top, rest[1..], v);
        var tail := Cluster([w], w.top, rest[1..], v);
        assert tail[0][..1] == [w];
        StartsApartCons(current, tail, v);
      }
    }
  }

  /** Sorting by `(top, left)` puts tops in ascending order. */
  lemma {:induction false} SortedByTopLeftAscends(words: seq<Word>)
    ensures TopsAscend(Sort(words, TopLeftBefore))
  {
    TopLeftIsStrictOrder();
    SortSorted(words, TopLeftBefore);
  }

  /** The clusters of a non-empty word list, each sorted by `left`. */
  function Lines(words: seq<Word>): (lines: seq<seq<Word>>)
    requires |words| > 0
    ensures forall l :: l in lines ==> |l| > 0
  {
    var sorted := Sort(words, TopLeftBefore);
    var clusters := Cluster([sorted[0]], sorted[0].top, sorted[1..], Threshold(words));
    var lines := SortEachByLeft(clusters);
    assert forall l :: l in lines ==> |l| > 0 by {
      forall l | l in lines
        ensures |l| > 0
      {
        var i :| 0 <= i < |lines| && lines[i] == l;
        assert clusters[i] in clusters;
      }
    }
    lines
  }

  /** Concatenating the clusters gives back the sorted words, so every word
      is in exactly one line. */
  lemma {:induction false} LinesKeepWords(words: seq<Word>)
    requires |words| > 0
    ensures var sorted := Sort(words, TopLeftBefore);
      Flatten(Cluster([sorted[0]], sorted[0].top, sorted[1..], Threshold(words))) == sorted
    ensures multiset(Flatten(Lines(words))) == multiset(words)
  {
    var sorted := Sort(words, TopLeftBefore);
    var clusters := Cluster([sorted[0]], sorted[0].top, sorted[1..], Threshold(words));
    ClusterFlatten([sorted[0]], sorted[0].top, sorted[1..], Threshold(words));
    assert [sorted[0]] + sorted[1..] == sorted;
    SortEachKeepsWords(clusters);
  }

  /** The clusters of the sorted words are tight and more than the threshold
      apart at their starts. */
  lemma {:induction false} ClustersOfSortedWords(words: seq<Word>)
    requires |words| > 0
    ensures var sorted := Sort(words, TopLeftBefore);
      var v := Threshold(words);
      var cs := Cluster([sorted[0]], sorted[0].top, sorted[1..], v);
      && (forall c :: c in cs ==> Tight(c, v))
      && StartsApart(cs, v)
  {
    var sorted := Sort(words, TopLeftBefore);
    SortedByTopLeftAscends(words);
    assert [sorted[0]] + sorted[1..] == sorted;
    ClusterTight([sorted[0]], sorted[0].top, sorted[1..], Threshold(words));
    ClusterApart([sorted[0]], sorted[0].top, sorted[1..], Threshold(words));
  }

  /** `extract_text_lines` once the page is rendered: an absent region is the
      default one; `rows` is Tesseract's output on the crop. */
  function ExtractTextLines(region: Option<Region.Region>, w: int, h: int, rows: seq<OcrRow>): (r: seq<TextLine>)
    ensures Region.CropBox(region.GetOr(Region.DefaultRegion), w, h).None? ==> r == []
    ensures NonBlankWords(rows) == [] ==> r == []
    ensures forall t :: t in r ==> !MentionsItems(t.text)
  {
    match Region.CropBox(region.GetOr(Region.DefaultRegion), w, h)
    case None => []
    case Some(crop) =>
      var words := NonBlankWords(rows);
      if words == [] then []
      else ToTextLines(Lines(words), crop.x1 - crop.x0, crop.y1 - crop.y0)
  }
}

=== FILE: chronicle_lines.dfy ===
/** Text-line extraction of the first layout-authoring tool (chronicle2layout):
    words de-duplicated by position bucket, sorted by `(top, left)`, grouped
    into lines by vertical proximity to any word of the line, each line
    sorted by `left`, and the "Items" heading dropped. */
module ChronicleLines {

  import opened Strings
  import opened Sequences
  import opened PyBuiltins
  import opened OcrWords
  import Region

  // ---------------------------------------------------------------------------
  // Word collection
  // ---------------------------------------------------------------------------

  /** `f"{x//2}:{y//2}"`: rows whose corners fall in the same 2-by-2 pixel cell
      share a key. Floor division by a positive divisor is Dafny's `/`. */
  function Bucket(row: OcrRow): (int, int) {
    (row.left / 2, row.top / 2)
  }

  function WordBucket(w: Word): (int, int) {
    (w.left / 2, w.top / 2)
  }

  /** The words of the rows, skipping blank rows and any row whose bucket was
      seen before (`seen` holds the buckets of the words already taken). */
  function CollectFrom(rows: seq<OcrRow>, seen: set<(int, int)>): (words: seq<Word>)
    ensures forall w :: w in words ==> w.text != "" && WordBucket(w) !in seen
    ensures forall i, j :: 0 <= i < j < |words| ==> WordBucket(words[i]) != WordBucket(words[j])
    ensures |words| <= |rows|
    decreases |rows|
  {
    if |rows| == 0 then []
    else
      var row := rows[0];
      if !HasText(row) || Bucket(row) in seen then CollectFrom(rows[1..], seen)
      else [WordOf(row)] + CollectFrom(rows[1..], seen + {Bucket(row)})
  }

  /** The words of `image_to_data`'s rows: non-blank, first one per bucket. */
  function CollectWords(rows: seq<OcrRow>): (words: seq<Word>)
    ensures forall w :: w in words ==> w.text != ""
    ensures forall i, j :: 0 <= i < j < |words| ==> WordBucket(words[i]) != WordBucket(words[j])
  {
    CollectFrom(rows, {})
  }

  /** Row `i` has text, and no earlier row with text shares its bucket or
      (for a resumed scan) was taken before the scan began. */
  ghost predicate FirstOfBucket(rows: seq<OcrRow>, i: int, seen: set<(int, int)>) {
    && 0 <= i < |rows|
    && HasText(rows[i])
    && Bucket(rows[i]) !in seen
    && forall j :: 0 <= j < i && HasText(rows[j]) ==> Bucket(rows[j]) != Bucket(rows[i])
  }

  /** The buckets taken once `row` has been scanned. */
  function Next(row: OcrRow, seen: set<(int, int)>): set<(int, int)> {
    if HasText(row) && Bucket(row) !in seen then seen + {Bucket(row)} else seen
  }

  /** Dropping the first row shifts "first in its bucket" by one position. */
  lemma {:induction false} FirstOfBucketShift(rows: seq<OcrRow>, i: int, seen: set<(int, int)>)
    requires 1 <= i < |rows|
    ensures FirstOfBucket(rows, i, seen) <==> FirstOfBucket(rows[1..], i - 1, Next(rows[0], seen))
  {
    if FirstOfBucket(rows, i, seen) {
      FirstOfBucketDrop(rows, i, seen);
    }
    if FirstOfBucket(rows[1..], i - 1, Next(rows[0], seen)) {
      FirstOfBucketRestore(rows, i, seen);
    }
  }

  lemma {:induction false} FirstOfBucketDrop(rows: seq<OcrRow>, i: int, seen: set<(int, int)>)
    requires 1 <= i < |rows| && FirstOfBucket(rows, i, seen)
    ensures FirstOfBucket(rows[1..], i - 1, Next(rows[0], seen))
  {
    var tail := rows[1..];
    var b := Bucket(rows[i]);
    assert tail[i - 1] == rows[i];
    assert HasText(rows[0]) ==> Bucket(rows[0]) != b;
    NotInNext(rows[0], b, seen);
    forall j | 0 <= j < i - 1 && HasText(tail[j])
      ensures Bucket(tail[j]) != b
    {
      assert tail[j] == rows[j + 1];
    }
  }

  /** A bucket not yet taken, and not the scanned row's, stays untaken. */
  lemma {:induction false} NotInNext(row: OcrRow, b: (int, int), seen: set<(int, int)>)
    requires b !in seen && (HasText(row) ==> Bucket(row) != b)
    ensures b !in Next(row, seen)
  {
  }

  lemma {:induction false} FirstOfBucketRestore(rows: seq<OcrRow>, i: int, seen: set<(int, int)>)
    requires 1 <= i < |rows| && FirstOfBucket(rows[1..], i - 1, Next(rows[0], seen))
    ensures FirstOfBucket(rows, i, seen)
  {
    var tail := rows[1..];
    assert tail[i - 1] == rows[i];
    var later := Next(rows[0], seen);
    assert seen <= later;
    assert HasText(rows[0]) ==> Bucket(rows[0]) in later;
    forall j | 0 <= j < i && HasText(rows[j])
      ensures Bucket(rows[j]) != Bucket(rows[i])
    {
      if j > 0 {
        assert tail[j - 1] == rows[j];
      }
    }
  }

  /** Every row that comes first in its bucket contributes its word. */
  lemma {:induction false} CollectFromComplete(rows: seq<OcrRow>, seen: set<(int, int)>)
    ensures forall i :: FirstOfBucket(rows, i, seen) ==> WordOf(rows[i]) in CollectFrom(rows, seen)
    decreases |rows|
  {
    if |rows| > 0 {
      var seen' := Next(rows[0], seen);
      CollectFromComplete(rows[1..], seen');
      forall i | FirstOfBucket(rows, i, seen)
        ensures WordOf(rows[i]) in CollectFrom(rows, seen)
      {
        if i > 0 {
          FirstOfBucketShift(rows, i, seen);
          assert rows[1..][i - 1] == rows[i];
        }
      }
    }
  }

  /** Every collected word is the word of a row that comes first in its bucket. */
  lemma {:induction false} CollectFromSound(rows: seq<OcrRow>, seen: set<(int, int)>)
    ensures forall w :: w in CollectFrom(rows, seen) ==> exists i :: FirstOfBucket(rows, i, seen) && WordOf(rows[i]) == w
    decreases |rows|
  {
    if |rows| > 0 {
      var seen' := Next(rows[0], seen);
      CollectFromSound(rows[1..], seen');
      var rest := CollectFrom(rows[1..], seen');
      forall w | w in CollectFrom(rows, seen)
        ensures exists i :: FirstOfBucket(rows, i, seen) && WordOf(rows[i]) == w
      {
        if HasText(rows[0]) && Bucket(rows[0]) !in seen && w == WordOf(rows[0]) {
          assert FirstOfBucket(rows, 0, seen);
        } else {
          assert w in rest;
          var k :| FirstOfBucket(rows[1..], k, seen') && WordOf(rows[1..][k]) == w;
          FirstOfBucketShift(rows, k + 1, seen);
          assert rows[1..][k] == rows[k + 1];
        }
      }
    }
  }

  /** The collected words are exactly the words of the rows that come first
      in their bucket. */
  lemma {:induction false} CollectWordsFirsts(rows: seq<OcrRow>)
    ensures forall i :: FirstOfBucket(rows, i, {}) ==> WordOf(rows[i]) in CollectWords(rows)
    ensures forall w :: w in CollectWords(rows) ==> exists i :: FirstOfBucket(rows, i, {}) && WordOf(rows[i]) == w
  {
    CollectFromComplete(rows, {});
    CollectFromSound(rows, {});
  }

  // ---------------------------------------------------------------------------
  // Line grouping
  // ---------------------------------------------------------------------------

  /** Within the vertical threshold of one word. */
  predicate Near(w: Word, u: Word, thr: real) {
    var d := w.top - u.top;
    (if d < 0 then -d else d) as real <= thr
  }

  /** `any(abs(word['top'] - w['top']) <= median_h * 0.75 for w in current_line)` */
  function Joins(w: Word, line: seq<Word>, thr: real): (b: bool)
    ensures b <==> exists u :: u in line && Near(w, u, thr)
  {
    if |line| == 0 then false
    else
      assert line == [line[0]] + line[1..];
      Near(w, line[0], thr) || Joins(w, line[1..], thr)
  }

  /** The scan over sorted words: `current` is the line being built (empty
      only before the first word). */
  function GroupFrom(current: seq<Word>, rest: seq<Word>, thr: real): (lines: seq<seq<Word>>)
    ensures forall l :: l in lines ==> |l| > 0
    ensures current != [] ==> |lines| > 0 && |lines[0]| >= |current| && lines[0][..|current|] == current
    ensures current == [] && rest != [] ==> |lines| > 0 && lines[0][0] == rest[0]
    decreases |rest|
  {
    if |rest| == 0 then (if |current| == 0 then [] else [current])
    else if |current| == 0 then GroupFrom([rest[0]], rest[1..], thr)
    else if Joins(rest[0], current, thr) then
      var r := GroupFrom(current + [rest[0]], rest[1..], thr);
      assert r[0][..|current|] == r[0][..|current| + 1][..|current|];
      r
    else [current] + GroupFrom([rest[0]], rest[1..], thr)
  }

  /** Each word after the first joins the words before it in its line. */
  predicate Cohesive(line: seq<Word>, thr: real) {
    forall k :: 1 <= k < |line| ==> Joins(line[k], line[..k], thr)
  }

  /** The first word of each line fails to join the line before it. */
  predicate Apart(lines: seq<seq<Word>>, thr: real)
    requires forall l :: l in lines ==> |l| > 0
  {
    forall i :: 0 <= i < |lines| - 1 ==> !Joins(lines[i + 1][0], lines[i], thr)
  }

  /** The grouping rule, stated without the scan: the lines concatenate to the
      words, none is empty, each is cohesive, and consecutive lines are apart. */
  ghost predicate IsLineGrouping(lines: seq<seq<Word>>, words: seq<Word>, thr: real) {
    && Flatten(lines) == words
    && (forall l :: l in lines ==> |l| > 0)
    && (forall l :: l in lines ==> Cohesive(l, thr))
    && Apart(lines, thr)
  }

  /** The scan loses, reorders and invents no word. */
  lemma {:induction false} GroupFromFlatten(current: seq<Word>, rest: seq<Word>, thr: real)
    ensures Flatten(GroupFrom(current, rest, thr)) == current + rest
    decreases |rest|
  {
    if |rest| == 0 {
      assert current + rest == current;
      if |current| > 0 {
        assert Flatten([current]) == current + Flatten([current][1..]);
      }
    } else if |current| == 0 {
      GroupFromFlatten([rest[0]], rest[1..], thr);
      assert [rest[0]] + rest[1..] == rest;
    } else if Joins(rest[0], current, thr) {
      GroupFromFlatten(current + [rest[0]], rest[1..], thr);
      assert current + [rest[0]] + rest[1..] == current + rest;
    } else {
      GroupFromFlatten([rest[0]], rest[1..], thr);
      var tail := GroupFrom([rest[0]], rest[1..], thr);
      assert ([current] + tail)[1..] == tail;
      assert [rest[0]] + rest[1..] == rest;
    }
  }

  /** The scan keeps lines cohesive and apart. */
  lemma {:induction false} GroupFromShape(current: seq<Word>, rest: seq<Word>, thr: real)
    requires Cohesive(current, thr)
    ensures forall l :: l in GroupFrom(current, rest, thr) ==> Cohesive(l, thr)
    ensures Apart(GroupFrom(current, rest, thr), thr)
    decreases |rest|
  {
    if |rest| == 0 {
    } else if |current| == 0 {
      GroupFromShape([rest[0]], rest[1..], thr);
    } else if Joins(rest[0], current, thr) {
      var next := current + [rest[0]];
      assert Cohesive(next, thr) by {
        forall k | 1 <= k < |next|
          ensures Joins(next[k], next[..k], thr)
        {
          if k < |current| {
            assert next[..k] == current[..k];
          } else {
            assert next[..k] == current;
          }
        }
      }
      GroupFromShape(next, rest[1..], thr);
    } else {
      GroupFromShape([rest[0]], rest[1..], thr);
      var tail := GroupFrom([rest[0]], rest[1..], thr);
      var r := [current] + tail;
      assert tail[0][0] == rest[0];
      forall i | 0 <= i < |r| - 1
        ensures !Joins(r[i + 1][0], r[i], thr)
      {
        if i > 0 {
          assert r[i] == tail[i - 1] && r[i + 1] == tail[i];
        }
      }
    }
  }

  /** The scan's output meets the grouping rule. */
  lemma {:induction false} GroupingExists(words: seq<Word>, thr: real)
    ensures IsLineGrouping(GroupFrom([], words, thr), words, thr)
  {
    GroupFromFlatten([], words, thr);
    GroupFromShape([], words, thr);
    assert [] + words == words;
  }

  /** `Flatten` of a list with a non-empty head starts with the head. */
  lemma {:induction false} FlattenHead<T>(lines: seq<seq<T>>)
    requires |lines| > 0
    ensures Flatten(lines) == lines[0] + Flatten(lines[1..])
  {
  }

  /** What a grouping of `current + rest` whose first line extends `current`
      leaves after `current`: the rest of the first line, then the other lines. */
  lemma {:induction false} GroupingAfterCurrent(current: seq<Word>, rest: seq<Word>, lines: seq<seq<Word>>)
    requires |lines| > 0 && |lines[0]| >= |current| && lines[0][..|current|] == current
    requires Flatten(lines) == current + rest
    ensures lines[0] == current + lines[0][|current|..]
    ensures lines[0][|current|..] + Flatten(lines[1..]) == rest
  {
    var head, tail := lines[0], lines[1..];
    FlattenHead(lines);
    var more := head[|current|..];
    assert head == current + more;
    assert head + Flatten(tail) == current + (more + Flatten(tail));
    assert (current + (more + Flatten(tail)))[|current|..] == more + Flatten(tail);
    assert (current + rest)[|current|..] == rest;
  }

  /** With no words left, the grouping is the one line `current`. */
  lemma {:induction false} GroupingOfCurrent(current: seq<Word>, lines: seq<seq<Word>>, thr: real)
    requires |lines| > 0 && |lines[0]| >= |current| && lines[0][..|current|] == current
    requires IsLineGrouping(lines, current, thr)
    ensures lines == [current]
  {
    GroupingAfterCurrent(current, [], lines);
    var tail := lines[1..];
    assert Flatten(tail) == [];
    assert forall l :: l in tail ==> l in lines;
    FlattenNonEmpty(tail);
    assert lines[0] == current;
    assert lines == [lines[0]] + tail;
  }

  /** Non-empty lines flatten to a non-empty sequence. */
  lemma {:induction false} FlattenNonEmpty<T>(lines: seq<seq<T>>)
    requires forall l :: l in lines ==> |l| > 0
    ensures |lines| > 0 ==> |Flatten(lines)| > 0
  {
    if |lines| > 0 {
      FlattenHead(lines);
      assert lines[0] in lines;
    }
  }

  /** A first line longer than `current` continues with the next word, which
      therefore joins `current`. */
  lemma {:induction false} GroupingExtends(current: seq<Word>, rest: seq<Word>, lines: seq<seq<Word>>, thr: real)
    requires current != [] && |rest| > 0 && |lines| > 0 && |lines[0]| > |current| && lines[0][..|current|] == current
    requires IsLineGrouping(lines, current + rest, thr)
    ensures Joins(rest[0], current, thr)
    ensures lines[0][..|current| + 1] == current + [rest[0]]
    ensures IsLineGrouping(lines, (current + [rest[0]]) + rest[1..], thr)
  {
    var head := lines[0];
    GroupingAfterCurrent(current, rest, lines);
    var more := head[|current|..];
    assert more[0] == (more + Flatten(lines[1..]))[0] == rest[0];
    assert head[|current|] == rest[0];
    assert head in lines;
    assert Cohesive(head, thr);
    assert Joins(head[|current|], head[..|current|], thr);
    assert (current + [rest[0]]) + rest[1..] == current + rest;
  }

  /** A first line that is exactly `current` is followed by lines grouping the
      remaining words, the first of which does not join `current`. */
  lemma {:induction false} GroupingBreaks(current: seq<Word>, rest: seq<Word>, lines: seq<seq<Word>>, thr: real)
    requires |rest| > 0 && |lines| > 0 && |lines[0]| == |current| && lines[0][..|current|] == current
    requires IsLineGrouping(lines, current + rest, thr)
    ensures lines == [current] + lines[1..] && |lines| > 1
    ensures !Joins(rest[0], current, thr)
    ensures |lines[1]| >= 1 && lines[1][..1] == [rest[0]]
    ensures IsLineGrouping(lines[1..], [rest[0]] + rest[1..], thr)
  {
    var tail := lines[1..];
    GroupingAfterCurrent(current, rest, lines);
    assert lines[0] == current;
    assert Flatten(tail) == rest;
    assert |tail| > 0;
    FlattenHead(tail);
    assert tail[0] in lines;
    assert lines[1] == tail[0];
    assert tail[0][0] == rest[0];
    assert [rest[0]] + rest[1..] == rest;
    forall l | l in tail
      ensures |l| > 0 && Cohesive(l, thr)
    {
      assert l in lines;
    }
    forall i | 0 <= i < |tail| - 1
      ensures !Joins(tail[i + 1][0], tail[i], thr)
    {
      assert tail[i] == lines[i + 1] && tail[i + 1] == lines[i + 2];
    }
    assert lines == [lines[0]] + tail;
  }

  /** Any grouping whose first line extends `current` is the scan from
      `current`. */
  lemma {:induction false} GroupingUniqueFrom(current: seq<Word>, rest: seq<Word>, lines: seq<seq<Word>>, thr: real)
    requires current != [] && |lines| > 0
    requires |lines[0]| >= |current| && lines[0][..|current|] == current
    requires IsLineGrouping(lines, current + rest, thr)
    ensures lines == GroupFrom(current, rest, thr)
    decreases |rest|
  {
    if |rest| == 0 {
      assert current + rest == current;
      GroupingOfCurrent(current, lines, thr);
    } else if |lines[0]| > |current| {
      GroupingExtends(current, rest, lines, thr);
      GroupingUniqueFrom(current + [rest[0]], rest[1..], lines, thr);
    } else {
      GroupingBreaks(current, rest, lines, thr);
      GroupingUniqueFrom([rest[0]], rest[1..], lines[1..], thr);
    }
  }

  /** The grouping rule determines the lines: the scan's output is the only
      grouping of the words that meets it. */
  lemma {:induction false} GroupingUnique(words: seq<Word>, lines: seq<seq<Word>>, thr: real)
    requires IsLineGrouping(lines, words, thr)
    ensures lines == GroupFrom([], words, thr)
  {
    if |words| == 0 {
      if |lines| > 0 {
        assert false;
      }
    } else {
      assert |lines| > 0;
      FlattenHead(lines);
      assert lines[0] in lines;
      assert lines[0][0] == words[0];
      assert lines[0][..1] == [words[0]];
      assert [words[0]] + words[1..] == words;
      GroupingUniqueFrom([words[0]], words[1..], lines, thr);
    }
  }

  // ---------------------------------------------------------------------------
  // The pipeline
  // ---------------------------------------------------------------------------

  /** The vertical threshold: `int(np.median(heights)) * 0.75`. */
  function Threshold(words: seq<Word>): real
    requires |words| > 0
  {
    Trunc(Median(Heights(words))) as real * 0.75
  }

  /** The lines of the collected words: sorted by `(top, left)`, grouped, each
      line sorted by `left`. */
  function Lines(words: seq<Word>): (lines: seq<seq<Word>>)
    requires |words| > 0
    ensures forall l :: l in lines ==> |l| > 0
  {
    var sorted := Sort(words, TopLeftBefore);
    var groups := GroupFrom([], sorted, Threshold(words));
    var lines := SortEachByLeft(groups);
    assert forall l :: l in lines ==> |l| > 0 by {
      forall l | l in lines
        ensures |l| > 0
      {
        var i :| 0 <= i < |lines| && lines[i] == l;
        assert groups[i] in groups;
      }
    }
    lines
  }

  /** Every collected word appears in exactly one line, as often as it was
      collected. */
  lemma {:induction false} LinesKeepWords(words: seq<Word>)
    requires |words| > 0
    ensures multiset(Flatten(Lines(words))) == multiset(words)
  {
    var sorted := Sort(words, TopLeftBefore);
    var groups := GroupFrom([], sorted, Threshold(words));
    SortEachKeepsWords(groups);
    GroupFromFlatten([], sorted, Threshold(words));
    assert [] + sorted == sorted;
  }

  /** `extract_text_lines` once the page is rendered: crop the region, collect
      the OCR words of the crop, group them into lines, and drop the heading.
      `rows` is Tesseract's output on the crop. */
  function ExtractTextLines(region: Region.Region, w: int, h: int, rows: seq<OcrRow>): (r: seq<TextLine>)
    ensures Region.CropBox(region, w, h).None? ==> r == []
    ensures CollectWords(rows) == [] ==> r == []
    ensures forall t :: t in r ==> !MentionsItems(t.text)
  {
    match Region.CropBox(region, w, h)
    case None => []
    case Some(crop) =>
      var words := CollectWords(rows);
      if words == [] then []
      else ToTextLines(Lines(words), crop.x1 - crop.x0, crop.y1 - crop.y0)
  }
}

=== FILE: fill_fields.dfy ===
/** scripts/fill_fields.ts: the command line that fills one chronicle. The
    required-flag check, the `--parameter` scan, the pre-processing of
    `charactername` and `societyid`, and the hand-over to the store and the
    renderer. Reading and writing the PDF file are outside the model. */
module FillFields {

  import opened Wrappers
  import opened Strings
  import opened LayoutModel
  import LayoutStore
  import StandaloneStore
  import PdfGenerator

  // ---------------------------------------------------------------------------
  // Flags
  // ---------------------------------------------------------------------------

  const PdfFlag: string := "--pdf"
  const LayoutDirFlag: string := "--layout-dir"
  const LayoutNameFlag: string := "--layout-name"
  const ParamFlag: string := "--parameter"

  /** A parameter object: a key may hold `undefined` (`None`) after `k` without `=`. */
  type Params = map<string, Option<string>>

  datatype FillError =
    | Usage
    | MissingParameterValue
    | Store(storeError: LayoutStore.StoreError)
    | Render(renderError: PdfGenerator.RenderError)

  /** `args.indexOf(flag)`, with -1 as `None`. */
  function IndexOf(args: seq<string>, flag: string): (r: Option<nat>)
    ensures r.None? <==> flag !in args
    ensures r.Some? ==> r.value < |args| && args[r.value] == flag && flag !in args[..r.value]
  {
    if |args| == 0 then None
    else if args[0] == flag then Some(0)
    else
      var rest := IndexOf(args[1..], flag);
      assert args == [args[0]] + args[1..];
      if rest.None? then None
      else
        assert args[..rest.value + 1] == [args[0]] + args[1..][..rest.value];
        Some(rest.value + 1)
  }

  /** `args[i + 1]`, which is `undefined` past the end. */
  function After(args: seq<string>, i: nat): Option<string> {
    if i + 1 < |args| then Some(args[i + 1]) else None
  }

  /** `v` is what follows the first occurrence of `flag`. */
  ghost predicate FirstValue(args: seq<string>, flag: string, v: Option<string>) {
    exists i: nat :: i < |args| && args[i] == flag && flag !in args[..i] && v == After(args, i)
  }

  /** The three values the run needs; each is `undefined` when its flag is last. */
  datatype Invocation = Invocation(pdf: Option<string>, layoutDir: Option<string>, layoutName: Option<string>)

  /** The usage check: all three flags must be present. */
  function RequiredFlags(args: seq<string>): (r: Result<Invocation, FillError>)
    ensures r.Failure? <==> PdfFlag !in args || LayoutDirFlag !in args || LayoutNameFlag !in args
    ensures r.Failure? ==> r.error == Usage
    ensures r.Success? ==> FirstValue(args, PdfFlag, r.value.pdf)
    ensures r.Success? ==> FirstValue(args, LayoutDirFlag, r.value.layoutDir)
    ensures r.Success? ==> FirstValue(args, LayoutNameFlag, r.value.layoutName)
  {
    var pdf, dir, name := IndexOf(args, PdfFlag), IndexOf(args, LayoutDirFlag), IndexOf(args, LayoutNameFlag);
    if pdf.None? || dir.None? || name.None? then Failure(Usage)
    else Success(Invocation(After(args, pdf.value), After(args, dir.value), After(args, name.value)))
  }

  // ---------------------------------------------------------------------------
  // The `--parameter` scan
  // ---------------------------------------------------------------------------

  /** `param.split('=')[0]`: the text before the first `=`. */
  function ParamKey(param: string): string {
    Split(param, '=')[0]
  }

  /** `param.split('=')[1]`: the text between the first and second `=`, if any. */
  function ParamValue(param: string): Option<string> {
    var parts := Split(param, '=');
    if |parts| >= 2 then Some(parts[1]) else None
  }

  /** `k=v` and `k=v=rest` both give key `k` and value `v`; what follows a second `=` is dropped. */
  lemma {:induction false} KeyValueOf(k: string, v: string, rest: string)
    requires '=' !in k && '=' !in v
    ensures ParamKey(k + "=" + v) == k && ParamValue(k + "=" + v) == Some(v)
    ensures ParamKey(k + "=" + v + "=" + rest) == k && ParamValue(k + "=" + v + "=" + rest) == Some(v)
  {
    SplitCons(k, v, '=');
    SplitNoSep(v, '=');
    assert Split(k + "=" + v, '=') == [k, v];
    SplitCons(v, rest, '=');
    SplitCons(k, v + "=" + rest, '=');
    assert k + "=" + v + "=" + rest == k + ['='] + (v + ['='] + rest);
  }

  /** A token without `=` is a key whose value is `undefined`. */
  lemma {:induction false} KeyWithoutValue(k: string)
    requires '=' !in k
    ensures ParamKey(k) == k && ParamValue(k) == None
  {
    SplitNoSep(k, '=');
  }

  /** The tokens the scan takes as `key=value` arguments, in order: each
      `--parameter` consumes the token after it, which is never itself looked
      at as a flag. `None` when a scanned `--parameter` is the last argument
      (`undefined.split` throws). */
  function ParamTokens(args: seq<string>): (r: Option<seq<string>>)
    ensures r.Some? ==> 2 * |r.value| <= |args|
    ensures r.None? ==> |args| > 0 && args[|args| - 1] == ParamFlag
    decreases |args|
  {
    if |args| == 0 then Some([])
    else if args[0] == ParamFlag then
      if |args| == 1 then None
      else
        var rest := ParamTokens(args[2..]);
        if rest.None? then None else Some([args[1]] + rest.value)
    else ParamTokens(args[1..])
  }

  /** Prefixing a successful scan's tokens onto a later one. */
  function Then(seen: seq<string>, later: Option<seq<string>>): Option<seq<string>> {
    if later.None? then None else Some(seen + later.value)
  }

  lemma {:induction false} ThenNested(seen: seq<string>, more: seq<string>, later: Option<seq<string>>)
    ensures Then(seen, Then(more, later)) == Then(seen + more, later)
    ensures Then([], later) == later
  {
    if later.Some? {
      assert seen + (more + later.value) == (seen + more) + later.value;
      assert [] + later.value == later.value;
    }
  }

  /** The scan is compositional: a completed scan of `a` leaves the scan of `b` unaffected. */
  lemma {:induction false} ParamTokensAppend(a: seq<string>, b: seq<string>)
    requires ParamTokens(a).Some?
    ensures ParamTokens(a + b) == Then(ParamTokens(a).value, ParamTokens(b))
    decreases |a|
  {
    if |a| == 0 {
      assert a + b == b;
      ThenNested([], [], ParamTokens(b));
    } else if a[0] == ParamFlag {
      assert (a + b)[0] == ParamFlag && (a + b)[1] == a[1];
      assert (a + b)[2..] == a[2..] + b;
      ParamTokensAppend(a[2..], b);
      var ta := ParamTokens(a[2..]).value;
      if ParamTokens(b).Some? {
        assert [a[1]] + (ta + ParamTokens(b).value) == ([a[1]] + ta) + ParamTokens(b).value;
      }
    } else {
      assert (a + b)[1..] == a[1..] + b;
      ParamTokensAppend(a[1..], b);
    }
  }

  /** `--parameter --parameter`: the second flag is the first's value, not a flag. */
  lemma {:induction false} FlagAsValue(rest: seq<string>)
    ensures ParamTokens([ParamFlag, ParamFlag] + rest) == Then([ParamFlag], ParamTokens(rest))
  {
    assert ([ParamFlag, ParamFlag] + rest)[2..] == rest;
  }

  /** A scanned `--parameter` with nothing after it fails the run. */
  lemma {:induction false} TrailingFlagFails(args: seq<string>)
    requires ParamTokens(args).Some?
    ensures ParamTokens(args + [ParamFlag]).None?
  {
    ParamTokensAppend(args, [ParamFlag]);
  }

  /** `parameters[key] = value` for each consumed token in turn. */
  function Assign(tokens: seq<string>): Params
    decreases |tokens|
  {
    if |tokens| == 0 then map[]
    else
      var last := tokens[|tokens| - 1];
      Assign(tokens[..|tokens| - 1])[ParamKey(last) := ParamValue(last)]
  }

  /** `tokens[i]` is the last token with key `k`. */
  ghost predicate LastWith(tokens: seq<string>, k: string, i: int) {
    && 0 <= i < |tokens| && ParamKey(tokens[i]) == k
    && forall j :: i < j < |tokens| ==> ParamKey(tokens[j]) != k
  }

  /** The keys are exactly the keys of the tokens. */
  lemma {:induction false} AssignKeys(tokens: seq<string>, k: string)
    ensures k in Assign(tokens) <==> exists i :: 0 <= i < |tokens| && ParamKey(tokens[i]) == k
    decreases |tokens|
  {
    if |tokens| > 0 {
      var n := |tokens| - 1;
      var init := tokens[..n];
      AssignKeys(init, k);
      if ParamKey(tokens[n]) != k {
        if k in Assign(tokens) {
          var i :| 0 <= i < n && ParamKey(init[i]) == k;
          assert tokens[i] == init[i];
        } else {
          forall i | 0 <= i < n
            ensures ParamKey(tokens[i]) != k
          {
            assert tokens[i] == init[i];
          }
        }
      }
    }
  }

  /** The last token with a key decides its value. */
  lemma {:induction false} LastWriteWins(tokens: seq<string>, k: string, i: int)
    requires LastWith(tokens, k, i)
    ensures k in Assign(tokens) && Assign(tokens)[k] == ParamValue(tokens[i])
    decreases |tokens|
  {
    var n := |tokens| - 1;
    if i < n {
      var init := tokens[..n];
      assert ParamKey(tokens[n]) != k;
      assert LastWith(init, k, i) by {
        forall j | i < j < |init|
          ensures ParamKey(init[j]) != k
        {
          assert init[j] == tokens[j];
        }
      }
      LastWriteWins(init, k, i);
    }
  }

  /** The parameter object of a whole command line. */
  function Collect(args: seq<string>): (r: Result<Params, FillError>)
    ensures r.Failure? <==> ParamTokens(args).None?
    ensures r.Failure? ==> r.error == MissingParameterValue
  {
    var tokens := ParamTokens(args);
    if tokens.None? then Failure(MissingParameterValue) else Success(Assign(tokens.value))
  }

  /** A `--parameter k=v` appended to a good command line sets `k` to `v` and
      leaves every other key as it was. */
  lemma {:induction false} LaterParameterOverwrites(args: seq<string>, k: string, v: string)
    requires Collect(args).Success? && '=' !in k && '=' !in v
    ensures Collect(args + [ParamFlag, k + "=" + v]) == Success(Collect(args).value[k := Some(v)])
  {
    var ts := ParamTokens(args).value;
    ParamTokensAppend(args, [ParamFlag, k + "=" + v]);
    assert [ParamFlag, k + "=" + v][2..] == [];
    KeyValueOf(k, v, "");
    assert (ts + [k + "=" + v])[..|ts|] == ts;
  }

  /** The scan as written: the loop steps over the consumed value token. */
  method ParseParameters(args: seq<string>) returns (r: Result<Params, FillError>)
    ensures r == Collect(args)
  {
    var params: Params := map[];
    ghost var seen: seq<string> := [];
    var i := 0;
    assert args[i..] == args;
    ThenNested([], [], ParamTokens(args));
    while i < |args|
      invariant i <= |args|
      invariant params == Assign(seen)
      invariant ParamTokens(args) == Then(seen, ParamTokens(args[i..]))
      decreases |args| - i
    {
      if args[i] == ParamFlag {
        if i + 1 >= |args| {
          assert args[i..] == [ParamFlag];
          return Failure(MissingParameterValue);
        }
        var param := args[i + 1];
        assert args[i..][2..] == args[i + 2..];
        assert args[i..][1] == param;
        assert ParamTokens(args[i..]) == Then([param], ParamTokens(args[i + 2..]));
        ThenNested(seen, [param], ParamTokens(args[i + 2..]));
        params := params[ParamKey(param) := ParamValue(param)];
        assert (seen + [param])[..|seen|] == seen;
        seen := seen + [param];
        i := i + 2;
      } else {
        assert args[i..][1..] == args[i + 1..];
        i := i + 1;
      }
    }
    assert args[i..] == [];
    assert seen + [] == seen;
    return Success(params);
  }

  // ---------------------------------------------------------------------------
  // Pre-processing
  // ---------------------------------------------------------------------------

  /** `parameters[k]`, `undefined` when absent. */
  function Get(p: Params, k: string): Option<string> {
    if k in p then p[k] else None
  }

  /** `s.substring(1)`: everything after the first character, or "". */
  function DropFirst(s: string): (r: string)
    ensures |s| > 0 ==> [s[0]] + r == s
    ensures |s| == 0 ==> r == ""
  {
    if |s| == 0 then "" else s[1..]
  }

  const CharKey: string := "char"
  const CharacterNameKey: string := "charactername"
  const SocietyIdKey: string := "societyid"
  const PlayerKey: string := "societyid.player"
  const CharNumberKey: string := "societyid.char_without_first_digit"

  /** The keys pre-processing may touch. */
  const Touched: set<string> := {CharKey, CharacterNameKey, PlayerKey, CharNumberKey}

  /** A truthy `charactername` moves to `char`. */
  function MoveCharacterName(p: Params): (r: Params)
    ensures Truthy(Get(p, CharacterNameKey)) ==> CharacterNameKey !in r && CharKey in r && r[CharKey] == p[CharacterNameKey]
    ensures !Truthy(Get(p, CharacterNameKey)) ==> r == p
    ensures forall k :: k != CharKey && k != CharacterNameKey ==> Get(r, k) == Get(p, k) && (k in r <==> k in p)
  {
    if Truthy(Get(p, CharacterNameKey)) then (p - {CharacterNameKey})[CharKey := p[CharacterNameKey]]
    else p
  }

  /** A truthy `societyid` of exactly two `-`-separated parts adds the player
      number and the character number without its first digit. */
  function SplitSocietyId(p: Params): (r: Params)
    ensures Get(r, SocietyIdKey) == Get(p, SocietyIdKey) && (SocietyIdKey in r <==> SocietyIdKey in p)
    ensures forall k :: k != PlayerKey && k != CharNumberKey ==> Get(r, k) == Get(p, k) && (k in r <==> k in p)
    ensures Truthy(Get(p, SocietyIdKey)) && |Split(p[SocietyIdKey].value, '-')| == 2 ==>
      var parts := Split(p[SocietyIdKey].value, '-');
      Get(r, PlayerKey) == Some(parts[0]) && Get(r, CharNumberKey) == Some(DropFirst(parts[1]))
    ensures !Truthy(Get(p, SocietyIdKey)) || |Split(p[SocietyIdKey].value, '-')| != 2 ==> r == p
  {
    if Truthy(Get(p, SocietyIdKey)) then
      var parts := Split(p[SocietyIdKey].value, '-');
      if |parts| == 2 then p[PlayerKey := Some(parts[0])][CharNumberKey := Some(DropFirst(parts[1]))]
      else p
    else p
  }

  /** Both pre-processing steps, in order. */
  function Preprocess(p: Params): (r: Params)
    ensures forall k :: k !in Touched ==> Get(r, k) == Get(p, k) && (k in r <==> k in p)
    ensures Get(r, SocietyIdKey) == Get(p, SocietyIdKey)
  {
    SplitSocietyId(MoveCharacterName(p))
  }

  /** `A-B` with dash-free parts gives player `A` and character `B` minus its first digit. */
  lemma {:induction false} SocietyIdParts(p: Params, player: string, character: string)
    requires '-' !in player && '-' !in character && Get(p, SocietyIdKey) == Some(player + "-" + character)
    ensures Get(Preprocess(p), PlayerKey) == Some(player)
    ensures Get(Preprocess(p), CharNumberKey) == Some(DropFirst(character))
    ensures Get(Preprocess(p), SocietyIdKey) == Some(player + "-" + character)
  {
    SplitCons(player, character, '-');
    SplitNoSep(character, '-');
    assert Split(player + "-" + character, '-') == [player, character];
  }

  /** A society id with other than one dash adds no derived keys. */
  lemma {:induction false} SocietyIdUnsplit(p: Params)
    requires Truthy(Get(p, SocietyIdKey)) && |Split(p[SocietyIdKey].value, '-')| != 2
    ensures Get(Preprocess(p), PlayerKey) == Get(p, PlayerKey)
    ensures Get(Preprocess(p), CharNumberKey) == Get(p, CharNumberKey)
  {
  }

  // ---------------------------------------------------------------------------
  // Hand-over to the renderer
  // ---------------------------------------------------------------------------

  /** The data the renderer sees: an `undefined` entry reads like a missing one. */
  function DataOf(p: Params): (d: PdfGenerator.Data)
    ensures forall k :: k in d <==> Get(p, k).Some?
    ensures forall k :: k in d ==> Some(d[k]) == Get(p, k)
  {
    map k | k in p && p[k].Some? :: p[k].value
  }

  /** A truthy `charactername` on the command line is what `param:char` renders. */
  lemma {:induction false} CharacterNameRendersAsChar(p: Params)
    requires Truthy(Get(p, CharacterNameKey))
    ensures PdfGenerator.ResolveValue(Some(PdfGenerator.ParamPrefix + CharKey), DataOf(Preprocess(p))) == Get(p, CharacterNameKey)
  {
    PdfGenerator.ParamReference(CharKey, DataOf(Preprocess(p)));
  }

  /** Every other parameter reaches `param:` references unchanged. */
  lemma {:induction false} UntouchedParameterRenders(p: Params, k: string)
    requires k !in Touched
    ensures PdfGenerator.ResolveValue(Some(PdfGenerator.ParamPrefix + k), DataOf(Preprocess(p))) == Get(p, k)
  {
    PdfGenerator.ParamReference(k, DataOf(Preprocess(p)));
  }

  /** The whole run, given the parsed layout documents, the page and the font metrics:
      usage check, parameter scan, layout resolution, pre-processing, rendering. */
  function FillFields(args: seq<string>, docs: map<string, Layout>, page: PdfGenerator.Page,
                      m: PdfGenerator.Metrics, fuel: nat): (r: Result<(PdfGenerator.Page, seq<PdfGenerator.DrawOp>), FillError>)
    ensures r == Failure(Usage) <==> PdfFlag !in args || LayoutDirFlag !in args || LayoutNameFlag !in args
    ensures RequiredFlags(args).Success? && Collect(args).Failure? ==> r == Failure(MissingParameterValue)
    ensures r.Success? ==> RequiredFlags(args).value.layoutName.Some? && Collect(args).Success?
    ensures r.Success? ==>
      var found := StandaloneStore.GetLayout(LayoutStore.Store(docs, map[]), RequiredFlags(args).value.layoutName.value, fuel).0;
      && found.Success?
      && PdfGenerator.Generate(found.value, page, DataOf(Preprocess(Collect(args).value)), m, fuel) == Success(r.value)
  {
    var inv :- RequiredFlags(args);
    var params :- Collect(args);
    // `getLayout(undefined)` finds nothing and reports the id as "undefined".
    var id := if inv.layoutName.Some? then inv.layoutName.value else "undefined";
    if inv.layoutName.None? then Failure(Store(LayoutStore.NotFound(id)))
    else
      var (found, _) := StandaloneStore.GetLayout(LayoutStore.Store(docs, map[]), id, fuel);
      match found
      case Failure(e) => Failure(Store(e))
      case Success(layout) =>
        match PdfGenerator.Generate(layout, page, DataOf(Preprocess(params)), m, fuel)
        case Failure(e) => Failure(Render(e))
        case Success(out) => Success(out)
  }

  /** In a successful run the layout is rendered with data in which `param:char`
      stands for the `charactername` given on the command line. */
  lemma {:induction false} RunRendersCharacterName(args: seq<string>, docs: map<string, Layout>, page: PdfGenerator.Page,
                                                   m: PdfGenerator.Metrics, fuel: nat)
    requires Collect(args).Success? && Truthy(Get(Collect(args).value, CharacterNameKey))
    ensures var r := FillFields(args, docs, page, m, fuel);
      var data := DataOf(Preprocess(Collect(args).value));
      r.Success? ==>
        var found := StandaloneStore.GetLayout(LayoutStore.Store(docs, map[]), RequiredFlags(args).value.layoutName.value, fuel).0;
        && found.Success?
        && PdfGenerator.Generate(found.value, page, data, m, fuel) == Success(r.value)
        && PdfGenerator.ResolveValue(Some(PdfGenerator.ParamPrefix + CharKey), data) == Get(Collect(args).value, CharacterNameKey)
  {
    CharacterNameRendersAsChar(Collect(args).value);
  }
}

=== FILE: generate_layouts.dfy ===
/** chronicle2layout/src/generate_layouts.py: the batch driver that names the
    layout of each chronicle sheet of seasons 5 to 7 and stamps its id,
    description and parent, and the (unused) title-to-description helper.
    Globbing, the filename regular expressions, the subprocess call and the
    JSON file round trip are outside the model: the regex groups and the
    layout the authoring tool produced arrive as inputs. */
module GenerateLayouts {

  import opened Wrappers
  import opened Strings
  import opened Sequences
  import opened LayoutModel
  import LayoutStore

  // ---------------------------------------------------------------------------
  // Season configuration
  // ---------------------------------------------------------------------------

  /** One entry of `SEASON_CONFIGS`, without its filename pattern. */
  datatype SeasonConfig = SeasonConfig(chroniclesDir: string, layoutsDir: string, parentId: string, layoutId: string)

  /** `SEASON_CONFIGS[season]`; any other season raises `KeyError`, here `None`. */
  function ConfigFor(season: int): (c: Option<SeasonConfig>)
    ensures c.Some? <==> 5 <= season <= 7
    ensures c.Some? ==> season >= 0 && c.value == SeasonConfig(
      "Season " + ShowNat(season), "s" + ShowNat(season), "pfs2.season" + ShowNat(season), "Season " + ShowNat(season))
  {
    if season == 5 then Some(SeasonConfig("Season 5", "s5", "pfs2.season5", "Season 5"))
    else if season == 6 then Some(SeasonConfig("Season 6", "s6", "pfs2.season6", "Season 6"))
    else if season == 7 then Some(SeasonConfig("Season 7", "s7", "pfs2.season7", "Season 7"))
    else None
  }

  // ---------------------------------------------------------------------------
  // File extension (`os.path.splitext` on POSIX)
  // ---------------------------------------------------------------------------

  /** `s.rfind(c)`: the last position of `c`, or -1. */
  function RFind(s: string, c: char): (i: int)
    ensures -1 <= i < |s|
    ensures i >= 0 ==> s[i] == c
    ensures forall k :: i < k < |s| ==> s[k] != c
    decreases |s|
  {
    if |s| == 0 then -1
    else if s[|s| - 1] == c then |s| - 1
    else RFind(s[..|s| - 1], c)
  }

  /** Some character of `s[lo..hi]` is not a dot. */
  predicate HasNonDot(s: string, lo: int, hi: int)
    requires 0 <= lo <= hi <= |s|
  {
    exists k :: lo <= k < hi && s[k] != '.'
  }

  /** `os.path.splitext(p)`: the extension starts at the last `.` of the last
      path component, unless that component is only dots up to it (a leading
      dot marks a hidden file, not an extension). */
  function SplitExt(p: string): (r: (string, string))
    ensures r.0 + r.1 == p
    ensures r.1 == "" || (r.1[0] == '.' && '.' !in r.1[1..] && '/' !in r.1)
    ensures '.' !in p ==> r == (p, "")
  {
    var sep := RFind(p, '/');
    var dot := RFind(p, '.');
    if dot > sep && HasNonDot(p, sep + 1, dot) then
      (p[..dot], p[dot..])
    else
      (p, "")
  }

  /** `os.path.splitext(title)[0]` */
  function Stem(title: string): string {
    SplitExt(title).0
  }

  /** A name without `/` or `.` and a dot-led extension split back apart. */
  lemma {:induction false} SplitExtOfName(name: string, ext: string)
    requires name != "" && '/' !in name && '.' !in name
    requires |ext| > 0 && ext[0] == '.' && '.' !in ext[1..] && '/' !in ext
    ensures SplitExt(name + ext) == (name, ext)
  {
    var p := name + ext;
    var sep := RFind(p, '/');
    var dot := RFind(p, '.');
    assert p[|name|] == '.';
    assert forall k :: |name| < k < |p| ==> p[k] == ext[1..][k - |name| - 1];
    assert dot == |name|;
    assert forall k :: 0 <= k < |p| ==> p[k] != '/' by {
      forall k | 0 <= k < |p|
        ensures p[k] != '/'
      {
        if k < |name| { assert p[k] == name[k]; } else { assert p[k] == ext[k - |name|]; }
      }
    }
    assert sep == -1;
    assert p[0] == name[0] && name[0] in name;
    assert HasNonDot(p, sep + 1, dot);
    assert p[..dot] == name && p[dot..] == ext;
  }

  // ---------------------------------------------------------------------------
  // Title words
  // ---------------------------------------------------------------------------

  /** The length of the longest prefix of `s` without an upper-case letter. */
  function NonUpperRun(s: string): (n: nat)
    ensures n <= |s|
    ensures forall k :: 0 <= k < n ==> !IsUpper(s[k])
    ensures n == |s| || IsUpper(s[n])
    decreases |s|
  {
    if |s| == 0 || IsUpper(s[0]) then 0 else 1 + NonUpperRun(s[1..])
  }

  /** A match of `[A-Z][^A-Z]*`: one capital, then no other. */
  predicate IsCapitalWord(w: string) {
    |w| > 0 && IsUpper(w[0]) && forall k :: 1 <= k < |w| ==> !IsUpper(w[k])
  }

  /** `re.findall('[A-Z][^A-Z]*', s)`: every capital starts a word that runs
      up to the next capital; what comes before the first capital is dropped. */
  function CapitalWords(s: string): (ws: seq<string>)
    ensures forall i :: 0 <= i < |ws| ==> IsCapitalWord(ws[i])
    ensures ws == [] <==> forall k :: 0 <= k < |s| ==> !IsUpper(s[k])
    decreases |s|
  {
    if |s| == 0 then []
    else if !IsUpper(s[0]) then
      var ws := CapitalWords(s[1..]);
      assert forall k :: 1 <= k < |s| ==> s[k] == s[1..][k - 1];
      ws
    else
      var n := 1 + NonUpperRun(s[1..]);
      [s[..n]] + CapitalWords(s[n..])
  }

  /** The words put back together are the string from its first capital on. */
  lemma {:induction false} CapitalWordsFlatten(s: string)
    ensures Flatten(CapitalWords(s)) == s[NonUpperRun(s)..]
    decreases |s|
  {
    if |s| > 0 {
      if !IsUpper(s[0]) {
        CapitalWordsFlatten(s[1..]);
        CapitalWordsSkip(s);
        SuffixOfTail(s, NonUpperRun(s[1..]));
      } else {
        var n := 1 + NonUpperRun(s[1..]);
        CapitalWordsFlatten(s[n..]);
        CapitalWordsTake(s);
        UpperStartsRun(s, n);
      }
    }
  }

  lemma {:induction false} SuffixOfTail(s: string, k: nat)
    requires k < |s|
    ensures s[1..][k..] == s[1 + k..]
  {
  }

  lemma {:induction false} UpperStartsRun(s: string, n: nat)
    requires 0 < n <= |s| && IsUpper(s[0])
    requires n == |s| || IsUpper(s[n])
    ensures NonUpperRun(s) == 0 && NonUpperRun(s[n..]) == 0
    ensures s[..n] + s[n..][NonUpperRun(s[n..])..] == s[NonUpperRun(s)..]
  {
    assert s[n..][0..] == s[n..];
    assert s[..n] + s[n..] == s;
  }

  lemma {:induction false} CapitalWordsSkip(s: string)
    requires |s| > 0 && !IsUpper(s[0])
    ensures CapitalWords(s) == CapitalWords(s[1..])
    ensures NonUpperRun(s) == 1 + NonUpperRun(s[1..])
  {
  }

  lemma {:induction false} CapitalWordsTake(s: string)
    requires |s| > 0 && IsUpper(s[0])
    ensures var n := 1 + NonUpperRun(s[1..]);
      n <= |s| && Flatten(CapitalWords(s)) == s[..n] + Flatten(CapitalWords(s[n..]))
  {
    var n := 1 + NonUpperRun(s[1..]);
    var ws := CapitalWords(s);
    var tail := CapitalWords(s[n..]);
    assert ws == [s[..n]] + tail;
    FlattenCons(s[..n], tail);
  }

  lemma {:induction false} FlattenCons(x: string, rest: seq<string>)
    ensures Flatten([x] + rest) == x + Flatten(rest)
  {
    assert ([x] + rest)[1..] == rest;
  }

  /** A run without capitals, then the end or a capital. */
  lemma {:induction false} NonUpperRunAppend(a: string, b: string)
    requires forall k :: 0 <= k < |a| ==> !IsUpper(a[k])
    requires b == [] || IsUpper(b[0])
    ensures NonUpperRun(a + b) == |a|
    decreases |a|
  {
    if |a| > 0 {
      NonUpperRunAppend(a[1..], b);
      assert (a + b)[1..] == a[1..] + b;
    } else {
      assert a + b == b;
    }
  }

  /** The converse round trip: capital words written together are found again. */
  lemma {:induction false} CapitalWordsOfFlatten(ws: seq<string>)
    requires forall i :: 0 <= i < |ws| ==> IsCapitalWord(ws[i])
    ensures CapitalWords(Flatten(ws)) == ws
    decreases |ws|
  {
    if |ws| > 0 {
      var w := ws[0];
      var rest := Flatten(ws[1..]);
      var s := Flatten(ws);
      assert s == w + rest;
      CapitalWordsOfFlatten(ws[1..]);
      assert rest == [] || IsUpper(rest[0]) by {
        if |ws[1..]| > 0 {
          assert IsCapitalWord(ws[1]);
          assert rest == ws[1..][0] + Flatten(ws[1..][1..]);
        }
      }
      assert s[1..] == w[1..] + rest;
      NonUpperRunAppend(w[1..], rest);
      assert s[..|w|] == w && s[|w|..] == rest;
      assert [w] + ws[1..] == ws;
    }
  }

  /** The title's words: the capital words, or when there are none the
      whitespace-separated words after `_` became a space. */
  function TitleWords(stem: string): (ws: seq<string>)
    ensures forall i :: 0 <= i < |ws| ==> ws[i] != ""
    ensures (exists k :: 0 <= k < |stem| && IsUpper(stem[k])) ==> ws == CapitalWords(stem)
    ensures (forall k :: 0 <= k < |stem| ==> !IsUpper(stem[k])) ==> ws == Words(ReplaceChar(stem, '_', ' '))
  {
    var caps := CapitalWords(stem);
    if caps != [] then caps else Words(ReplaceChar(stem, '_', ' '))
  }

  /** Python `str.capitalize` on ASCII: first character upper, the rest lower. */
  function Capitalize(w: string): (r: string)
    ensures |r| == |w|
    ensures |r| > 0 ==> !IsLower(r[0])
    ensures forall k :: 1 <= k < |r| ==> !IsUpper(r[k])
    ensures Lower(r) == Lower(w)
  {
    if |w| == 0 then ""
    else
      var r := [UpperChar(w[0])] + Lower(w[1..]);
      LowerOfUpper(w[0]);
      assert forall k :: 1 <= k < |r| ==> LowerChar(r[k]) == LowerChar(w[k]);
      r
  }

  /** Capitalizing twice is capitalizing once. */
  lemma {:induction false} CapitalizeIdempotent(w: string)
    ensures Capitalize(Capitalize(w)) == Capitalize(w)
  {
    var r := Capitalize(w);
    if |w| > 0 {
      assert forall k :: 1 <= k < |r| ==> LowerChar(r[k]) == r[k];
      assert UpperChar(r[0]) == r[0];
    }
  }

  function CapitalizeAll(ws: seq<string>): (rs: seq<string>)
    ensures |rs| == |ws|
    ensures forall i :: 0 <= i < |ws| ==> rs[i] == Capitalize(ws[i])
  {
    seq(|ws|, i requires 0 <= i < |ws| => Capitalize(ws[i]))
  }

  const DescriptionPrefix: string := "PFS2 Chronicle Sheet for "

  /** `title_to_description`: the fixed prefix, the scenario number, and the
      capitalized title words separated by single spaces. */
  function TitleToDescription(num: string, title: string): (r: string)
    ensures StartsWith(r, DescriptionPrefix + num + ": ")
    ensures r[|DescriptionPrefix + num + ": "|..] == Join(CapitalizeAll(TitleWords(Stem(title))), " ")
  {
    var head := DescriptionPrefix + num + ": ";
    var r := head + Join(CapitalizeAll(TitleWords(Stem(title))), " ");
    assert r[..|head|] == head;
    r
  }

  /** The extension does not reach the description. */
  lemma {:induction false} DescriptionIgnoresExtension(num: string, name: string, ext: string)
    requires name != "" && '/' !in name && '.' !in name
    requires |ext| > 0 && ext[0] == '.' && '.' !in ext[1..] && '/' !in ext
    ensures TitleToDescription(num, name + ext) == TitleToDescription(num, name)
  {
    SplitExtOfName(name, ext);
  }

  // ---------------------------------------------------------------------------
  // Scenario number and layout name
  // ---------------------------------------------------------------------------

  function Zeros(n: nat): (z: string)
    ensures |z| == n && AllDigits(z)
    ensures forall k :: 0 <= k < n ==> z[k] == '0'
  {
    seq(n, k => '0')
  }

  /** Python `str.zfill(width)`: zeros inserted after an optional sign until
      the string is `width` long. */
  function ZFill(s: string, width: int): (r: string)
    ensures |r| == if |s| >= width then |s| else width
    ensures |s| >= width ==> r == s
    ensures |s| < width && (s == "" || (s[0] != '+' && s[0] != '-')) ==> r == Zeros(width - |s|) + s
    ensures AllDigits(s) ==> AllDigits(r)
  {
    if |s| >= width then s
    else if |s| > 0 && (s[0] == '+' || s[0] == '-') then [s[0]] + Zeros(width - |s|) + s[1..]
    else Zeros(width - |s|) + s
  }

  /** Leading zeros do not change a digit string's value. */
  lemma {:induction false} ZerosValue(n: nat, s: string)
    requires AllDigits(s)
    ensures DigitsValue(Zeros(n) + s) == DigitsValue(s)
    decreases |s|, n
  {
    var z := Zeros(n) + s;
    if |s| > 0 {
      ZerosValue(n, s[..|s| - 1]);
      assert z[..|z| - 1] == Zeros(n) + s[..|s| - 1];
    } else if n > 0 {
      ZerosValue(n - 1, s);
      assert z[..|z| - 1] == Zeros(n - 1) + s;
    }
  }

  /** Padding a scenario number keeps its value. */
  lemma {:induction false} ZFillValue(s: string, width: int)
    requires AllDigits(s)
    ensures DigitsValue(ZFill(s, width)) == DigitsValue(s)
  {
    if |s| < width {
      ZerosValue(width - |s|, s);
    }
  }

  /** `match.group(1).zfill(2)` */
  function ScenarioNumber(group: string): (num: string)
    ensures |num| >= 2 && |num| >= |group|
    ensures AllDigits(group) ==> AllDigits(num)
  {
    ZFill(group, 2)
  }

  const ChronicleSuffix: string := "Chronicle"

  /** `f"{season}-{num}-{title}"` */
  function FullName(season: nat, num: string, title: string): string {
    ShowNat(season) + "-" + num + "-" + title
  }

  /** The layout name: the full name with one trailing "Chronicle" cut off. */
  function LayoutName(season: nat, num: string, title: string): (r: string)
    ensures EndsWith(FullName(season, num, title), ChronicleSuffix) ==> r + ChronicleSuffix == FullName(season, num, title)
    ensures !EndsWith(FullName(season, num, title), ChronicleSuffix) ==> r == FullName(season, num, title)
  {
    var n := FullName(season, num, title);
    if EndsWith(n, ChronicleSuffix) then
      assert n[|n| - 9..] == ChronicleSuffix;
      assert n[..|n| - 9] + n[|n| - 9..] == n;
      n[..|n| - 9]
    else n
  }

  /** Only one "Chronicle" goes: a title ending in it loses exactly that. */
  lemma {:induction false} LayoutNameDropsSuffix(season: nat, num: string, title: string)
    ensures LayoutName(season, num, title + ChronicleSuffix) == FullName(season, num, title)
  {
    var n := FullName(season, num, title + ChronicleSuffix);
    assert n == FullName(season, num, title) + ChronicleSuffix;
    assert n[|n| - 9..] == ChronicleSuffix;
  }

  /** A title that does not end in "Chronicle" keeps the name whole: the
      suffix cannot straddle the `-` before the title. */
  lemma {:induction false} LayoutNameKeepsOtherTitles(season: nat, num: string, title: string)
    requires !EndsWith(title, ChronicleSuffix)
    ensures LayoutName(season, num, title) == FullName(season, num, title)
  {
    var n := FullName(season, num, title);
    assert n == ShowNat(season) + "-" + num + "-" + title;
    if |title| >= 9 {
      assert n[|n| - 9..] == title[|title| - 9..];
    } else if |n| >= 9 {
      var k := |n| - |title| - 1;
      assert n[k] == '-';
      assert n[|n| - 9..][k - (|n| - 9)] == '-';
      assert '-' !in ChronicleSuffix;
    }
    assert !EndsWith(n, ChronicleSuffix);
  }

  // ---------------------------------------------------------------------------
  // Stamping the generated layout
  // ---------------------------------------------------------------------------

  /** `f"pfs2.s{season}-{num}"` */
  function GeneratedId(season: nat, num: string): string {
    "pfs2.s" + ShowNat(season) + "-" + num
  }

  /** `f"{season}-{num} {title}"` */
  function GeneratedDescription(season: nat, num: string, title: string): string {
    ShowNat(season) + "-" + num + " " + title
  }

  /** The rewritten layout file: its name and contents. */
  datatype Stamped = Stamped(fileName: string, layout: Layout)

  /** The body of `process_season`'s loop for one PDF. `groups` are the
      filename's two regex groups (`None` when the name does not match and
      the file is skipped); `generated` is what the authoring tool wrote
      (`None` when it failed, which is reported and skipped). The id,
      description and parent are overwritten and nothing else changes. */
  function Process(season: int, groups: Option<(string, string)>, generated: Option<Layout>): (r: Option<Stamped>)
    ensures r.Some? <==> ConfigFor(season).Some? && groups.Some? && generated.Some?
    ensures r.Some? ==>
      var num := ZFill(groups.value.0, 2);
      var title := groups.value.1;
      && r.value.fileName == LayoutName(season, num, title) + ".json"
      && r.value.layout.id == Some(GeneratedId(season, num))
      && r.value.layout.description == Some(GeneratedDescription(season, num, title))
      && r.value.layout.parent == Some("pfs2.season" + ShowNat(season))
      && r.value.layout == generated.value.(id := r.value.layout.id, description := r.value.layout.description, parent := r.value.layout.parent)
  {
    match ConfigFor(season)
    case None => None
    case Some(config) =>
      if groups.None? || generated.None? then None
      else
        var num := ScenarioNumber(groups.value.0);
        var title := groups.value.1;
        var layout := generated.value.(
          id := Some(GeneratedId(season, num)),
          description := Some(GeneratedDescription(season, num, title)),
          parent := Some(config.parentId));
        Some(Stamped(LayoutName(season, num, title) + ".json", layout))
  }

  // ---------------------------------------------------------------------------
  // Where the stamped layouts are listed
  // ---------------------------------------------------------------------------

  lemma {:induction false} LowerUnchanged(s: string)
    requires forall k :: 0 <= k < |s| ==> !IsUpper(s[k])
    ensures Lower(s) == s
  {
  }

  /** `Season N` becomes the directory `sN`. */
  lemma {:induction false} DirFormatOfSeason(n: nat)
    ensures LayoutStore.DirFormat("Season " + ShowNat(n)) == "s" + ShowNat(n)
  {
    var p := "Season " + ShowNat(n);
    assert p[..7] == "Season " && p[7..] == ShowNat(n);
    assert Lower("Season ") == "season ";
    assert LayoutStore.IsSeasonDisplay(p);
    var d := "s" + ShowNat(n);
    LowerUnchanged(d);
    assert ReplaceChar(d, ' ', '_') == d;
  }

  /** The second `.`-part of a generated id. */
  lemma {:induction false} GeneratedIdParts(n: nat, num: string)
    requires AllDigits(num)
    ensures Split(GeneratedId(n, num), '.') == ["pfs2", "s" + ShowNat(n) + "-" + num]
  {
    var part := "s" + ShowNat(n) + "-" + num;
    assert GeneratedId(n, num) == "pfs2" + ['.'] + part;
    SplitCons("pfs2", part, '.');
    assert '.' !in part by {
      forall k | 0 <= k < |part|
        ensures part[k] != '.'
      {
        if 1 <= k < 1 + |ShowNat(n)| {
          assert part[k] == ShowNat(n)[k - 1];
        } else if k > 1 + |ShowNat(n)| {
          assert part[k] == num[k - 2 - |ShowNat(n)|];
        }
      }
    }
    SplitNoSep(part, '.');
  }

  /** A stamped layout is listed under its own season's display name. */
  lemma {:induction false} ListedUnderOwnSeason(n: nat, num: string)
    requires AllDigits(num)
    ensures LayoutStore.IdMatches(GeneratedId(n, num), LayoutStore.DirFormat("Season " + ShowNat(n)))
  {
    DirFormatOfSeason(n);
    GeneratedIdParts(n, num);
  }

  /** As written, the listing matches the season number as a prefix: a season
      whose number begins with another's digits is listed under both. */
  lemma {:induction false} ListedUnderPrefixSeason(n: nat, m: nat, num: string)
    requires AllDigits(num)
    requires StartsWith(ShowNat(n), ShowNat(m))
    ensures LayoutStore.IdMatches(GeneratedId(n, num), LayoutStore.DirFormat("Season " + ShowNat(m)))
  {
    DirFormatOfSeason(m);
    GeneratedIdParts(n, num);
    var part := "s" + ShowNat(n) + "-" + num;
    var pre := "s" + ShowNat(m);
    assert part[..|pre|] == pre by {
      assert part[1..|pre|] == ShowNat(n)[..|ShowNat(m)|];
    }
  }

  /** So the as-written listing for season `m` holds every stamped layout of
      such a season `n`. */
  lemma {:induction false} PrefixSeasonListed(n: nat, m: nat, num: string, description: string, index: seq<LayoutStore.LayoutInfo>, before: (string, string) -> bool)
    requires AllDigits(num)
    requires StartsWith(ShowNat(n), ShowNat(m))
    requires LayoutStore.LayoutInfo(GeneratedId(n, num), description) in index
    ensures LayoutStore.LayoutInfo(GeneratedId(n, num), description) in LayoutStore.GetLayoutsByParent(index, Some("Season " + ShowNat(m)), before)
  {
    ListedUnderPrefixSeason(n, m, num);
  }

  lemma {:induction false} ShowTenAndOne()
    ensures ShowNat(10) == "10" && ShowNat(1) == "1"
    ensures StartsWith(ShowNat(10), ShowNat(1))
  {
    assert ShowNat(1) == [DigitChar(1)];
    assert ShowNat(10) == ShowNat(1) + [DigitChar(0)];
  }

  /** The concrete case: scenario 10-01 is listed under "Season 1". */
  lemma {:induction false} SeasonTenUnderSeasonOne(description: string, before: (string, string) -> bool)
    ensures var e := LayoutStore.LayoutInfo(GeneratedId(10, "01"), description);
      e in LayoutStore.GetLayoutsByParent([e], Some("Season 1"), before)
  {
    ShowTenAndOne();
    assert "Season " + ShowNat(1) == "Season 1";
    var e := LayoutStore.LayoutInfo(GeneratedId(10, "01"), description);
    PrefixSeasonListed(10, 1, "01", description, [e], before);
  }

  /** With the season number matched whole, a stamped layout is listed under
      a season's display name exactly when it is that season. */
  lemma {:induction false} ExactListedIffSameSeason(n: nat, m: nat, num: string)
    requires AllDigits(num)
    ensures LayoutStore.IdMatchesExact(GeneratedId(n, num), LayoutStore.DirFormat("Season " + ShowNat(m))) <==> n == m
  {
    DirFormatOfSeason(m);
    GeneratedIdParts(n, num);
    var a := ShowNat(n);
    var b := ShowNat(m);
    var part := "s" + a + "-" + num;
    var pre := "s" + b;
    assert LayoutStore.IdMatchesExact(GeneratedId(n, num), pre) <==> ExactSeasonPart(part, pre);
    if n == m {
      assert part[..|pre|] == pre;
      assert part[|pre|] == '-';
    } else {
      ShowNatInjective(n, m);
      SeasonPartsDiffer(a, b, num);
    }
  }

  /** The exact-match condition on an id's second part. */
  predicate ExactSeasonPart(part: string, prefix: string) {
    && StartsWith(part, prefix)
    && (prefix == "" || !IsDigit(prefix[|prefix| - 1]) || |part| == |prefix| || !IsDigit(part[|prefix|]))
  }

  lemma {:induction false} ShowNatInjective(n: nat, m: nat)
    requires n != m
    ensures ShowNat(n) != ShowNat(m)
  {
    ShowNatRoundTrip(n);
    ShowNatRoundTrip(m);
  }

  /** Two different numerals never match exactly: a shorter one stops before
      a digit, a longer one runs into the `-`. */
  lemma {:induction false} SeasonPartsDiffer(a: string, b: string, num: string)
    requires |a| > 0 && |b| > 0 && AllDigits(a) && AllDigits(b) && a != b
    ensures !ExactSeasonPart("s" + a + "-" + num, "s" + b)
  {
    var part := "s" + a + "-" + num;
    var pre := "s" + b;
    if |b| < |a| {
      assert part[|pre|] == a[|b|];
      assert pre[|pre| - 1] == b[|b| - 1];
    } else if |b| > |a| && |pre| <= |part| {
      assert part[..|pre|][1 + |a|] == '-';
      assert pre[1 + |a|] == b[|a|];
    } else if |b| == |a| {
      assert part[..|pre|][1..] == a;
      assert pre[1..] == b;
    }
  }

  /** The corrected listing holds a stamped layout exactly under its own season. */
  lemma {:induction false} ExactListingOwnSeasonOnly(n: nat, m: nat, num: string, description: string, index: seq<LayoutStore.LayoutInfo>, before: (string, string) -> bool)
    requires AllDigits(num)
    requires LayoutStore.LayoutInfo(GeneratedId(n, num), description) in index
    ensures LayoutStore.LayoutInfo(GeneratedId(n, num), description) in LayoutStore.GetLayoutsByParentExact(index, Some("Season " + ShowNat(m)), before) <==> n == m
  {
    ExactListedIffSameSeason(n, m, num);
  }
}

=== FILE: item_grouping.dfy ===
/** How `generate_layout_json` turns the extracted text lines into items: a
    line that names an item ("Item" and a number from 1 to 20) starts a new
    item, the lines collected so far become one item spanning from the first
    line's top to the last line's bottom, and repeated adjacent words are
    collapsed on every flush but the last. */
module ItemGrouping {

  import opened Strings
  import opened Sequences
  import OcrWords

  // ---------------------------------------------------------------------------
  // Item starts
  // ---------------------------------------------------------------------------

  /** `any(str(i) in text for i in range(1, n + 1))` */
  predicate NumberIn(text: string, n: nat) {
    n >= 1 && (Contains(text, ShowNat(n)) || NumberIn(text, n - 1))
  }

  /** The largest item number `is_item_start` looks for. */
  function MaxItemNumber(): nat {
    20
  }

  /** `is_item_start` */
  predicate IsItemStart(text: string) {
    Contains(text, "Item") && NumberIn(text, MaxItemNumber())
  }

  /** The number `i` (from 1 on) occurs in `text`. */
  predicate NumberAt(text: string, i: int) {
    i >= 1 && Contains(text, ShowNat(i))
  }

  lemma {:induction false} NumberInExists(text: string, n: nat)
    ensures NumberIn(text, n) <==> exists i :: i <= n && NumberAt(text, i)
  {
    if n >= 1 {
      NumberInExists(text, n - 1);
      if NumberIn(text, n) {
        if Contains(text, ShowNat(n)) {
          assert NumberAt(text, n);
        } else {
          var i :| i <= n - 1 && NumberAt(text, i);
          assert i <= n;
        }
      }
      if exists i :: i <= n && NumberAt(text, i) {
        var i :| i <= n && NumberAt(text, i);
        if i < n {
          assert i <= n - 1;
        }
      }
    }
  }

  /** Some character of `text` is a digit from 1 to 9. */
  predicate HasNonZeroDigit(text: string) {
    exists k :: 0 <= k < |text| && '1' <= text[k] <= '9'
  }

  /** Every number from 1 to 20 starts with a non-zero digit, and every
      non-zero digit is itself such a number: so "a number from 1 to 20
      occurs" means exactly "a digit from 1 to 9 occurs". */
  lemma {:induction false} NumberInIffDigit(text: string)
    ensures NumberIn(text, MaxItemNumber()) <==> HasNonZeroDigit(text)
  {
    var n := MaxItemNumber();
    NumberInExists(text, n);
    if NumberIn(text, n) {
      var i :| i <= n && NumberAt(text, i);
      ContainsIff(text, ShowNat(i));
      var p :| OccursAt(text, ShowNat(i), p);
      assert text[p] == text[p..p + |ShowNat(i)|][0] == ShowNat(i)[0];
      assert '1' <= text[p] <= '9';
    }
    if HasNonZeroDigit(text) {
      var k :| 0 <= k < |text| && '1' <= text[k] <= '9';
      var d := text[k] as int - '0' as int;
      assert ShowNat(d) == [text[k]];
      assert OccursAt(text, ShowNat(d), k) by {
        assert text[k..k + 1] == [text[k]];
      }
      ContainsIff(text, ShowNat(d));
      assert d <= n && NumberAt(text, d);
    }
  }

  /** An item start is never blank. */
  lemma {:induction false} ItemStartNotBlank(text: string)
    requires IsItemStart(text)
    ensures Strip(text) != ""
  {
    ContainsIff(text, "Item");
    var p :| OccursAt(text, "Item", p);
    assert text[p] == text[p..p + 4][0] == 'I';
  }

  // ---------------------------------------------------------------------------
  // Repeated words
  // ---------------------------------------------------------------------------

  /** No two neighbouring parts are equal. */
  predicate NoAdjacentRepeats(parts: seq<string>) {
    forall i :: 0 <= i < |parts| - 1 ==> parts[i] != parts[i + 1]
  }

  /** The loop that keeps a part unless it equals the last part kept. */
  function Collapse(parts: seq<string>): (r: seq<string>)
    ensures |r| <= |parts|
    ensures NoAdjacentRepeats(r)
    ensures |parts| > 0 ==> |r| > 0 && r[|r| - 1] == parts[|parts| - 1]
    ensures |parts| > 0 ==> r[0] == parts[0]
  {
    if |parts| == 0 then []
    else
      var kept := Collapse(parts[..|parts| - 1]);
      var last := parts[|parts| - 1];
      if |kept| > 0 && kept[|kept| - 1] == last then kept else kept + [last]
  }

  /** `n` copies of `x`. */
  function Repeat(x: string, n: nat): (r: seq<string>)
    ensures |r| == n && forall i :: 0 <= i < n ==> r[i] == x
  {
    seq(n, _ => x)
  }

  /** Each `rs[i]` written out `runs[i]` times, in order: the inverse of
      collapsing runs. */
  function Expand(rs: seq<string>, runs: seq<nat>): seq<string>
    requires |rs| == |runs|
    decreases |rs|
  {
    if |rs| == 0 then []
    else Expand(rs[..|rs| - 1], runs[..|runs| - 1]) + Repeat(rs[|rs| - 1], runs[|runs| - 1])
  }

  /** `runs` are run lengths of at least one for the parts `rs`. */
  predicate RunLengths(rs: seq<string>, runs: seq<nat>) {
    |runs| == |rs| && forall i :: 0 <= i < |runs| ==> runs[i] >= 1
  }

  /** Widening the last run by one appends one more copy of its part. */
  lemma {:induction false} ExpandWidenLast(rs: seq<string>, runs: seq<nat>) returns (wider: seq<nat>)
    requires RunLengths(rs, runs) && |rs| > 0
    ensures RunLengths(rs, wider)
    ensures Expand(rs, wider) == Expand(rs, runs) + [rs[|rs| - 1]]
  {
    var n := |rs|;
    wider := runs[..n - 1] + [runs[n - 1] + 1];
    assert wider[..n - 1] == runs[..n - 1];
    assert Repeat(rs[n - 1], runs[n - 1] + 1) == Repeat(rs[n - 1], runs[n - 1]) + [rs[n - 1]];
  }

  /** A new run of length one appends its part once. */
  lemma {:induction false} ExpandNewRun(rs: seq<string>, runs: seq<nat>, x: string) returns (longer: seq<nat>)
    requires RunLengths(rs, runs)
    ensures RunLengths(rs + [x], longer)
    ensures Expand(rs + [x], longer) == Expand(rs, runs) + [x]
  {
    longer := runs + [1];
    assert (rs + [x])[..|rs|] == rs;
    assert longer[..|runs|] == runs;
    assert Repeat(x, 1) == [x];
  }

  /** One more part either extends the last collapsed part or adds a new one. */
  lemma {:induction false} CollapseStep(parts: seq<string>)
    requires |parts| > 0
    ensures var kept := Collapse(parts[..|parts| - 1]);
      var last := parts[|parts| - 1];
      Collapse(parts) == if |kept| > 0 && kept[|kept| - 1] == last then kept else kept + [last]
  {
  }

  /** The parts are the collapsed parts, each repeated over a run of at least
      one: collapsing removes only neighbouring repeats and keeps the order. */
  lemma {:induction false} CollapseRuns(parts: seq<string>) returns (runs: seq<nat>)
    ensures RunLengths(Collapse(parts), runs)
    ensures Expand(Collapse(parts), runs) == parts
    decreases |parts|
  {
    if |parts| == 0 {
      runs := [];
    } else {
      var init := parts[..|parts| - 1];
      var last := parts[|parts| - 1];
      var kept := Collapse(init);
      var before := CollapseRuns(init);
      assert parts == init + [last];
      CollapseStep(parts);
      if |kept| > 0 && kept[|kept| - 1] == last {
        runs := ExpandWidenLast(kept, before);
      } else {
        runs := ExpandNewRun(kept, before, last);
      }
    }
  }

  /** Collapsing keeps exactly the parts that were there. */
  lemma {:induction false} CollapseSameParts(parts: seq<string>)
    ensures forall p :: p in Collapse(parts) <==> p in parts
    decreases |parts|
  {
    if |parts| > 0 {
      var init := parts[..|parts| - 1];
      CollapseSameParts(init);
      assert parts == init + [parts[|parts| - 1]];
    }
  }

  /** Parts with no neighbouring repeats are left alone, so collapsing twice
      is collapsing once. */
  lemma {:induction false} CollapseFixes(parts: seq<string>)
    requires NoAdjacentRepeats(parts)
    ensures Collapse(parts) == parts
    decreases |parts|
  {
    if |parts| > 0 {
      var init := parts[..|parts| - 1];
      assert NoAdjacentRepeats(init) by {
        forall i | 0 <= i < |init| - 1
          ensures init[i] != init[i + 1]
        {
          assert init[i] == parts[i] && init[i + 1] == parts[i + 1];
        }
      }
      CollapseFixes(init);
      if |init| > 0 {
        assert parts[|parts| - 2] != parts[|parts| - 1];
      }
      assert init + [parts[|parts| - 1]] == parts;
    }
  }

  lemma {:induction false} CollapseIdempotent(parts: seq<string>)
    ensures Collapse(Collapse(parts)) == Collapse(parts)
  {
    CollapseFixes(Collapse(parts));
  }

  // ---------------------------------------------------------------------------
  // Items
  // ---------------------------------------------------------------------------

  /** A line kept for an item: its stripped text and its top and bottom (in
      percent of the crop). */
  datatype Tracked = Tracked(text: string, y: real, y2: real)

  /** A joined item: its text and the vertical span of its lines. */
  datatype Item = Item(text: string, y: real, y2: real)

  function TrackedTexts(ls: seq<Tracked>): (ts: seq<string>)
    ensures |ts| == |ls|
    ensures forall i :: 0 <= i < |ls| ==> ts[i] == ls[i].text
  {
    seq(|ls|, i requires 0 <= i < |ls| => ls[i].text)
  }

  /** `" ".join(clean_text(l["text"]) for l in item_lines)` */
  function CleanedTexts(ls: seq<Tracked>): (ts: seq<string>)
    ensures |ts| == |ls|
    ensures forall i :: 0 <= i < |ls| ==> ts[i] == Strip(ls[i].text)
  {
    seq(|ls|, i requires 0 <= i < |ls| => Strip(ls[i].text))
  }

  /** The item flushed when a new item starts: the lines' cleaned texts
      joined, split on single spaces, and repeated neighbours collapsed. */
  function MidItem(ls: seq<Tracked>): (it: Item)
    requires |ls| > 0
    ensures it.y == ls[0].y && it.y2 == ls[|ls| - 1].y2
  {
    var parts := Split(Join(CleanedTexts(ls), " "), ' ');
    Item(Join(Collapse(parts), " "), ls[0].y, ls[|ls| - 1].y2)
  }

  /** The item flushed at the end: the lines' texts joined as they are. */
  function FinalItem(ls: seq<Tracked>): (it: Item)
    requires |ls| > 0
    ensures it.y == ls[0].y && it.y2 == ls[|ls| - 1].y2
  {
    Item(Join(TrackedTexts(ls), " "), ls[0].y, ls[|ls| - 1].y2)
  }

  /** A line skipped outright: it mentions "items" and has no colon. */
  predicate Skipped(line: OcrWords.TextLine) {
    OcrWords.MentionsItems(line.text) && ':' !in line.text
  }

  /** The line a kept text line becomes. */
  function TrackedOf(line: OcrWords.TextLine): Tracked {
    Tracked(Strip(line.text), line.y0, line.y1)
  }

  /** Whether a line flushes the collected lines as an item: it is not
      skipped, it starts an item, and lines have been collected. */
  predicate Cuts(current: seq<Tracked>, line: OcrWords.TextLine) {
    !Skipped(line) && IsItemStart(Strip(line.text)) && |current| > 0
  }

  /** The item lines collected once the loop has seen `line`. */
  function Advance(current: seq<Tracked>, line: OcrWords.TextLine): seq<Tracked> {
    if Skipped(line) then current
    else
      var kept := if Cuts(current, line) then [] else current;
      if Strip(Strip(line.text)) != "" then kept + [TrackedOf(line)] else kept
  }

  /** The loop over the lines, with `current` the item lines collected so far. */
  function ItemsFrom(current: seq<Tracked>, lines: seq<OcrWords.TextLine>): seq<Item>
    decreases |lines|
  {
    if |lines| == 0 then (if |current| == 0 then [] else [FinalItem(current)])
    else
      (if Cuts(current, lines[0]) then [MidItem(current)] else [])
        + ItemsFrom(Advance(current, lines[0]), lines[1..])
  }

  /** The items of the extracted lines. */
  function Items(lines: seq<OcrWords.TextLine>): seq<Item> {
    ItemsFrom([], lines)
  }

  // ---------------------------------------------------------------------------
  // The same grouping, stated on the kept lines
  // ---------------------------------------------------------------------------

  /** The lines the loop keeps: not skipped, not blank, text stripped. */
  function TrackedLines(lines: seq<OcrWords.TextLine>): (ts: seq<Tracked>)
    ensures |ts| <= |lines|
    ensures forall t :: t in ts ==> t.text != ""
    decreases |lines|
  {
    if |lines| == 0 then []
    else
      var line := lines[0];
      var text := Strip(line.text);
      (if Skipped(line) || Strip(text) == "" then [] else [Tracked(text, line.y0, line.y1)]) + TrackedLines(lines[1..])
  }

  /** A line the loop keeps: not skipped and not blank once stripped. */
  predicate KeptLine(line: OcrWords.TextLine) {
    !Skipped(line) && Strip(Strip(line.text)) != ""
  }

  /** `ts` is `TrackedOf` applied to each of `ks`, in order. */
  predicate TrackedFrom(ts: seq<Tracked>, ks: seq<OcrWords.TextLine>) {
    |ts| == |ks| && forall i :: 0 <= i < |ks| ==> ts[i] == TrackedOf(ks[i])
  }

  lemma {:induction false} TrackedFromCons(line: OcrWords.TextLine, ts: seq<Tracked>, ks: seq<OcrWords.TextLine>)
    requires TrackedFrom(ts, ks)
    ensures TrackedFrom([TrackedOf(line)] + ts, [line] + ks)
  {
    var ts' := [TrackedOf(line)] + ts;
    var ks' := [line] + ks;
    forall i | 0 <= i < |ks'|
      ensures ts'[i] == TrackedOf(ks'[i])
    {
      if i > 0 {
        assert ts'[i] == ts[i - 1] && ks'[i] == ks[i - 1];
      }
    }
  }

  lemma {:induction false} TrackedLinesStep(lines: seq<OcrWords.TextLine>)
    requires |lines| > 0
    ensures TrackedLines(lines) == (if KeptLine(lines[0]) then [TrackedOf(lines[0])] else []) + TrackedLines(lines[1..])
  {
  }

  /** The kept lines are exactly the lines passing `KeptLine`, in their
      original order, each turned into its stripped text and band. */
  lemma {:induction false} TrackedLinesAreKept(lines: seq<OcrWords.TextLine>)
    ensures TrackedFrom(TrackedLines(lines), Filter(lines, KeptLine))
    decreases |lines|
  {
    if |lines| > 0 {
      var line := lines[0];
      TrackedLinesAreKept(lines[1..]);
      TrackedLinesStep(lines);
      if KeptLine(line) {
        assert Filter(lines, KeptLine) == [line] + Filter(lines[1..], KeptLine);
        TrackedFromCons(line, TrackedLines(lines[1..]), Filter(lines[1..], KeptLine));
      } else {
        assert Filter(lines, KeptLine) == Filter(lines[1..], KeptLine);
      }
    }
  }

  /** Kept lines cut before every item start that has lines before it. */
  function Segments(current: seq<Tracked>, rest: seq<Tracked>): (segs: seq<seq<Tracked>>)
    ensures forall s :: s in segs ==> |s| > 0
    ensures current != [] ==> |segs| > 0 && |segs[0]| >= |current| && segs[0][..|current|] == current
    ensures current == [] && rest != [] ==> |segs| > 0 && segs[0][0] == rest[0]
    decreases |rest|
  {
    if |rest| == 0 then (if |current| == 0 then [] else [current])
    else if IsItemStart(rest[0].text) && |current| > 0 then [current] + Segments([rest[0]], rest[1..])
    else
      var r := Segments(current + [rest[0]], rest[1..]);
      assert |current| > 0 ==> r[0][..|current|] == r[0][..|current| + 1][..|current|];
      r
  }

  /** Every segment but the last collapses its repeats; the last does not. */
  function Flushes(segs: seq<seq<Tracked>>): (items: seq<Item>)
    requires forall s :: s in segs ==> |s| > 0
    ensures |items| == |segs|
  {
    if |segs| == 0 then []
    else if |segs| == 1 then [FinalItem(segs[0])]
    else [MidItem(segs[0])] + Flushes(segs[1..])
  }

  /** The loop is the segmentation of the kept lines, flushed. */
  lemma {:induction false} ItemsFromSegments(current: seq<Tracked>, lines: seq<OcrWords.TextLine>)
    ensures ItemsFrom(current, lines) == Flushes(Segments(current, TrackedLines(lines)))
    decreases |lines|
  {
    if |lines| > 0 {
      var line := lines[0];
      var text := Strip(line.text);
      if Skipped(line) || Strip(text) == "" {
        ItemsFromSegments(current, lines[1..]);
        if !Skipped(line) && IsItemStart(text) {
          ItemStartNotBlank(text);
        }
        StepDropped(current, lines);
      } else {
        var t := TrackedOf(line);
        if IsItemStart(text) && |current| > 0 {
          ItemsFromSegments([t], lines[1..]);
          StepCut(current, lines);
        } else {
          ItemsFromSegments(current + [t], lines[1..]);
          StepExtend(current, lines);
        }
      }
    }
  }

  /** A skipped or blank line changes nothing. */
  lemma {:induction false} StepDropped(current: seq<Tracked>, lines: seq<OcrWords.TextLine>)
    requires |lines| > 0
    requires Skipped(lines[0]) || Strip(Strip(lines[0].text)) == ""
    requires !Skipped(lines[0]) ==> !IsItemStart(Strip(lines[0].text))
    requires ItemsFrom(current, lines[1..]) == Flushes(Segments(current, TrackedLines(lines[1..])))
    ensures ItemsFrom(current, lines) == Flushes(Segments(current, TrackedLines(lines)))
  {
    var tail := TrackedLines(lines[1..]);
    assert TrackedLines(lines) == [] + tail;
    assert [] + tail == tail;
    if !Skipped(lines[0]) {
      assert ItemsFrom(current, lines) == [] + ItemsFrom(current, lines[1..]);
    }
  }

  lemma {:induction false} TrackedLinesKept(lines: seq<OcrWords.TextLine>)
    requires |lines| > 0
    requires !Skipped(lines[0]) && Strip(Strip(lines[0].text)) != ""
    ensures TrackedLines(lines) == [TrackedOf(lines[0])] + TrackedLines(lines[1..])
  {
  }

  /** One turn of the loop. */
  lemma {:induction false} ItemsFromStep(current: seq<Tracked>, lines: seq<OcrWords.TextLine>)
    requires |lines| > 0
    ensures ItemsFrom(current, lines) == (if Cuts(current, lines[0]) then [MidItem(current)] else []) + ItemsFrom(Advance(current, lines[0]), lines[1..])
  {
  }

  lemma {:induction false} ItemsFromCut(current: seq<Tracked>, lines: seq<OcrWords.TextLine>)
    requires |lines| > 0 && |current| > 0
    requires !Skipped(lines[0]) && Strip(Strip(lines[0].text)) != ""
    requires IsItemStart(Strip(lines[0].text))
    ensures ItemsFrom(current, lines) == [MidItem(current)] + ItemsFrom([TrackedOf(lines[0])], lines[1..])
  {
    ItemsFromStep(current, lines);
    assert Cuts(current, lines[0]);
    assert Advance(current, lines[0]) == [] + [TrackedOf(lines[0])] == [TrackedOf(lines[0])];
  }

  lemma {:induction false} ItemsFromExtend(current: seq<Tracked>, lines: seq<OcrWords.TextLine>)
    requires |lines| > 0
    requires !Skipped(lines[0]) && Strip(Strip(lines[0].text)) != ""
    requires !(IsItemStart(Strip(lines[0].text)) && |current| > 0)
    ensures ItemsFrom(current, lines) == ItemsFrom(current + [TrackedOf(lines[0])], lines[1..])
  {
    ItemsFromStep(current, lines);
    assert !Cuts(current, lines[0]);
    assert Advance(current, lines[0]) == current + [TrackedOf(lines[0])];
    var x := ItemsFrom(current + [TrackedOf(lines[0])], lines[1..]);
    assert [] + x == x;
  }

  /** An item start after collected lines cuts. */
  lemma {:induction false} StepCut(current: seq<Tracked>, lines: seq<OcrWords.TextLine>)
    requires |lines| > 0 && |current| > 0
    requires !Skipped(lines[0]) && Strip(Strip(lines[0].text)) != ""
    requires IsItemStart(Strip(lines[0].text))
    requires ItemsFrom([TrackedOf(lines[0])], lines[1..]) == Flushes(Segments([TrackedOf(lines[0])], TrackedLines(lines[1..])))
    ensures ItemsFrom(current, lines) == Flushes(Segments(current, TrackedLines(lines)))
  {
    var t := TrackedOf(lines[0]);
    var tail := TrackedLines(lines[1..]);
    TrackedLinesKept(lines);
    ItemsFromCut(current, lines);
    assert ([t] + tail)[0] == t && ([t] + tail)[1..] == tail;
    var segs := Segments([t], tail);
    assert Segments(current, [t] + tail) == [current] + segs;
    assert ([current] + segs)[1..] == segs;
  }

  /** Any other kept line extends the current item. */
  lemma {:induction false} StepExtend(current: seq<Tracked>, lines: seq<OcrWords.TextLine>)
    requires |lines| > 0
    requires !Skipped(lines[0]) && Strip(Strip(lines[0].text)) != ""
    requires !(IsItemStart(Strip(lines[0].text)) && |current| > 0)
    requires ItemsFrom(current + [TrackedOf(lines[0])], lines[1..]) == Flushes(Segments(current + [TrackedOf(lines[0])], TrackedLines(lines[1..])))
    ensures ItemsFrom(current, lines) == Flushes(Segments(current, TrackedLines(lines)))
  {
    var t := TrackedOf(lines[0]);
    TrackedLinesKept(lines);
    ItemsFromExtend(current, lines);
    SegmentsExtend(current, t, TrackedLines(lines[1..]));
  }

  lemma {:induction false} SegmentsExtend(current: seq<Tracked>, t: Tracked, tail: seq<Tracked>)
    requires !(IsItemStart(t.text) && |current| > 0)
    ensures Segments(current, [t] + tail) == Segments(current + [t], tail)
  {
    assert ([t] + tail)[0] == t && ([t] + tail)[1..] == tail;
  }

  /** Cutting loses, reorders and invents no line. */
  lemma {:induction false} SegmentsFlatten(current: seq<Tracked>, rest: seq<Tracked>)
    ensures Flatten(Segments(current, rest)) == current + rest
    decreases |rest|
  {
    if |rest| == 0 {
      assert current + rest == current;
      if |current| > 0 {
        assert Flatten([current]) == current + Flatten([current][1..]);
      }
    } else if IsItemStart(rest[0].text) && |current| > 0 {
      SegmentsFlatten([rest[0]], rest[1..]);
      var tail := Segments([rest[0]], rest[1..]);
      assert ([current] + tail)[1..] == tail;
      assert [rest[0]] + rest[1..] == rest;
    } else {
      SegmentsFlatten(current + [rest[0]], rest[1..]);
      assert current + [rest[0]] + rest[1..] == current + rest;
    }
  }

  /** Only a segment's first line may be an item start. */
  predicate StartsOnlyFirst(seg: seq<Tracked>) {
    forall k :: 1 <= k < |seg| ==> !IsItemStart(seg[k].text)
  }

  /** Every segment after the first begins with an item start. */
  predicate LaterSegmentsStart(segs: seq<seq<Tracked>>) {
    forall i :: 1 <= i < |segs| ==> |segs[i]| > 0 && IsItemStart(segs[i][0].text)
  }

  lemma {:induction false} LaterSegmentsStartCons(current: seq<Tracked>, t: Tracked, tail: seq<seq<Tracked>>)
    requires IsItemStart(t.text)
    requires |tail| > 0 && |tail[0]| > 0 && tail[0][0] == t
    requires LaterSegmentsStart(tail)
    ensures LaterSegmentsStart([current] + tail)
  {
    var segs: seq<seq<Tracked>> := [current] + tail;
    forall i | 1 <= i < |segs|
      ensures |segs[i]| > 0 && IsItemStart(segs[i][0].text)
    {
      assert segs[i] == tail[i - 1];
      if i > 1 {
        assert |tail[i - 1]| > 0 && IsItemStart(tail[i - 1][0].text);
      }
    }
  }

  /** Every segment after the first begins with an item start, and no
      segment holds an item start after its first line. */
  lemma {:induction false} SegmentsShape(current: seq<Tracked>, rest: seq<Tracked>)
    requires StartsOnlyFirst(current)
    ensures var segs := Segments(current, rest);
      && (forall s :: s in segs ==> StartsOnlyFirst(s))
      && LaterSegmentsStart(segs)
    decreases |rest|
  {
    if |rest| == 0 {
    } else if IsItemStart(rest[0].text) && |current| > 0 {
      SegmentsShape([rest[0]], rest[1..]);
      var tail := Segments([rest[0]], rest[1..]);
      assert tail[0][..1] == [rest[0]];
      LaterSegmentsStartCons(current, rest[0], tail);
    } else {
      var next := current + [rest[0]];
      assert StartsOnlyFirst(next) by {
        forall k | 1 <= k < |next|
          ensures !IsItemStart(next[k].text)
        {
          if k < |current| {
            assert next[k] == current[k];
          }
        }
      }
      SegmentsShape(next, rest[1..]);
      SegmentsExtend(current, rest[0], rest[1..]);
      assert [rest[0]] + rest[1..] == rest;
    }
  }

  /** The items of the lines are the kept lines cut before each later item
      start: the cuts lose no line, each item but the first begins at an item
      start, and no item holds an item start after its first line. */
  lemma {:induction false} ItemsAreSegments(lines: seq<OcrWords.TextLine>)
    ensures var segs := Segments([], TrackedLines(lines));
      && Items(lines) == Flushes(segs)
      && Flatten(segs) == TrackedLines(lines)
      && (forall s :: s in segs ==> StartsOnlyFirst(s))
      && LaterSegmentsStart(segs)
  {
    ItemsFromSegments([], lines);
    SegmentsFlatten([], TrackedLines(lines));
    SegmentsShape([], TrackedLines(lines));
    assert [] + TrackedLines(lines) == TrackedLines(lines);
  }

  /** An item flushed mid-stream never has the same word twice in a row. */
  lemma {:induction false} MidItemNoRepeats(ls: seq<Tracked>)
    requires |ls| > 0
    ensures NoAdjacentRepeats(Split(MidItem(ls).text, ' '))
  {
    var parts := Collapse(Split(Join(CleanedTexts(ls), " "), ' '));
    CollapseSameParts(Split(Join(CleanedTexts(ls), " "), ' '));
    assert forall i :: 0 <= i < |parts| ==> ' ' !in parts[i] by {
      forall i | 0 <= i < |parts|
        ensures ' ' !in parts[i]
      {
        assert parts[i] in parts;
      }
    }
    SplitJoin(parts, ' ');
  }

  /** The last item is not collapsed: a single closing line with a repeated
      word keeps the repeat. */
  lemma {:induction false} FinalItemKeepsRepeats()
    ensures var it := FinalItem([Tracked("Item 2 gem gem", 10.0, 12.0)]);
      it.text == "Item 2 gem gem" && !NoAdjacentRepeats(Split(it.text, ' '))
  {
    var it := FinalItem([Tracked("Item 2 gem gem", 10.0, 12.0)]);
    assert it.text == "Item 2 gem gem";
    SplitJoin(["Item", "2", "gem", "gem"], ' ');
    assert Join(["Item", "2", "gem", "gem"], [' ']) == "Item 2 gem gem";
  }

  /** The space-separated words of each text, one sequence per text. */
  function LineWords(ts: seq<string>): (ws: seq<seq<string>>)
    ensures |ws| == |ts|
    ensures forall i :: 0 <= i < |ts| ==> ws[i] == Split(ts[i], ' ')
  {
    seq(|ts|, i requires 0 <= i < |ts| => Split(ts[i], ' '))
  }

  /** Joining texts with a space and splitting on spaces gives every text's words in order. */
  lemma {:induction false} JoinedWords(ts: seq<string>)
    requires |ts| > 0
    ensures Split(Join(ts, " "), ' ') == Flatten(LineWords(ts))
    decreases |ts|
  {
    if |ts| == 1 {
      assert Flatten(LineWords(ts)) == Split(ts[0], ' ') + Flatten(LineWords(ts)[1..]);
      assert LineWords(ts)[1..] == [];
    } else {
      JoinedWords(ts[1..]);
      SplitAround(ts[0], Join(ts[1..], " "), ' ');
      assert " " == [' '];
      assert LineWords(ts)[1..] == LineWords(ts[1..]);
    }
  }

  /** The two flushes differ only in the collapsing: the final item's words are
      all the words of its lines, in order and with every repeat, while an item
      flushed mid-scan has the words of its stripped lines with repeated
      neighbours collapsed. */
  lemma {:induction false} FlushedWords(ls: seq<Tracked>)
    requires |ls| > 0
    ensures Split(FinalItem(ls).text, ' ') == Flatten(LineWords(TrackedTexts(ls)))
    ensures Split(MidItem(ls).text, ' ') == Collapse(Flatten(LineWords(CleanedTexts(ls))))
  {
    JoinedWords(TrackedTexts(ls));
    JoinedWords(CleanedTexts(ls));
    var parts := Collapse(Split(Join(CleanedTexts(ls), " "), ' '));
    CollapseSameParts(Split(Join(CleanedTexts(ls), " "), ' '));
    assert forall i :: 0 <= i < |parts| ==> ' ' !in parts[i] by {
      forall i | 0 <= i < |parts|
        ensures ' ' !in parts[i]
      {
        assert parts[i] in parts;
      }
    }
    SplitJoin(parts, ' ');
  }
}

=== FILE: layout.dfy ===
/** The declarative layout schema of scripts/model/layout.ts: layouts,
    parameters, canvases, presets and the recursive content-element tree.
    Every optional field of the schema is an `Option`. */
module LayoutModel {

  import opened Wrappers

  // ---------------------------------------------------------------------------
  // Tags
  // ---------------------------------------------------------------------------

  /** The eight content-element tags. */
  datatype ElementType = Text | Rectangle | Trigger | Choice | Line | Multiline | Strikeout | Checkbox

  function TagName(t: ElementType): string {
    match t
    case Text => "text"
    case Rectangle => "rectangle"
    case Trigger => "trigger"
    case Choice => "choice"
    case Line => "line"
    case Multiline => "multiline"
    case Strikeout => "strikeout"
    case Checkbox => "checkbox"
  }

  /** Reads a `type` string; exactly the eight tag names are accepted. */
  function ParseElementType(s: string): (r: Option<ElementType>)
    ensures r.Some? ==> TagName(r.value) == s
    ensures r.None? <==> s !in {"text", "rectangle", "trigger", "choice", "line", "multiline", "strikeout", "checkbox"}
  {
    if s == "text" then Some(Text)
    else if s == "rectangle" then Some(Rectangle)
    else if s == "trigger" then Some(Trigger)
    else if s == "choice" then Some(Choice)
    else if s == "line" then Some(Line)
    else if s == "multiline" then Some(Multiline)
    else if s == "strikeout" then Some(Strikeout)
    else if s == "checkbox" then Some(Checkbox)
    else None
  }

  /** Every tag is read back from its own name. */
  lemma {:induction false} ElementTagRoundTrip(t: ElementType)
    ensures ParseElementType(TagName(t)) == Some(t)
  {
  }

  /** The four parameter kinds. */
  datatype ParamType = TextParam | SocietyIdParam | ChoiceParam | MultilineParam

  function ParamTypeName(t: ParamType): string {
    match t
    case TextParam => "text"
    case SocietyIdParam => "societyid"
    case ChoiceParam => "choice"
    case MultilineParam => "multiline"
  }

  /** Reads a parameter `type` string; exactly the four kind names are accepted. */
  function ParseParamType(s: string): (r: Option<ParamType>)
    ensures r.Some? ==> ParamTypeName(r.value) == s
    ensures r.None? <==> s !in {"text", "societyid", "choice", "multiline"}
  {
    if s == "text" then Some(TextParam)
    else if s == "societyid" then Some(SocietyIdParam)
    else if s == "choice" then Some(ChoiceParam)
    else if s == "multiline" then Some(MultilineParam)
    else None
  }

  /** `'normal' | 'bold'` */
  datatype FontWeight = NormalWeight | Bold

  /** `'normal' | 'italic'` */
  datatype FontStyle = NormalStyle | Italic

  // ---------------------------------------------------------------------------
  // Records
  // ---------------------------------------------------------------------------

  datatype Parameter = Parameter(
    kind: ParamType,
    description: string,
    example: string,
    choices: Option<seq<string>>,
    lines: Option<real>)

  /** A percentage box, optionally inside another (named) canvas. */
  datatype Canvas = Canvas(parent: Option<string>, x: real, y: real, x2: real, y2: real)

  /** A reusable partial style; `presets` names the presets it inherits from. */
  datatype Preset = Preset(
    presets: Option<seq<string>>,
    canvas: Option<string>,
    font: Option<string>,
    fontweight: Option<FontWeight>,
    fontstyle: Option<FontStyle>,
    fontsize: Option<real>,
    align: Option<string>,
    x: Option<real>,
    y: Option<real>,
    x2: Option<real>,
    y2: Option<real>,
    linewidth: Option<real>,
    color: Option<string>,
    size: Option<real>,
    lines: Option<real>,
    dummy: Option<real>)

  /** One node of the render tree. */
  datatype Element = Element(
    kind: ElementType,
    value: Option<string>,
    presets: Option<seq<string>>,
    content: Option<Body>,
    choices: Option<Choices>,
    trigger: Option<string>,
    x: Option<real>,
    y: Option<real>,
    x2: Option<real>,
    y2: Option<real>,
    align: Option<string>,
    color: Option<string>,
    linewidth: Option<real>,
    canvas: Option<string>,
    fontweight: Option<FontWeight>,
    fontstyle: Option<FontStyle>)

  /** Nested content: an ordered list, or element lists keyed by condition or choice name. */
  datatype Body = Items(items: seq<Element>) | Keyed(branches: map<string, seq<Element>>)

  /** `choices`: a selector string (literal or `param:` reference), or keyed element lists. */
  datatype Choices = Selector(selector: string) | Branches(options: map<string, seq<Element>>)

  /** A top-level field the core only carries along (flags, regions, notes, ...), as JSON text. */
  datatype Extra = Extra(json: string)

  datatype Layout = Layout(
    id: Option<string>,
    description: Option<string>,
    parent: Option<string>,
    aspectratio: Option<string>,
    parameters: Option<map<string, map<string, Parameter>>>,
    canvas: Option<map<string, Canvas>>,
    presets: Option<map<string, Preset>>,
    content: Option<seq<Element>>,
    extra: map<string, Extra>)

  /** A plain element of the given tag with every optional field absent. */
  function Bare(kind: ElementType): Element {
    Element(kind, None, None, None, None, None, None, None, None, None, None, None, None, None, None, None)
  }

  /** A preset with every field absent. */
  const EmptyPreset: Preset := Preset(None, None, None, None, None, None, None, None, None, None, None, None, None, None, None, None)

  /** A layout with every optional field absent. */
  const EmptyLayout: Layout := Layout(None, None, None, None, None, None, None, None, map[])

  // ---------------------------------------------------------------------------
  // Absent collections read as empty (`layout.presets || {}` and friends)
  // ---------------------------------------------------------------------------

  function PresetsOf(l: Layout): map<string, Preset> { l.presets.GetOr(map[]) }

  function CanvasOf(l: Layout): map<string, Canvas> { l.canvas.GetOr(map[]) }

  function ParametersOf(l: Layout): map<string, map<string, Parameter>> { l.parameters.GetOr(map[]) }

  function ContentOf(l: Layout): seq<Element> { l.content.GetOr([]) }

  // ---------------------------------------------------------------------------
  // Elements and presets as key/value records (the objects that JS spreads)
  // ---------------------------------------------------------------------------

  /** The property keys a resolved element can carry. The `presets` list is not
      among them: the renderer never reads it back from a resolved element. */
  datatype Key =
    | TypeKey | ValueKey | ContentKey | ChoicesKey | TriggerKey | CanvasKey
    | FontKey | FontWeightKey | FontStyleKey | FontSizeKey | AlignKey
    | XKey | YKey | X2Key | Y2Key | LineWidthKey | ColorKey | SizeKey | LinesKey | DummyKey

  const AllKeys: set<Key> := {
    TypeKey, ValueKey, ContentKey, ChoicesKey, TriggerKey, CanvasKey,
    FontKey, FontWeightKey, FontStyleKey, FontSizeKey, AlignKey,
    XKey, YKey, X2Key, Y2Key, LineWidthKey, ColorKey, SizeKey, LinesKey, DummyKey }

  lemma {:induction false} AllKeysComplete(k: Key)
    ensures k in AllKeys
  {
  }

  datatype Prop =
    | PType(tag: ElementType)
    | PStr(str: string)
    | PNum(num: real)
    | PWeight(weight: FontWeight)
    | PStyle(style: FontStyle)
    | PBody(body: Body)
    | PChoices(choices: Choices)

  /** A JavaScript object restricted to the keys above; spreading `{...a, ...b}` is `a + b`. */
  type Props = map<Key, Prop>

  function Str(o: Option<string>): Option<Prop> { if o.Some? then Some(PStr(o.value)) else None }

  function Num(o: Option<real>): Option<Prop> { if o.Some? then Some(PNum(o.value)) else None }

  function Weight(o: Option<FontWeight>): Option<Prop> { if o.Some? then Some(PWeight(o.value)) else None }

  function Style(o: Option<FontStyle>): Option<Prop> { if o.Some? then Some(PStyle(o.value)) else None }

  /** The value a preset holds under a key, if it has that own property. */
  function PresetField(p: Preset, k: Key): Option<Prop> {
    match k
    case CanvasKey => Str(p.canvas)
    case FontKey => Str(p.font)
    case FontWeightKey => Weight(p.fontweight)
    case FontStyleKey => Style(p.fontstyle)
    case FontSizeKey => Num(p.fontsize)
    case AlignKey => Str(p.align)
    case XKey => Num(p.x)
    case YKey => Num(p.y)
    case X2Key => Num(p.x2)
    case Y2Key => Num(p.y2)
    case LineWidthKey => Num(p.linewidth)
    case ColorKey => Str(p.color)
    case SizeKey => Num(p.size)
    case LinesKey => Num(p.lines)
    case DummyKey => Num(p.dummy)
    case _ => None
  }

  /** The value an element holds under a key, if it has that own property. */
  function ElementField(e: Element, k: Key): Option<Prop> {
    match k
    case TypeKey => Some(PType(e.kind))
    case ValueKey => Str(e.value)
    case ContentKey => if e.content.Some? then Some(PBody(e.content.value)) else None
    case ChoicesKey => if e.choices.Some? then Some(PChoices(e.choices.value)) else None
    case TriggerKey => Str(e.trigger)
    case CanvasKey => Str(e.canvas)
    case FontWeightKey => Weight(e.fontweight)
    case FontStyleKey => Style(e.fontstyle)
    case AlignKey => Str(e.align)
    case XKey => Num(e.x)
    case YKey => Num(e.y)
    case X2Key => Num(e.x2)
    case Y2Key => Num(e.y2)
    case LineWidthKey => Num(e.linewidth)
    case ColorKey => Str(e.color)
    case _ => None
  }

  /** A preset's own properties as an object. */
  function PresetProps(p: Preset): (m: Props)
    ensures forall k :: k in m <==> PresetField(p, k).Some?
    ensures forall k :: k in m ==> Some(m[k]) == PresetField(p, k)
  {
    forall k ensures k in AllKeys { AllKeysComplete(k); }
    map k | k in AllKeys && PresetField(p, k).Some? :: PresetField(p, k).value
  }

  /** An element's own properties as an object; the `type` property is always present. */
  function ElementProps(e: Element): (m: Props)
    ensures forall k :: k in m <==> ElementField(e, k).Some?
    ensures forall k :: k in m ==> Some(m[k]) == ElementField(e, k)
    ensures TypeKey in m && m[TypeKey] == PType(e.kind)
  {
    forall k ensures k in AllKeys { AllKeysComplete(k); }
    map k | k in AllKeys && ElementField(e, k).Some? :: ElementField(e, k).value
  }

  /** A string property of a resolved object, if present and a string. */
  function GetStr(m: Props, k: Key): Option<string> {
    if k in m && m[k].PStr? then Some(m[k].str) else None
  }

  /** A numeric property of a resolved object, if present and a number. */
  function GetNum(m: Props, k: Key): Option<real> {
    if k in m && m[k].PNum? then Some(m[k].num) else None
  }
}

=== FILE: layout_authoring.dfy ===
/** The last stage of chronicle2layout's `generate_layout_json`: the grouped
    items become a layout with one strike-out choice per distinct item text,
    a position preset per item, and one choice element whose branches draw a
    line through the chosen item. */
module LayoutAuthoring {

  import opened Wrappers
  import opened Strings
  import opened Sequences
  import opened LayoutModel
  import OcrWords
  import ItemGrouping
  import Checkboxes
  import PdfGenerator

  // ---------------------------------------------------------------------------
  // Fixed names and presets
  // ---------------------------------------------------------------------------

  const ParameterGroup: string := "Items"
  const ParameterName: string := "strikeout_item_lines"
  const StrikeoutPresetName: string := "strikeout_item"
  const PresetPrefix: string := "item.line."

  /** The shared strike-out style: a black 11-point line across the `items`
      canvas from 0.5 % to 95 %. */
  const StrikeoutPreset: Preset :=
    EmptyPreset.(canvas := Some("items"), color := Some("black"), linewidth := Some(11.0), x := Some(0.5), x2 := Some(95.0))

  /** The characters deleted from an item's text to make its preset name. */
  const Dropped: set<char> := {',', '.', '(', ')', '\'', '"'}

  /** `text[:50]`, spaces turned into underscores, then `, . ( ) ' "` deleted. */
  function SafeName(text: string): (r: string)
    ensures |r| <= 50
    ensures forall c :: c in r ==> c != ' ' && c !in Dropped
  {
    RemoveChars(ReplaceChar(NameHead(text), ' ', '_'), Dropped)
  }

  /** `text[:50]`. */
  function NameHead(text: string): (h: string)
    ensures |h| <= 50
  {
    if |text| <= 50 then text else text[..50]
  }

  /** Every character of `text[:50]` other than a space or one of
      `, . ( ) ' "` survives into the preset name as often as it occurs, and
      every space becomes an underscore. */
  lemma {:induction false} SafeNameCounts(text: string)
    ensures multiset(SafeName(text))['_'] == multiset(NameHead(text))['_'] + multiset(NameHead(text))[' ']
    ensures forall c :: c != ' ' && c != '_' && c !in Dropped ==> multiset(SafeName(text))[c] == multiset(NameHead(text))[c]
  {
    assert '_' !in Dropped;
    ReplaceRemoveCounts(NameHead(text), ' ', '_', Dropped);
  }

  /** Text of at most 50 characters with no space and none of `, . ( ) ' "`
      is its own preset name. */
  lemma {:induction false} SafeNameOfPlainText(text: string)
    requires |text| <= 50
    requires forall k :: 0 <= k < |text| ==> text[k] != ' ' && text[k] !in Dropped
    ensures SafeName(text) == text
  {
    assert ReplaceChar(text, ' ', '_') == text;
    RemoveCharsIsFilter(text, Dropped);
    Sequences.FilterAll(text, (c: char) => c !in Dropped);
  }

  /** The preset name keeps the surviving characters of `text[:50]` in their
      original order. */
  lemma {:induction false} SafeNameKeepsOrder(text: string)
    ensures SafeName(text) == Sequences.Filter(ReplaceChar(NameHead(text), ' ', '_'), (c: char) => c !in Dropped)
  {
    RemoveCharsIsFilter(ReplaceChar(NameHead(text), ' ', '_'), Dropped);
  }

  /** How a preset is named after an item: by its text as the tool does, or by
      the index of its choice. */
  datatype Naming = ByText | ByIndex

  function PresetName(naming: Naming, text: string, index: nat): (name: string)
    ensures StartsWith(name, PresetPrefix)
  {
    match naming
    case ByText => PresetPrefix + SafeName(text)
    case ByIndex => PresetPrefix + ShowNat(index)
  }

  /** No item preset shadows the shared strike-out preset. */
  lemma {:induction false} PresetNameNotShared(naming: Naming, text: string, index: nat)
    ensures PresetName(naming, text, index) != StrikeoutPresetName
  {
    var name := PresetName(naming, text, index);
    assert name[..|PresetPrefix|] == PresetPrefix;
    assert name[0] == 'i' != StrikeoutPresetName[0];
  }

  /** Naming by index gives different choices different presets. */
  lemma {:induction false} ByIndexInjective(a: string, i: nat, b: string, j: nat)
    requires i != j
    ensures PresetName(ByIndex, a, i) != PresetName(ByIndex, b, j)
  {
    if PresetName(ByIndex, a, i) == PresetName(ByIndex, b, j) {
      var n := |PresetPrefix|;
      assert PresetName(ByIndex, a, i)[n..] == ShowNat(i);
      assert PresetName(ByIndex, b, j)[n..] == ShowNat(j);
      ShowNatRoundTrip(i);
      ShowNatRoundTrip(j);
      assert false;
    }
  }

  /** The preset placing one item: its top and bottom (the tool rounds them to
      one decimal, which is not modelled). */
  function ItemPreset(it: ItemGrouping.Item): (p: Preset)
    ensures p.y == Some(it.y) && p.y2 == Some(it.y2)
  {
    EmptyPreset.(y := Some(it.y), y2 := Some(it.y2))
  }

  /** The branch body for one item: a `line` drawn with the shared style and
      the item's position preset. */
  function StrikeLine(name: string): (e: Element)
    ensures e.kind == Line && e.presets == Some([StrikeoutPresetName, name])
  {
    Bare(Line).(presets := Some([StrikeoutPresetName, name]))
  }

  /** An item's choice text. */
  function ItemText(it: ItemGrouping.Item): string {
    Strip(it.text)
  }

  /** The items' choice texts, in order. */
  function Texts(items: seq<ItemGrouping.Item>): (ts: seq<string>)
    ensures |ts| == |items|
    ensures forall k :: 0 <= k < |items| ==> ts[k] == ItemText(items[k])
  {
    seq(|items|, k requires 0 <= k < |items| => ItemText(items[k]))
  }

  /** The texts of all items but the last, then the last. */
  lemma {:induction false} TextsSnoc(items: seq<ItemGrouping.Item>)
    requires |items| > 0
    ensures Texts(items) == Texts(items[..|items| - 1]) + [ItemText(items[|items| - 1])]
  {
    var init := items[..|items| - 1];
    var a := Texts(items);
    var b := Texts(init) + [ItemText(items[|items| - 1])];
    forall k | 0 <= k < |items|
      ensures a[k] == b[k]
    {
      if k < |init| {
        assert init[k] == items[k];
      }
    }
  }

  // ---------------------------------------------------------------------------
  // The loop over the items
  // ---------------------------------------------------------------------------

  /** The three parts of the layout the loop fills in. */
  datatype Authoring = Authoring(choices: seq<string>, presets: map<string, Preset>, branches: map<string, seq<Element>>)

  const Start: Authoring := Authoring([], map[StrikeoutPresetName := StrikeoutPreset], map[])

  /** No text occurs twice. */
  predicate Distinct(s: seq<string>) {
    forall i, j :: 0 <= i < j < |s| ==> s[i] != s[j]
  }

  /** Appending a new text keeps the texts distinct. */
  lemma {:induction false} DistinctSnoc(s: seq<string>, x: string)
    requires Distinct(s) && x !in s
    ensures Distinct(s + [x])
  {
    var t := s + [x];
    forall i, j | 0 <= i < j < |t|
      ensures t[i] != t[j]
    {
      if j < |s| {
        assert t[i] == s[i] && t[j] == s[j];
      } else {
        assert t[i] == s[i];
      }
    }
  }

  /** The position of `c` in `s`. */
  function IndexIn(s: seq<string>, c: string): (i: nat)
    requires c in s
    ensures i < |s| && s[i] == c
    ensures forall k :: 0 <= k < i ==> s[k] != c
  {
    if s[0] == c then 0 else 1 + IndexIn(s[1..], c)
  }

  /** Appending never moves a text already present. */
  lemma {:induction false} IndexInAppend(s: seq<string>, x: string, c: string)
    requires c in s
    ensures IndexIn(s + [x], c) == IndexIn(s, c)
  {
    var i := IndexIn(s, c);
    assert (s + [x])[i] == c;
  }

  /** One turn: add the text as a choice unless present, (re)write the item's
      position preset, and (re)write its branch. */
  function AddItem(st: Authoring, it: ItemGrouping.Item, naming: Naming): Authoring {
    var text := ItemText(it);
    var choices := if text in st.choices then st.choices else st.choices + [text];
    var name := PresetName(naming, text, IndexIn(choices, text));
    Authoring(choices, st.presets[name := ItemPreset(it)], st.branches[text := [StrikeLine(name)]])
  }

  /** The loop over the items, in order. */
  function Accumulate(items: seq<ItemGrouping.Item>, naming: Naming): (st: Authoring)
    ensures Distinct(st.choices)
    ensures forall c :: c in st.choices <==> c in Texts(items)
    ensures forall c :: c in st.branches <==> c in st.choices
    ensures |items| > 0 ==> |st.choices| > 0 && st.choices[0] == Texts(items)[0]
  {
    if |items| == 0 then Start
    else
      var init := items[..|items| - 1];
      var before := Accumulate(init, naming);
      TextsSnoc(items);
      var text := ItemText(items[|items| - 1]);
      assert text !in before.choices ==> Distinct(before.choices + [text]) by {
        if text !in before.choices {
          DistinctSnoc(before.choices, text);
        }
      }
      AddItem(before, items[|items| - 1], naming)
  }

  /** Choices keep the order in which their texts first appear. */
  predicate InFirstOrder(choices: seq<string>, texts: seq<string>) {
    forall i, j :: 0 <= i < j < |choices| && choices[i] in texts && choices[j] in texts ==>
      IndexIn(texts, choices[i]) < IndexIn(texts, choices[j])
  }

  /** A new text at the end of the texts leaves the order of the choices alone. */
  lemma {:induction false} InFirstOrderExtend(choices: seq<string>, texts: seq<string>, text: string)
    requires InFirstOrder(choices, texts)
    requires forall c :: c in choices ==> c in texts
    ensures InFirstOrder(choices, texts + [text])
  {
    var all := texts + [text];
    forall i, j | 0 <= i < j < |choices| && choices[i] in all && choices[j] in all
      ensures IndexIn(all, choices[i]) < IndexIn(all, choices[j])
    {
      IndexInAppend(texts, text, choices[i]);
      IndexInAppend(texts, text, choices[j]);
    }
  }

  /** A text seen for the first time comes after every earlier choice. */
  lemma {:induction false} InFirstOrderSnoc(choices: seq<string>, texts: seq<string>, text: string)
    requires InFirstOrder(choices, texts + [text])
    requires forall c :: c in choices ==> c in texts
    requires text !in texts
    ensures InFirstOrder(choices + [text], texts + [text])
  {
    var all := texts + [text];
    var cs := choices + [text];
    forall i, j | 0 <= i < j < |cs| && cs[i] in all && cs[j] in all
      ensures IndexIn(all, cs[i]) < IndexIn(all, cs[j])
    {
      if j < |choices| {
        assert cs[i] == choices[i] && cs[j] == choices[j];
      } else {
        assert cs[i] == choices[i] && cs[j] == text;
        assert all[|texts|] == text;
      }
    }
  }

  lemma {:induction false} AddItemKeepsOrder(st: Authoring, texts: seq<string>, it: ItemGrouping.Item, naming: Naming)
    requires InFirstOrder(st.choices, texts)
    requires forall c :: c in st.choices <==> c in texts
    ensures InFirstOrder(AddItem(st, it, naming).choices, texts + [ItemText(it)])
  {
    var text := ItemText(it);
    InFirstOrderExtend(st.choices, texts, text);
    if text !in st.choices {
      InFirstOrderSnoc(st.choices, texts, text);
    }
  }

  lemma {:induction false} ChoicesInFirstOrder(items: seq<ItemGrouping.Item>, naming: Naming)
    ensures InFirstOrder(Accumulate(items, naming).choices, Texts(items))
    decreases |items|
  {
    if |items| > 0 {
      var init := items[..|items| - 1];
      ChoicesInFirstOrder(init, naming);
      AccumulateStep(items, naming);
      TextsSnoc(items);
      AddItemKeepsOrder(Accumulate(init, naming), Texts(init), items[|items| - 1], naming);
    }
  }

  /** One turn of the loop. */
  lemma {:induction false} AccumulateStep(items: seq<ItemGrouping.Item>, naming: Naming)
    requires |items| > 0
    ensures Accumulate(items, naming) == AddItem(Accumulate(items[..|items| - 1], naming), items[|items| - 1], naming)
  {
  }

  /** The choices after one turn: the text is appended when it is new. */
  lemma {:induction false} AddItemChoices(st: Authoring, it: ItemGrouping.Item, naming: Naming)
    ensures AddItem(st, it, naming).choices
      == if ItemText(it) in st.choices then st.choices else st.choices + [ItemText(it)]
  {
  }

  /** Appending a text, if new, never moves a text already present. */
  lemma {:induction false} ExtendKeepsIndices(choices: seq<string>, text: string)
    ensures var after := if text in choices then choices else choices + [text];
      && (forall c :: c in choices ==> c in after && IndexIn(after, c) == IndexIn(choices, c))
      && (forall c :: c in after ==> c in choices || c == text)
  {
    if text !in choices {
      forall c | c in choices
        ensures IndexIn(choices + [text], c) == IndexIn(choices, c)
      {
        IndexInAppend(choices, text, c);
      }
    }
  }

  /** A turn of the loop never moves a choice already made. */
  lemma {:induction false} AddItemKeepsIndices(st: Authoring, it: ItemGrouping.Item, naming: Naming)
    ensures var after := AddItem(st, it, naming);
      && (forall c :: c in st.choices ==> c in after.choices && IndexIn(after.choices, c) == IndexIn(st.choices, c))
      && (forall c :: c in after.choices ==> c in st.choices || c == ItemText(it))
  {
    AddItemChoices(st, it, naming);
    ExtendKeepsIndices(st.choices, ItemText(it));
  }

  /** Every choice has a branch drawing one strike-out line, through the
      preset named after the choice. */
  predicate StrikesChoices(st: Authoring, naming: Naming) {
    forall c :: c in st.choices ==>
      c in st.branches && st.branches[c] == [StrikeLine(PresetName(naming, c, IndexIn(st.choices, c)))]
  }

  lemma {:induction false} AddItemKeepsStrikes(st: Authoring, it: ItemGrouping.Item, naming: Naming)
    requires StrikesChoices(st, naming)
    ensures StrikesChoices(AddItem(st, it, naming), naming)
  {
    AddItemKeepsIndices(st, it, naming);
  }

  /** Every branch draws exactly one strike-out line, through the preset named
      after its choice. */
  lemma {:induction false} BranchesStrikeTheirChoice(items: seq<ItemGrouping.Item>, naming: Naming)
    ensures StrikesChoices(Accumulate(items, naming), naming)
    decreases |items|
  {
    if |items| > 0 {
      BranchesStrikeTheirChoice(items[..|items| - 1], naming);
      AccumulateStep(items, naming);
      AddItemKeepsStrikes(Accumulate(items[..|items| - 1], naming), items[|items| - 1], naming);
    }
  }

  /** The shared style is present, every choice's position preset is present,
      and there is no other preset. */
  predicate PresetsNamed(st: Authoring, naming: Naming) {
    && StrikeoutPresetName in st.presets && st.presets[StrikeoutPresetName] == StrikeoutPreset
    && (forall c :: c in st.choices ==> PresetName(naming, c, IndexIn(st.choices, c)) in st.presets)
    && (forall n :: n in st.presets && n != StrikeoutPresetName ==>
          exists c :: c in st.choices && n == PresetName(naming, c, IndexIn(st.choices, c)))
  }

  lemma {:induction false} AddItemKeepsPresets(st: Authoring, it: ItemGrouping.Item, naming: Naming)
    requires PresetsNamed(st, naming)
    ensures PresetsNamed(AddItem(st, it, naming), naming)
  {
    var after := AddItem(st, it, naming);
    var text := ItemText(it);
    AddItemKeepsIndices(st, it, naming);
    PresetNameNotShared(naming, text, IndexIn(after.choices, text));
    forall n | n in after.presets && n != StrikeoutPresetName
      ensures exists c :: c in after.choices && n == PresetName(naming, c, IndexIn(after.choices, c))
    {
      if n != PresetName(naming, text, IndexIn(after.choices, text)) {
        var c :| c in st.choices && n == PresetName(naming, c, IndexIn(st.choices, c));
        assert c in after.choices;
      }
    }
  }

  lemma {:induction false} PresetKeys(items: seq<ItemGrouping.Item>, naming: Naming)
    ensures PresetsNamed(Accumulate(items, naming), naming)
    decreases |items|
  {
    if |items| > 0 {
      PresetKeys(items[..|items| - 1], naming);
      AccumulateStep(items, naming);
      AddItemKeepsPresets(Accumulate(items[..|items| - 1], naming), items[|items| - 1], naming);
    } else {
      assert Accumulate(items, naming) == Start;
    }
  }

  // ---------------------------------------------------------------------------
  // Where each choice's line is drawn
  // ---------------------------------------------------------------------------

  /** `k` is the last position of `c` in `ts`. */
  predicate LastAt(ts: seq<string>, c: string, k: int) {
    0 <= k < |ts| && ts[k] == c && forall b :: k < b < |ts| ==> ts[b] != c
  }

  /** `k` is the last item whose text is `c`. */
  predicate LastWith(items: seq<ItemGrouping.Item>, c: string, k: int) {
    LastAt(Texts(items), c, k)
  }

  /** The preset the branch of `c` draws through. */
  function PresetOfChoice(st: Authoring, naming: Naming, c: string): Option<Preset>
    requires c in st.choices
  {
    var name := PresetName(naming, c, IndexIn(st.choices, c));
    if name in st.presets then Some(st.presets[name]) else None
  }

  /** Every choice is placed at the last item with its text. */
  predicate PlacedAtLast(st: Authoring, naming: Naming, items: seq<ItemGrouping.Item>) {
    forall c :: c in st.choices ==>
      exists k :: 0 <= k < |items| && LastWith(items, c, k) && PresetOfChoice(st, naming, c) == Some(ItemPreset(items[k]))
  }

  /** With presets named by choice index, a turn leaves the preset of every
      other choice alone. */
  lemma {:induction false} AddItemKeepsOtherPreset(st: Authoring, it: ItemGrouping.Item, c: string)
    requires c in st.choices && c != ItemText(it)
    ensures c in AddItem(st, it, ByIndex).choices
    ensures PresetOfChoice(AddItem(st, it, ByIndex), ByIndex, c) == PresetOfChoice(st, ByIndex, c)
  {
    var after := AddItem(st, it, ByIndex);
    var text := ItemText(it);
    AddItemKeepsIndices(st, it, ByIndex);
    var i := IndexIn(after.choices, c);
    var t := IndexIn(after.choices, text);
    assert i != t;
    ByIndexInjective(c, i, text, t);
  }

  /** A later item with another text leaves the last item with `c` last. */
  lemma {:induction false} LastWithSnoc(items: seq<ItemGrouping.Item>, it: ItemGrouping.Item, c: string, k: int)
    requires LastWith(items, c, k) && ItemText(it) != c
    ensures LastWith(items + [it], c, k)
  {
    var all := items + [it];
    TextsSnoc(all);
    assert all[..|items|] == items;
    LastAtSnoc(Texts(items), ItemText(it), c, k);
  }

  /** Appending another text keeps the last position of `c`. */
  lemma {:induction false} LastAtSnoc(ts: seq<string>, t: string, c: string, k: int)
    requires LastAt(ts, c, k) && t != c
    ensures LastAt(ts + [t], c, k)
  {
    var all := ts + [t];
    forall b | k < b < |all|
      ensures all[b] != c
    {
      if b < |ts| {
        assert all[b] == ts[b];
      }
    }
  }

  /** With presets named by choice index, a turn writes only the new item's
      choice's preset. */
  lemma {:induction false} AddItemPlacesLast(st: Authoring, items: seq<ItemGrouping.Item>, it: ItemGrouping.Item)
    requires PlacedAtLast(st, ByIndex, items)
    ensures PlacedAtLast(AddItem(st, it, ByIndex), ByIndex, items + [it])
  {
    var after := AddItem(st, it, ByIndex);
    var all := items + [it];
    var text := ItemText(it);
    AddItemKeepsIndices(st, it, ByIndex);
    forall c | c in after.choices
      ensures exists k :: 0 <= k < |all| && LastWith(all, c, k) && PresetOfChoice(after, ByIndex, c) == Some(ItemPreset(all[k]))
    {
      if c == text {
        assert LastWith(all, c, |items|);
      } else {
        var k :| 0 <= k < |items| && LastWith(items, c, k) && PresetOfChoice(st, ByIndex, c) == Some(ItemPreset(items[k]));
        LastWithSnoc(items, it, c, k);
        AddItemKeepsOtherPreset(st, it, c);
        assert all[k] == items[k];
      }
    }
  }

  /** With presets named by choice index, every choice is struck out at the
      position of the last item with that text. */
  lemma {:induction false} ChoicesStruckAtTheirItem(items: seq<ItemGrouping.Item>)
    ensures PlacedAtLast(Accumulate(items, ByIndex), ByIndex, items)
    decreases |items|
  {
    if |items| > 0 {
      var init := items[..|items| - 1];
      var last := items[|items| - 1];
      assert init + [last] == items;
      ChoicesStruckAtTheirItem(init);
      var before := Accumulate(init, ByIndex);
      AccumulateStep(items, ByIndex);
      AddItemPlacesLast(before, init, last);
    }
  }

  lemma {:induction false} StripOfDotted()
    ensures Strip("A.") == "A."
  {
    StripUnspacedEnds("A.");
  }

  lemma {:induction false} StripOfBare()
    ensures Strip("A") == "A"
  {
    StripUnspacedEnds("A");
  }

  /** A string whose ends are not whitespace is its own strip. */
  lemma {:induction false} StripUnspacedEnds(s: string)
    requires |s| > 0 && !IsSpace(s[0]) && !IsSpace(s[|s| - 1])
    ensures Strip(s) == s
  {
    assert TrimStart(s) == s;
    assert TrimEnd(s) == s;
  }

  lemma {:induction false} SafeNameOfDotted()
    ensures SafeName("A.") == "A"
  {
    assert ReplaceChar("A.", ' ', '_') == "A.";
    assert "A."[1..] == ".";
    assert RemoveChars(".", Dropped) == "";
    assert RemoveChars("A.", Dropped) == "A" + RemoveChars(".", Dropped);
  }

  lemma {:induction false} SafeNameOfBare()
    ensures SafeName("A") == "A"
  {
    assert ReplaceChar("A", ' ', '_') == "A";
  }

  /** Naming presets by text, two items whose texts differ but lose their
      difference in `SafeName` share one preset: the first item's choice is
      then struck out at the second item's position. */
  lemma {:induction false} SafeNamesCollide(a: ItemGrouping.Item, b: ItemGrouping.Item)
    requires ItemText(a) != ItemText(b) && SafeName(ItemText(a)) == SafeName(ItemText(b))
    ensures var st := Accumulate([a, b], ByText);
      && st.choices == [ItemText(a), ItemText(b)]
      && LastWith([a, b], ItemText(a), 0)
      && PresetOfChoice(st, ByText, ItemText(a)) == Some(ItemPreset(b))
  {
    AccumulatePair(a, b, ByText);
    SharedNameOverwrites(AddItem(Start, a, ByText), ItemText(a), b);
    LastWithPair(a, b);
  }

  lemma {:induction false} AccumulatePair(a: ItemGrouping.Item, b: ItemGrouping.Item, naming: Naming)
    ensures Accumulate([a, b], naming) == AddItem(AddItem(Start, a, naming), b, naming)
    ensures AddItem(Start, a, naming).choices == [ItemText(a)]
  {
    assert [a, b][..1] == [a];
    assert [a][..0] == [];
    AccumulateStep([a, b], naming);
    AccumulateStep([a], naming);
  }

  lemma {:induction false} LastWithPair(a: ItemGrouping.Item, b: ItemGrouping.Item)
    requires ItemText(a) != ItemText(b)
    ensures LastWith([a, b], ItemText(a), 0)
  {
  }

  /** A second choice whose safe name equals the first's overwrites the
      first choice's preset. */
  lemma {:induction false} SharedNameOverwrites(st: Authoring, ta: string, b: ItemGrouping.Item)
    requires st.choices == [ta] && ItemText(b) != ta && SafeName(ItemText(b)) == SafeName(ta)
    ensures var after := AddItem(st, b, ByText);
      && after.choices == [ta, ItemText(b)]
      && PresetOfChoice(after, ByText, ta) == Some(ItemPreset(b))
  {
    var tb := ItemText(b);
    var name := PresetPrefix + SafeName(tb);
    var after := AddItem(st, b, ByText);
    AddItemByText(st, b);
    assert tb !in st.choices by {
      assert st.choices == [ta];
    }
    assert after.choices == [ta, tb];
    assert after.presets == st.presets[name := ItemPreset(b)];
    PresetOfChoiceByText(after, ta);
    assert PresetPrefix + SafeName(ta) == name;
  }

  /** Adding an item under text naming stores its preset under its safe name. */
  lemma {:induction false} AddItemByText(st: Authoring, b: ItemGrouping.Item)
    ensures AddItem(st, b, ByText).presets == st.presets[PresetPrefix + SafeName(ItemText(b)) := ItemPreset(b)]
    ensures AddItem(st, b, ByText).choices == if ItemText(b) in st.choices then st.choices else st.choices + [ItemText(b)]
  {
  }

  /** Under text naming a choice's preset is looked up by its safe name alone. */
  lemma {:induction false} PresetOfChoiceByText(st: Authoring, c: string)
    requires c in st.choices
    ensures var name := PresetPrefix + SafeName(c);
      PresetOfChoice(st, ByText, c) == if name in st.presets then Some(st.presets[name]) else None
  {
  }

  /** Such items exist: "A." and "A" both become `item.line.A`. */
  lemma {:induction false} CollidingItems()
    ensures var a := ItemGrouping.Item("A.", 10.0, 12.0);
      var b := ItemGrouping.Item("A", 20.0, 22.0);
      && ItemText(a) != ItemText(b) && SafeName(ItemText(a)) == SafeName(ItemText(b))
      && ItemPreset(a) != ItemPreset(b)
  {
    var a := ItemGrouping.Item("A.", 10.0, 12.0);
    var b := ItemGrouping.Item("A", 20.0, 22.0);
    StripOfDotted();
    StripOfBare();
    SafeNameOfDotted();
    SafeNameOfBare();
    assert |ItemText(a)| != |ItemText(b)|;
  }

  // ---------------------------------------------------------------------------
  // The generated layout
  // ---------------------------------------------------------------------------

  /** The generated layout and, unless skipped, the detected checkboxes. */
  datatype Authored = Authored(layout: Layout, checkboxes: Option<seq<Checkboxes.Box>>)

  /** The tool's command-line metadata. */
  datatype Meta = Meta(id: Option<string>, description: Option<string>, parent: Option<string>)

  /** An argument is copied only when it is truthy. */
  function IfTruthy(s: Option<string>): (r: Option<string>)
    ensures r.Some? <==> Truthy(s)
    ensures r.Some? ==> r == s
  {
    if Truthy(s) then s else None
  }

  /** The choice parameter: its example is the first choice, or empty. */
  function ChoiceParameter(choices: seq<string>): (p: Parameter)
    ensures p.kind == ChoiceParam && p.choices == Some(choices)
    ensures p.example == (if |choices| > 0 then choices[0] else "")
  {
    Parameter(ChoiceParam, "Item line text to be struck out", if |choices| > 0 then choices[0] else "", Some(choices), None)
  }

  /** The one content element: a choice on the parameter, keyed by text. */
  function ChoiceElement(branches: map<string, seq<Element>>): (e: Element)
    ensures e.kind == Choice && e.presets.None?
    ensures e.choices == Some(Selector("param:" + ParameterName)) && e.content == Some(Keyed(branches))
  {
    Bare(Choice).(choices := Some(Selector("param:" + ParameterName)), content := Some(Keyed(branches)))
  }

  /** `generate_layout_json` once the lines are extracted and the checkboxes
      detected, with presets named by choice index. */
  function Generate(meta: Meta, lines: seq<OcrWords.TextLine>, boxes: Option<seq<Checkboxes.Box>>): (r: Authored)
    ensures r.checkboxes == boxes
    ensures r.layout.id == IfTruthy(meta.id) && r.layout.description == IfTruthy(meta.description)
    ensures r.layout.parent == IfTruthy(meta.parent)
    ensures r.layout.aspectratio.None? && r.layout.canvas.None?
    ensures r.layout.content.Some? && |r.layout.content.value| == 1 && r.layout.content.value[0].kind == Choice
  {
    var st := Accumulate(ItemGrouping.Items(lines), ByIndex);
    var layout := Layout(
      IfTruthy(meta.id), IfTruthy(meta.description), IfTruthy(meta.parent), None,
      Some(map[ParameterGroup := map[ParameterName := ChoiceParameter(st.choices)]]),
      None,
      Some(st.presets),
      Some([ChoiceElement(st.branches)]),
      map[]);
    Authored(layout, boxes)
  }

  /** The choice parameter offers exactly the distinct item texts, and its
      example is the first item's text. */
  lemma {:induction false} GeneratedChoices(meta: Meta, lines: seq<OcrWords.TextLine>, boxes: Option<seq<Checkboxes.Box>>)
    ensures var items := ItemGrouping.Items(lines);
      var params := Generate(meta, lines, boxes).layout.parameters;
      && params.Some? && ParameterGroup in params.value && ParameterName in params.value[ParameterGroup]
      && var p := params.value[ParameterGroup][ParameterName];
      && p.choices.Some? && Distinct(p.choices.value)
      && (forall c :: c in p.choices.value <==> c in Texts(items))
      && p.example == (if |items| > 0 then ItemText(items[0]) else "")
  {
  }

  /** Choosing any item text in the generated layout selects one strike-out
      line through a preset at the last item with that text. */
  lemma {:induction false} GeneratedStrikesAtItems(meta: Meta, lines: seq<OcrWords.TextLine>, boxes: Option<seq<Checkboxes.Box>>, c: string)
    requires c in Texts(ItemGrouping.Items(lines))
    ensures var items := ItemGrouping.Items(lines);
      var layout := Generate(meta, lines, boxes).layout;
      var body := layout.content.value[0].content;
      && body.Some? && body.value.Keyed? && c in body.value.branches
      && exists name, k ::
           && body.value.branches[c] == [StrikeLine(name)]
           && layout.presets.Some? && name in layout.presets.value
           && 0 <= k < |items| && LastWith(items, c, k)
           && layout.presets.value[name] == ItemPreset(items[k])
  {
    var items := ItemGrouping.Items(lines);
    var st := Accumulate(items, ByIndex);
    BranchesStrikeTheirChoice(items, ByIndex);
    ChoicesStruckAtTheirItem(items);
    var name := PresetName(ByIndex, c, IndexIn(st.choices, c));
    var k :| 0 <= k < |items| && LastWith(items, c, k) && PresetOfChoice(st, ByIndex, c) == Some(ItemPreset(items[k]));
    assert st.branches[c] == [StrikeLine(name)];
    assert name in st.presets && st.presets[name] == ItemPreset(items[k]);
  }

  /** Rendered on its own, a generated layout draws nothing: its only content
      is a choice element, and choice elements are not drawn. */
  lemma {:induction false} GeneratedDrawsNothing(meta: Meta, lines: seq<OcrWords.TextLine>, boxes: Option<seq<Checkboxes.Box>>,
                              page: PdfGenerator.Page, data: PdfGenerator.Data, m: PdfGenerator.Metrics, fuel: nat)
    ensures PdfGenerator.Generate(Generate(meta, lines, boxes).layout, page, data, m, fuel) == Success((page, []))
  {
    var layout := Generate(meta, lines, boxes).layout;
    PdfGenerator.NonDrawingContentDrawsNothing(layout, page, data, layout.content.value, m, fuel);
  }
}

=== FILE: layout_store.dfy ===
/** scripts/LayoutStore.ts: parent-chain resolution with merge and cache,
    season directory display names, and the by-parent layout listing.
    Raw documents are a given map from id to parsed layout; the recursion over
    `parent`, unbounded in the source, carries `fuel` and reports
    `CyclicInheritance` when it runs out (for a parent cycle the source keeps
    fetching and its promise never settles). */
module LayoutStore {

  import opened Wrappers
  import opened LayoutModel
  import opened Strings
  import opened Sequences

  datatype StoreError = NotFound(id: string) | CyclicInheritance(id: string)

  // ---------------------------------------------------------------------------
  // Merge
  // ---------------------------------------------------------------------------

  /** `{...parent, ...child}` on one optional field. */
  function Pick<T>(parent: Option<T>, child: Option<T>): Option<T> {
    if child.Some? then child else parent
  }

  /** `m` holds exactly the keys of both maps; the child's value wins on a shared key. */
  ghost predicate ChildWinsUnion<V>(m: map<string, V>, parent: map<string, V>, child: map<string, V>) {
    && m.Keys == parent.Keys + child.Keys
    && (forall k :: k in child ==> m[k] == child[k])
    && (forall k :: k in parent && k !in child ==> m[k] == parent[k])
  }

  /** `mergeLayouts`: `{...parent, ...child}` with the three maps merged
      key-wise and the content lists concatenated parent-first. */
  function MergeLayouts(parent: Layout, child: Layout): (m: Layout)
    ensures m.presets.Some? && m.canvas.Some? && m.parameters.Some? && m.content.Some?
  {
    Layout(
      id := Pick(parent.id, child.id),
      description := Pick(parent.description, child.description),
      parent := Pick(parent.parent, child.parent),
      aspectratio := Pick(parent.aspectratio, child.aspectratio),
      parameters := Some(ParametersOf(parent) + ParametersOf(child)),
      canvas := Some(CanvasOf(parent) + CanvasOf(child)),
      presets := Some(PresetsOf(parent) + PresetsOf(child)),
      content := Some(ContentOf(parent) + ContentOf(child)),
      extra := parent.extra + child.extra)
  }

  /** What a merge keeps: child scalars win, the three maps are child-wins
      unions with an absent map read as empty, content is parent-first. */
  lemma {:induction false} MergeLayoutsSpec(parent: Layout, child: Layout)
    ensures var m := MergeLayouts(parent, child);
      && (child.id.Some? ==> m.id == child.id)
      && (child.id.None? ==> m.id == parent.id)
      && (child.description.Some? ==> m.description == child.description)
      && (child.description.None? ==> m.description == parent.description)
      && (child.parent.Some? ==> m.parent == child.parent)
      && (child.parent.None? ==> m.parent == parent.parent)
      && (child.aspectratio.Some? ==> m.aspectratio == child.aspectratio)
      && (child.aspectratio.None? ==> m.aspectratio == parent.aspectratio)
      && ChildWinsUnion(PresetsOf(m), PresetsOf(parent), PresetsOf(child))
      && ChildWinsUnion(CanvasOf(m), CanvasOf(parent), CanvasOf(child))
      && ChildWinsUnion(ParametersOf(m), ParametersOf(parent), ParametersOf(child))
      && ContentOf(m) == ContentOf(parent) + ContentOf(child)
      && |ContentOf(m)| == |ContentOf(parent)| + |ContentOf(child)|
      && ChildWinsUnion(m.extra, parent.extra, child.extra)
  {
  }

  /** Merging is associative, so a chain merges the same way whichever pairs are merged first. */
  lemma {:induction false} MergeAssociative(a: Layout, b: Layout, c: Layout)
    ensures MergeLayouts(MergeLayouts(a, b), c) == MergeLayouts(a, MergeLayouts(b, c))
  {
    MapUnionAssociative(PresetsOf(a), PresetsOf(b), PresetsOf(c));
    MapUnionAssociative(CanvasOf(a), CanvasOf(b), CanvasOf(c));
    MapUnionAssociative(ParametersOf(a), ParametersOf(b), ParametersOf(c));
    MapUnionAssociative(a.extra, b.extra, c.extra);
    assert (ContentOf(a) + ContentOf(b)) + ContentOf(c) == ContentOf(a) + (ContentOf(b) + ContentOf(c));
  }

  // ---------------------------------------------------------------------------
  // Pure resolution over the raw documents
  // ---------------------------------------------------------------------------

  /** The document for `id` with its parent chain merged in, ancestors first. */
  function Resolve(docs: map<string, Layout>, id: string, fuel: nat): (r: Result<Layout, StoreError>)
    ensures id !in docs ==> r == Failure(NotFound(id))
    ensures id in docs && !Truthy(docs[id].parent) ==> r == Success(docs[id])
    decreases fuel
  {
    if id !in docs then Failure(NotFound(id))
    else
      var doc := docs[id];
      if Truthy(doc.parent) then
        if fuel == 0 then Failure(CyclicInheritance(id))
        else
          match Resolve(docs, doc.parent.value, fuel - 1)
          case Success(p) => Success(MergeLayouts(p, doc))
          case Failure(e) => Failure(e)
      else Success(doc)
  }

  /** More fuel never changes a resolution that already succeeded. */
  lemma {:induction false} ResolveFuelMonotonic(docs: map<string, Layout>, id: string, f: nat, g: nat)
    requires f <= g
    requires Resolve(docs, id, f).Success?
    ensures Resolve(docs, id, g) == Resolve(docs, id, f)
    decreases f
  {
    var doc := docs[id];
    if Truthy(doc.parent) {
      ResolveFuelMonotonic(docs, doc.parent.value, f - 1, g - 1);
    }
  }

  /** The raw documents of the chain ending at `id`, oldest ancestor first. */
  function Lineage(docs: map<string, Layout>, id: string, fuel: nat): Result<seq<Layout>, StoreError>
    decreases fuel
  {
    if id !in docs then Failure(NotFound(id))
    else if Truthy(docs[id].parent) then
      if fuel == 0 then Failure(CyclicInheritance(id))
      else
        match Lineage(docs, docs[id].parent.value, fuel - 1)
        case Success(ls) => Success(ls + [docs[id]])
        case Failure(e) => Failure(e)
    else Success([docs[id]])
  }

  function Contents(ls: seq<Layout>): (cs: seq<seq<Element>>)
    ensures |cs| == |ls|
    ensures forall i :: 0 <= i < |ls| ==> cs[i] == ContentOf(ls[i])
  {
    seq(|ls|, i requires 0 <= i < |ls| => ContentOf(ls[i]))
  }

  /** Resolution succeeds exactly when the chain is well formed; the resolved
      content is every chain member's own content, ancestors first, so its
      length is the sum of the per-document lengths. */
  lemma {:induction false} ResolvedContentIsChainContent(docs: map<string, Layout>, id: string, fuel: nat)
    ensures Resolve(docs, id, fuel).Success? <==> Lineage(docs, id, fuel).Success?
    ensures Resolve(docs, id, fuel).Success? ==>
      var ls := Lineage(docs, id, fuel).value;
      && |ls| >= 1 && ls[|ls| - 1] == docs[id]
      && ContentOf(Resolve(docs, id, fuel).value) == Flatten(Contents(ls))
      && |ContentOf(Resolve(docs, id, fuel).value)| == TotalLength(Contents(ls))
    decreases fuel
  {
    if id in docs && Truthy(docs[id].parent) && fuel > 0 {
      var pid := docs[id].parent.value;
      ResolvedContentIsChainContent(docs, pid, fuel - 1);
      if Resolve(docs, pid, fuel - 1).Success? {
        var ls := Lineage(docs, pid, fuel - 1).value;
        var p := Resolve(docs, pid, fuel - 1).value;
        assert Contents(ls + [docs[id]]) == Contents(ls) + [ContentOf(docs[id])];
        FlattenAppend(Contents(ls), [ContentOf(docs[id])]);
        assert Flatten([ContentOf(docs[id])]) == ContentOf(docs[id]);
        FlattenLength(Contents(ls + [docs[id]]));
      }
    } else if id in docs && !Truthy(docs[id].parent) {
      assert Flatten(Contents([docs[id]])) == ContentOf(docs[id]);
      FlattenLength(Contents([docs[id]]));
    }
  }

  // ---------------------------------------------------------------------------
  // The cached store (`getLayout`)
  // ---------------------------------------------------------------------------

  /** The raw documents reachable by id, and the cache of resolved layouts. */
  datatype Store = Store(docs: map<string, Layout>, cache: map<string, Layout>)

  /** `getLayout(id)`: a cached layout is returned as is; otherwise the raw
      document is resolved (parent first), cached and returned. */
  function GetLayout(s: Store, id: string, fuel: nat): (out: (Result<Layout, StoreError>, Store))
    ensures out.1.docs == s.docs
    ensures forall k :: k in s.cache ==> k in out.1.cache && out.1.cache[k] == s.cache[k]
    ensures id in s.cache ==> out == (Success(s.cache[id]), s)
    ensures id !in s.cache && id !in s.docs ==> out == (Failure(NotFound(id)), s)
    ensures id !in s.cache && id in s.docs && !Truthy(s.docs[id].parent) ==>
      out == (Success(s.docs[id]), s.(cache := s.cache[id := s.docs[id]]))
    ensures out.0.Success? ==> id in out.1.cache && out.1.cache[id] == out.0.value
    ensures out.0.Failure? ==> out.1 == s
    decreases fuel
  {
    if id in s.cache then (Success(s.cache[id]), s)
    else if id !in s.docs then (Failure(NotFound(id)), s)
    else
      var doc := s.docs[id];
      if Truthy(doc.parent) then
        if fuel == 0 then (Failure(CyclicInheritance(id)), s)
        else
          var (pr, s1) := GetLayout(s, doc.parent.value, fuel - 1);
          match pr
          case Success(p) =>
            var merged := MergeLayouts(p, doc);
            (Success(merged), s1.(cache := s1.cache[id := merged]))
          case Failure(e) => (Failure(e), s)
      else (Success(doc), s.(cache := s.cache[id := doc]))
  }

  /** Asking again for a layout that resolved returns the same object and leaves the store as it was. */
  lemma {:induction false} GetLayoutIdempotent(s: Store, id: string, fuel: nat, fuel2: nat)
    requires GetLayout(s, id, fuel).0.Success?
    ensures GetLayout(GetLayout(s, id, fuel).1, id, fuel2) == GetLayout(s, id, fuel)
  {
  }

  /** Every cached layout is what the pure resolver yields for its id with some fuel. */
  ghost predicate CacheSound(s: Store) {
    forall k :: k in s.cache ==> exists f: nat :: Resolve(s.docs, k, f) == Success(s.cache[k])
  }

  /** A sound cache stays sound, and whatever `GetLayout` returns is a pure resolution. */
  lemma {:induction false} GetLayoutSound(s: Store, id: string, fuel: nat)
    requires CacheSound(s)
    ensures CacheSound(GetLayout(s, id, fuel).1)
    ensures GetLayout(s, id, fuel).0.Success? ==>
      exists f: nat :: Resolve(s.docs, id, f) == GetLayout(s, id, fuel).0
    decreases fuel
  {
    if id in s.cache || id !in s.docs {
    } else {
      var doc := s.docs[id];
      if Truthy(doc.parent) {
        if fuel > 0 {
          var pid := doc.parent.value;
          GetLayoutSound(s, pid, fuel - 1);
          var (pr, s1) := GetLayout(s, pid, fuel - 1);
          if pr.Success? {
            var f: nat :| Resolve(s.docs, pid, f) == pr;
            var merged := MergeLayouts(pr.value, doc);
            assert Resolve(s.docs, id, f + 1) == Success(merged);
            var s2 := s1.(cache := s1.cache[id := merged]);
            forall k | k in s2.cache
              ensures exists g: nat :: Resolve(s2.docs, k, g) == Success(s2.cache[k])
            {
              if k == id {
                assert Resolve(s2.docs, k, f + 1) == Success(s2.cache[k]);
              } else {
                assert s2.cache[k] == s1.cache[k];
              }
            }
          }
        }
      } else {
        assert Resolve(s.docs, id, 0) == Success(doc);
        var s2 := s.(cache := s.cache[id := doc]);
        forall k | k in s2.cache
          ensures exists g: nat :: Resolve(s2.docs, k, g) == Success(s2.cache[k])
        {
          if k == id {
            assert Resolve(s2.docs, k, 0) == Success(s2.cache[k]);
          }
        }
      }
    }
  }

  /** With a sound cache, `GetLayout` agrees with the pure resolver whenever the latter succeeds. */
  lemma {:induction false} GetLayoutAgreesWithResolve(s: Store, id: string, fuel: nat)
    requires CacheSound(s)
    requires Resolve(s.docs, id, fuel).Success?
    ensures GetLayout(s, id, fuel).0 == Resolve(s.docs, id, fuel)
    decreases fuel
  {
    if id in s.cache {
      var f: nat :| Resolve(s.docs, id, f) == Success(s.cache[id]);
      var g := if f <= fuel then fuel else f;
      ResolveFuelMonotonic(s.docs, id, f, g);
      ResolveFuelMonotonic(s.docs, id, fuel, g);
    } else {
      var doc := s.docs[id];
      if Truthy(doc.parent) {
        GetLayoutAgreesWithResolve(s, doc.parent.value, fuel - 1);
      }
    }
  }

  // ---------------------------------------------------------------------------
  // Season directories
  // ---------------------------------------------------------------------------

  /** `dirName.toLowerCase()` matches `^s\d+$`. */
  predicate IsSeasonDir(d: string) {
    |d| >= 2 && LowerChar(d[0]) == 's' && AllDigits(d[1..])
  }

  /** `word.charAt(0).toUpperCase() + word.slice(1)` */
  function Capitalize(w: string): string {
    if w == "" then "" else [UpperChar(w[0])] + w[1..]
  }

  function CapitalizeAll(ws: seq<string>): (r: seq<string>)
    ensures |r| == |ws|
    ensures forall i :: 0 <= i < |ws| ==> r[i] == Capitalize(ws[i])
  {
    seq(|ws|, i requires 0 <= i < |ws| => Capitalize(ws[i]))
  }

  /** `getDisplayNameForDirectory` */
  function DisplayName(d: string): string {
    if IsSeasonDir(d) then "Season " + d[1..]
    else Join(CapitalizeAll(Split(d, '_')), " ")
  }

  /** Character `i` of the title-cased form of `d`: `_` shows as a space and the
      first character of every `_`-separated word is upper-cased. */
  function TitleChar(d: string, i: nat): char
    requires i < |d|
  {
    if d[i] == '_' then ' '
    else if i == 0 || d[i - 1] == '_' then UpperChar(d[i])
    else d[i]
  }

  /** A season directory `sN`/`SN` shows as `Season N`; any other name shows with
      each `_` turned into a space and each word's first character upper-cased,
      everything else untouched. */
  lemma {:induction false} DisplayNameSpec(d: string)
    ensures IsSeasonDir(d) ==> DisplayName(d) == "Season " + d[1..]
    ensures !IsSeasonDir(d) ==>
      |DisplayName(d)| == |d| && forall i :: 0 <= i < |d| ==> DisplayName(d)[i] == TitleChar(d, i)
  {
    if !IsSeasonDir(d) {
      var parts := Split(d, '_');
      JoinTitleIsCharwise(d, true);
      assert [Capitalize(parts[0])] + CapitalizeAll(parts[1..]) == CapitalizeAll(parts);
      CharwiseSpec(d, true);
    }
  }

  /** Title-casing one character at a time; `atStart` says the previous character ended a word. */
  function Charwise(d: string, atStart: bool): (r: string)
    ensures |r| == |d|
  {
    if |d| == 0 then ""
    else if d[0] == '_' then " " + Charwise(d[1..], true)
    else [if atStart then UpperChar(d[0]) else d[0]] + Charwise(d[1..], false)
  }

  lemma {:induction false} CharwiseSpec(d: string, atStart: bool)
    ensures forall i :: 0 < i < |d| ==> Charwise(d, atStart)[i] == TitleChar(d, i)
    ensures |d| > 0 ==> Charwise(d, atStart)[0] == (if d[0] == '_' then ' ' else if atStart then UpperChar(d[0]) else d[0])
    decreases |d|
  {
    if |d| > 0 {
      CharwiseSpec(d[1..], d[0] == '_');
      forall i | 0 < i < |d|
        ensures Charwise(d, atStart)[i] == TitleChar(d, i)
      {
        assert Charwise(d, atStart)[i] == Charwise(d[1..], d[0] == '_')[i - 1];
        if i > 1 {
          assert TitleChar(d[1..], i - 1) == TitleChar(d, i);
        }
      }
    }
  }

  lemma {:induction false} JoinCons(a: string, xs: seq<string>, sep: string)
    ensures Join([a] + xs, sep) == if |xs| == 0 then a else a + sep + Join(xs, sep)
  {
    assert ([a] + xs)[1..] == xs;
  }

  /** The title-cased words of `d`, the first one capitalized only when
      `capFirst`, joined with spaces, are the character-wise title-casing. */
  predicate TitleJoinMatches(d: string, capFirst: bool) {
    var parts := Split(d, '_');
    Join([if capFirst then Capitalize(parts[0]) else parts[0]] + CapitalizeAll(parts[1..]), " ")
      == Charwise(d, capFirst)
  }

  lemma {:induction false} SplitHead(d: string)
    requires |d| > 0
    ensures var rest := Split(d[1..], '_');
      Split(d, '_') == if d[0] == '_' then [""] + rest else [[d[0]] + rest[0]] + rest[1..]
  {
  }

  lemma {:induction false} CharwiseHead(d: string, atStart: bool)
    requires |d| > 0
    ensures Charwise(d, atStart) == if d[0] == '_' then " " + Charwise(d[1..], true)
      else [if atStart then UpperChar(d[0]) else d[0]] + Charwise(d[1..], false)
  {
  }

  lemma {:induction false} CapitalizeAllCons(ws: seq<string>)
    requires |ws| > 0
    ensures CapitalizeAll(ws) == [Capitalize(ws[0])] + CapitalizeAll(ws[1..])
  {
  }

  lemma {:induction false} TitleJoinUnderscore(d: string, capFirst: bool)
    requires |d| > 0 && d[0] == '_'
    requires TitleJoinMatches(d[1..], true)
    ensures TitleJoinMatches(d, capFirst)
  {
    var rest := Split(d[1..], '_');
    SplitHead(d);
    CharwiseHead(d, capFirst);
    CapitalizeAllCons(rest);
    var parts: seq<string> := [""] + rest;
    assert parts[0] == "" && parts[1..] == rest;
    JoinCons("", CapitalizeAll(rest), " ");
  }

  /** Prefixing the first word with a character prefixes the join with it. */
  lemma {:induction false} JoinPrefixFirst(x: char, w: string, ws: seq<string>)
    ensures Join([[x] + w] + ws, " ") == [x] + Join([w] + ws, " ")
  {
    JoinCons([x] + w, ws, " ");
    JoinCons(w, ws, " ");
  }

  lemma {:induction false} TitleJoinLetter(d: string, capFirst: bool)
    requires |d| > 0 && d[0] != '_'
    requires TitleJoinMatches(d[1..], false)
    ensures TitleJoinMatches(d, capFirst)
  {
    var rest := Split(d[1..], '_');
    var c := d[0];
    SplitHead(d);
    CharwiseHead(d, capFirst);
    var first := if capFirst then UpperChar(c) else c;
    var tail := CapitalizeAll(rest[1..]);
    assert Join([rest[0]] + tail, " ") == Charwise(d[1..], false);
    JoinPrefixFirst(first, rest[0], tail);
    var parts: seq<string> := [[c] + rest[0]] + rest[1..];
    assert parts[0] == [c] + rest[0] && parts[1..] == rest[1..];
    assert (if capFirst then Capitalize(parts[0]) else parts[0]) == [first] + rest[0];
  }

  /** `Join` of the title-cased words equals the character-wise title-casing. */
  lemma {:induction false} JoinTitleIsCharwise(d: string, capFirst: bool)
    ensures TitleJoinMatches(d, capFirst)
    decreases |d|
  {
    if |d| > 0 {
      if d[0] == '_' {
        JoinTitleIsCharwise(d[1..], true);
        TitleJoinUnderscore(d, capFirst);
      } else {
        JoinTitleIsCharwise(d[1..], false);
        TitleJoinLetter(d, capFirst);
      }
    }
  }

  // ---------------------------------------------------------------------------
  // Layouts by parent (`getLayoutsByParent`)
  // ---------------------------------------------------------------------------

  /** One entry of the layout index: id and description. */
  datatype LayoutInfo = LayoutInfo(id: string, description: string)

  /** `parent` matches `^Season (\d+)$` case-insensitively. */
  predicate IsSeasonDisplay(p: string) {
    |p| > 7 && Lower(p[..7]) == "season " && AllDigits(p[7..])
  }

  /** The directory form of a display name: `Season N` becomes `sN`, then
      lower case, then every space becomes `_`. */
  function DirFormat(p: string): string {
    var d := if IsSeasonDisplay(p) then "s" + p[7..] else p;
    ReplaceChar(Lower(d), ' ', '_')
  }

  /** The id has at least two `.`-parts and its second part starts with `prefix`. */
  predicate IdMatches(id: string, prefix: string) {
    var parts := Split(id, '.');
    |parts| > 1 && StartsWith(parts[1], prefix)
  }

  /** `getLayoutsByParent`; `before` stands for the locale order of descriptions. */
  function GetLayoutsByParent(index: seq<LayoutInfo>, parent: Option<string>, before: (string, string) -> bool): (r: seq<LayoutInfo>)
    ensures !Truthy(parent) ==> r == []
    ensures Truthy(parent) ==> forall e :: e in r <==> e in index && IdMatches(e.id, DirFormat(parent.value))
    ensures Truthy(parent) ==> multiset(r) == multiset(Filter(index, (e: LayoutInfo) => IdMatches(e.id, DirFormat(parent.value))))
  {
    if !Truthy(parent) then []
    else
      var prefix := DirFormat(parent.value);
      var matching := Filter(index, (e: LayoutInfo) => IdMatches(e.id, prefix));
      var r := Sort(matching, (a: LayoutInfo, b: LayoutInfo) => before(a.description, b.description));
      assert forall e :: e in r <==> e in multiset(matching);
      r
  }

  /** `IdMatches`, except that a prefix ending in a digit must not be followed
      by another digit: `s1` then no longer matches `s10-01`. */
  predicate IdMatchesExact(id: string, prefix: string) {
    var parts := Split(id, '.');
    && |parts| > 1 && StartsWith(parts[1], prefix)
    && (prefix == "" || !IsDigit(prefix[|prefix| - 1]) || |parts[1]| == |prefix| || !IsDigit(parts[1][|prefix|]))
  }

  /** `getLayoutsByParent` with the season number matched whole. */
  function GetLayoutsByParentExact(index: seq<LayoutInfo>, parent: Option<string>, before: (string, string) -> bool): (r: seq<LayoutInfo>)
    ensures !Truthy(parent) ==> r == []
    ensures Truthy(parent) ==> forall e :: e in r <==> e in index && IdMatchesExact(e.id, DirFormat(parent.value))
    ensures Truthy(parent) ==> multiset(r) == multiset(Filter(index, (e: LayoutInfo) => IdMatchesExact(e.id, DirFormat(parent.value))))
  {
    if !Truthy(parent) then []
    else
      var prefix := DirFormat(parent.value);
      var matching := Filter(index, (e: LayoutInfo) => IdMatchesExact(e.id, prefix));
      var r := Sort(matching, (a: LayoutInfo, b: LayoutInfo) => before(a.description, b.description));
      assert forall e :: e in r <==> e in multiset(matching);
      r
  }

  /** The exact match only differs from the prefix match after a digit: it
      excludes ids whose number continues past the prefix's. */
  lemma {:induction false} IdMatchesExactRefines(id: string, prefix: string)
    ensures IdMatchesExact(id, prefix) ==> IdMatches(id, prefix)
    ensures prefix == "" || !IsDigit(prefix[|prefix| - 1]) ==> (IdMatchesExact(id, prefix) <==> IdMatches(id, prefix))
    ensures IdMatches(id, prefix) && !IdMatchesExact(id, prefix) ==>
      var part := Split(id, '.')[1]; |part| > |prefix| && IsDigit(prefix[|prefix| - 1]) && IsDigit(part[|prefix|])
  {
  }

  /** The listing is ordered by description when `before` is a strict order. */
  lemma {:induction false} GetLayoutsByParentSorted(index: seq<LayoutInfo>, parent: Option<string>, before: (string, string) -> bool)
    requires StrictOrder(before)
    ensures var r := GetLayoutsByParent(index, parent, before);
      forall i, j :: 0 <= i < j < |r| ==> !before(r[j].description, r[i].description)
  {
    if Truthy(parent) {
      var prefix := DirFormat(parent.value);
      var matching := Filter(index, (e: LayoutInfo) => IdMatches(e.id, prefix));
      var lt := (a: LayoutInfo, b: LayoutInfo) => before(a.description, b.description);
      SortSorted(matching, lt);
    }
  }

  /** `d` is `season_N` in any letter case, whose display name reads back as `sN`. */
  predicate IsSeasonWordDir(d: string) {
    |d| > 7 && Lower(d[..7]) == "season_" && AllDigits(d[7..])
  }

  /** Outside the `sN` case, only a `season_N` directory shows as `Season N`. */
  lemma {:induction false} SeasonDisplayOfWordDir(d: string)
    requires ' ' !in d && !IsSeasonDir(d)
    ensures IsSeasonDisplay(DisplayName(d)) ==> IsSeasonWordDir(d)
  {
    DisplayNameSpec(d);
    var shown := DisplayName(d);
    if IsSeasonDisplay(shown) {
      assert Lower(d[..7]) == "season_" by {
        forall i | 0 <= i < 7
          ensures Lower(d[..7])[i] == "season_"[i]
        {
          assert shown[i] == TitleChar(d, i);
          assert Lower(shown[..7])[i] == "season "[i];
          LowerOfUpper(d[i]);
        }
      }
      assert AllDigits(d[7..]) by {
        forall i | 7 <= i < |d|
          ensures IsDigit(d[i])
        {
          assert shown[i] == TitleChar(d, i);
          assert shown[7..][i - 7] == shown[i];
        }
      }
    }
  }

  /** Listing by a directory's display name looks for that directory's own
      (lower-case) name, for every name without spaces other than `season_N`. */
  lemma {:induction false} DirFormatOfDisplayName(d: string)
    requires ' ' !in d
    requires !IsSeasonWordDir(d)
    ensures DirFormat(DisplayName(d)) == Lower(d)
  {
    DisplayNameSpec(d);
    var shown := DisplayName(d);
    if IsSeasonDir(d) {
      assert !IsSeasonDisplay(shown) || shown[7..] == d[1..];
      assert IsSeasonDisplay(shown);
      assert DirFormat(shown) == ReplaceChar(Lower("s" + d[1..]), ' ', '_');
      assert "s" + d[1..] == [LowerChar(d[0])] + d[1..];
    } else {
      SeasonDisplayOfWordDir(d);
      forall i | 0 <= i < |d|
        ensures DirFormat(shown)[i] == Lower(d)[i]
      {
        assert shown[i] == TitleChar(d, i);
        LowerOfUpper(d[i]);
      }
    }
  }
}

=== FILE: ocr_words.dfy ===
/** What both layout-authoring tools do with Tesseract's word boxes once they
    have them: the word record, the `(top, left)` and `left` orders, and the
    conversion of a group of words into a text line with its bounding box in
    percent of the crop. Tesseract itself is outside the model: its rows
    arrive as a list. */
module OcrWords {

  import opened Strings
  import opened Sequences

  /** One row of `image_to_data`: the raw text and its box in crop pixels. */
  datatype OcrRow = OcrRow(text: string, left: int, top: int, width: int, height: int)

  /** A recognised word with non-blank, stripped text. */
  datatype Word = Word(text: string, left: int, top: int, width: int, height: int)

  /** The word a row contributes: its text stripped, its box unchanged. */
  function WordOf(row: OcrRow): Word {
    Word(Strip(row.text), row.left, row.top, row.width, row.height)
  }

  /** A row whose stripped text is not empty. */
  predicate HasText(row: OcrRow) {
    Strip(row.text) != ""
  }

  /** `words.sort(key=lambda w: (w['top'], w['left']))` */
  predicate TopLeftBefore(a: Word, b: Word) {
    a.top < b.top || (a.top == b.top && a.left < b.left)
  }

  lemma {:induction false} TopLeftIsStrictOrder()
    ensures StrictOrder(TopLeftBefore)
  {
  }

  /** `line.sort(key=lambda w: w['left'])` */
  predicate LeftBefore(a: Word, b: Word) {
    a.left < b.left
  }

  lemma {:induction false} LeftIsStrictOrder()
    ensures StrictOrder(LeftBefore)
  {
  }

  function Heights(words: seq<Word>): (hs: seq<int>)
    ensures |hs| == |words|
    ensures forall i :: 0 <= i < |words| ==> hs[i] == words[i].height
  {
    seq(|words|, i requires 0 <= i < |words| => words[i].height)
  }

  function Texts(words: seq<Word>): (ts: seq<string>)
    ensures |ts| == |words|
    ensures forall i :: 0 <= i < |words| ==> ts[i] == words[i].text
  {
    seq(|words|, i requires 0 <= i < |words| => words[i].text)
  }

  /** `' '.join(w['text'] for w in line)` */
  function LineText(line: seq<Word>): string {
    Join(Texts(line), " ")
  }

  /** The test both tools use to drop the "Items" heading. */
  predicate MentionsItems(text: string) {
    Contains(Lower(text), "items")
  }

  // ---------------------------------------------------------------------------
  // Line extent
  // ---------------------------------------------------------------------------

  /** `min(...)` over a non-empty list. */
  function MinOf(xs: seq<int>): (m: int)
    requires |xs| > 0
    ensures m in xs
    ensures forall x :: x in xs ==> m <= x
  {
    if |xs| == 1 then xs[0]
    else
      var rest := MinOf(xs[1..]);
      assert forall x :: x in xs ==> x == xs[0] || x in xs[1..];
      if xs[0] <= rest then xs[0] else rest
  }

  /** `max(...)` over a non-empty list. */
  function MaxOf(xs: seq<int>): (m: int)
    requires |xs| > 0
    ensures m in xs
    ensures forall x :: x in xs ==> x <= m
  {
    if |xs| == 1 then xs[0]
    else
      var rest := MaxOf(xs[1..]);
      assert forall x :: x in xs ==> x == xs[0] || x in xs[1..];
      if xs[0] >= rest then xs[0] else rest
  }

  /** A line's pixel box. */
  datatype Box = Box(x0: int, y0: int, x1: int, y1: int)

  /** The four edges of a word's box. */
  datatype Edge = LeftEdge | TopEdge | RightEdge | BottomEdge

  function EdgeOf(w: Word, e: Edge): int {
    match e
    case LeftEdge => w.left
    case TopEdge => w.top
    case RightEdge => w.left + w.width
    case BottomEdge => w.top + w.height
  }

  /** One edge of every word, in order. */
  function Edges(line: seq<Word>, e: Edge): (xs: seq<int>)
    ensures |xs| == |line|
    ensures forall i :: 0 <= i < |line| ==> xs[i] == EdgeOf(line[i], e)
  {
    seq(|line|, i requires 0 <= i < |line| => EdgeOf(line[i], e))
  }

  /** The edges are exactly the words' edges. */
  lemma {:induction false} EdgesMembers(line: seq<Word>, e: Edge)
    ensures forall w :: w in line ==> EdgeOf(w, e) in Edges(line, e)
    ensures forall x :: x in Edges(line, e) ==> exists w :: w in line && EdgeOf(w, e) == x
  {
    var xs := Edges(line, e);
    forall w | w in line
      ensures EdgeOf(w, e) in xs
    {
      var i :| 0 <= i < |line| && line[i] == w;
      assert xs[i] == EdgeOf(w, e);
    }
    forall x | x in xs
      ensures exists w :: w in line && EdgeOf(w, e) == x
    {
      var i :| 0 <= i < |xs| && xs[i] == x;
      assert line[i] in line;
    }
  }

  /** The smallest value of one edge over the line, reached by some word. */
  function Least(line: seq<Word>, e: Edge): (m: int)
    requires |line| > 0
    ensures forall w :: w in line ==> m <= EdgeOf(w, e)
    ensures exists w :: w in line && EdgeOf(w, e) == m
  {
    EdgesMembers(line, e);
    MinOf(Edges(line, e))
  }

  /** The largest value of one edge over the line, reached by some word. */
  function Greatest(line: seq<Word>, e: Edge): (m: int)
    requires |line| > 0
    ensures forall w :: w in line ==> EdgeOf(w, e) <= m
    ensures exists w :: w in line && EdgeOf(w, e) == m
  {
    EdgesMembers(line, e);
    MaxOf(Edges(line, e))
  }

  /** The smallest box holding every word of the line: min left and top, max
      right (`left + width`) and bottom (`top + height`). */
  function LineBox(line: seq<Word>): (b: Box)
    requires |line| > 0
    ensures forall w :: w in line ==> b.x0 <= w.left && b.y0 <= w.top && w.left + w.width <= b.x1 && w.top + w.height <= b.y1
    ensures exists w :: w in line && w.left == b.x0
    ensures exists w :: w in line && w.top == b.y0
    ensures exists w :: w in line && w.left + w.width == b.x1
    ensures exists w :: w in line && w.top + w.height == b.y1
  {
    Box(Least(line, LeftEdge), Least(line, TopEdge), Greatest(line, RightEdge), Greatest(line, BottomEdge))
  }

  // ---------------------------------------------------------------------------
  // Output lines
  // ---------------------------------------------------------------------------

  /** An output line: its text and its box in percent of the crop (the tools
      then round each figure to three decimals, which is not modelled). */
  datatype TextLine = TextLine(text: string, x0: real, y0: real, x1: real, y1: real)

  function Percent(v: int, dim: int): real
    requires dim > 0
  {
    v as real / dim as real * 100.0
  }

  /** A line, already in left order, as its output record. */
  function LineRecord(line: seq<Word>, cw: int, ch: int): (t: TextLine)
    requires |line| > 0 && cw > 0 && ch > 0
    ensures t.text == LineText(line)
    ensures var b := LineBox(line);
      t.x0 == Percent(b.x0, cw) && t.y0 == Percent(b.y0, ch) && t.x1 == Percent(b.x1, cw) && t.y1 == Percent(b.y1, ch)
  {
    var b := LineBox(line);
    TextLine(LineText(line), Percent(b.x0, cw), Percent(b.y0, ch), Percent(b.x1, cw), Percent(b.y1, ch))
  }

  /** Each group of words sorted by `left`. */
  function SortEachByLeft(groups: seq<seq<Word>>): (lines: seq<seq<Word>>)
    ensures |lines| == |groups|
    ensures forall i :: 0 <= i < |groups| ==> lines[i] == Sort(groups[i], LeftBefore)
  {
    seq(|groups|, i requires 0 <= i < |groups| => Sort(groups[i], LeftBefore))
  }

  /** Sorting each group loses and invents no word. */
  lemma {:induction false} SortEachKeepsWords(groups: seq<seq<Word>>)
    ensures multiset(Flatten(SortEachByLeft(groups))) == multiset(Flatten(groups))
    decreases |groups|
  {
    if |groups| > 0 {
      SortEachKeepsWords(groups[1..]);
      assert SortEachByLeft(groups)[1..] == SortEachByLeft(groups[1..]);
    }
  }

  /** Every line of the output is in left order. */
  lemma {:induction false} SortEachSorted(groups: seq<seq<Word>>)
    ensures forall i :: 0 <= i < |groups| ==> Sorted(SortEachByLeft(groups)[i], LeftBefore)
  {
    LeftIsStrictOrder();
    forall i | 0 <= i < |groups|
      ensures Sorted(SortEachByLeft(groups)[i], LeftBefore)
    {
      SortSorted(groups[i], LeftBefore);
    }
  }

  /** The lines whose text does not mention "items", in order. */
  function KeptLines(lines: seq<seq<Word>>): (kept: seq<seq<Word>>)
    ensures |kept| <= |lines|
    ensures forall l :: l in kept <==> l in lines && !MentionsItems(LineText(l))
  {
    Filter(lines, (l: seq<Word>) => !MentionsItems(LineText(l)))
  }

  /** The lines that survive the "items" filter, as output records, in order. */
  function ToTextLines(lines: seq<seq<Word>>, cw: int, ch: int): (r: seq<TextLine>)
    requires forall l :: l in lines ==> |l| > 0
    requires cw > 0 && ch > 0
    ensures |r| <= |lines|
    ensures forall t :: t in r ==> !MentionsItems(t.text)
  {
    var kept := KeptLines(lines);
    seq(|kept|, i requires 0 <= i < |kept| => LineRecord(kept[i], cw, ch))
  }

  /** Every line that does not mention "items" is in the output, and every
      output record comes from such a line. */
  lemma {:induction false} ToTextLinesComplete(lines: seq<seq<Word>>, cw: int, ch: int)
    requires forall l :: l in lines ==> |l| > 0
    requires cw > 0 && ch > 0
    ensures forall l :: l in lines && !MentionsItems(LineText(l)) ==> LineRecord(l, cw, ch) in ToTextLines(lines, cw, ch)
    ensures forall t :: t in ToTextLines(lines, cw, ch) ==> exists l :: l in lines && t == LineRecord(l, cw, ch)
  {
    var kept := KeptLines(lines);
    var r := ToTextLines(lines, cw, ch);
    forall l | l in lines && !MentionsItems(LineText(l))
      ensures LineRecord(l, cw, ch) in r
    {
      var i :| 0 <= i < |kept| && kept[i] == l;
      assert r[i] == LineRecord(l, cw, ch);
    }
  }
}

=== FILE: pdf_generator.dfy ===
/** scripts/PdfGenerator.ts: turns a resolved layout and parameter data into
    draw calls on the first page of a PDF.

    The page is its `(width, height)`; draw calls accumulate in a sequence;
    font metrics (`widthOfTextAtSize`, `heightAtSize`) are uninterpreted
    functions carried in `Metrics`. The name-chasing recursions over preset
    and canvas parents, unbounded in the source, carry `fuel`. */
module PdfGenerator {

  import opened Wrappers
  import opened Strings
  import opened Sequences
  import opened LayoutModel

  // ---------------------------------------------------------------------------
  // Page, fonts, colours, draw calls
  // ---------------------------------------------------------------------------

  datatype Page = Page(width: real, height: real)

  /** A rectangle with its `y` measured from the top of the page. */
  datatype Rect = Rect(x: real, y: real, width: real, height: real)

  /** The three standard fonts the lookup table knows. */
  datatype Font = Helvetica | TimesRoman | Courier

  datatype Rgb = Rgb(r: real, g: real, b: real)

  /** One `page.drawText(text, {x, y, font, size, color})`. */
  datatype DrawOp = DrawText(text: string, x: real, y: real, font: Font, size: real, color: Rgb)

  /** The font metrics of the PDF library. */
  datatype Metrics = Metrics(widthOf: (Font, string, real) -> real, heightAt: (Font, real) -> real)

  /** The ways rendering fails: a `TypeError` on an absent table, a missing
      canvas, a parent cycle (stack overflow in the source), an aspect ratio
      that is not two decimal numbers with a non-zero height, or no content list. */
  datatype RenderError =
    | NoPresetTable
    | PresetCycle(preset: string)
    | NoCanvasTable
    | CanvasNotFound(canvas: string)
    | CanvasCycle(canvas: string)
    | BadAspectRatio(ratio: string)
    | NoContent

  /** Parameter data: parameter name to value. */
  type Data = map<string, string>

  // ---------------------------------------------------------------------------
  // Preset resolution (`resolvePresets`)
  // ---------------------------------------------------------------------------

  /** The properties contributed by a list of preset names, left to right: each
      found preset contributes what it inherits through its own `presets`,
      then its own fields, each overriding what came before. A name missing
      from the table contributes nothing; looking any name up in an absent
      table fails. */
  function ResolveNames(table: Option<map<string, Preset>>, names: seq<string>, fuel: nat): (r: Result<Props, RenderError>)
    ensures |names| > 0 && r.Success? ==> table.Some?
    ensures r.Success? && |names| > 0 && names[|names| - 1] in table.value ==>
      forall k :: k in PresetProps(table.value[names[|names| - 1]]) ==>
        k in r.value && r.value[k] == PresetProps(table.value[names[|names| - 1]])[k]
    decreases fuel, |names|
  {
    if |names| == 0 then Success(map[])
    else
      var prev :- ResolveNames(table, names[..|names| - 1], fuel);
      var name := names[|names| - 1];
      if table.None? then Failure(NoPresetTable)
      else if name !in table.value then Success(prev)
      else if fuel == 0 then Failure(PresetCycle(name))
      else
        var preset := table.value[name];
        var inherited :- ResolveNames(table, preset.presets.GetOr([]), fuel - 1);
        Success(prev + inherited + PresetProps(preset))
  }

  /** `{...resolved, ...element}`: the element's own fields over its presets. */
  function ResolveElement(table: Option<map<string, Preset>>, e: Element, fuel: nat): (r: Result<Props, RenderError>)
    ensures r.Success? ==> forall k :: k in ElementProps(e) ==> k in r.value && r.value[k] == ElementProps(e)[k]
    ensures r.Success? ==> TypeKey in r.value && r.value[TypeKey] == PType(e.kind)
    ensures e.presets.None? ==> r == Success(ElementProps(e))
  {
    var resolved :- if e.presets.Some? then ResolveNames(table, e.presets.value, fuel) else Success(map[]);
    MapUnionEmpty(ElementProps(e));
    Success(resolved + ElementProps(e))
  }

  /** A key the element does not set comes from its presets, unchanged. */
  lemma {:induction false} PresetFieldsFillGaps(table: Option<map<string, Preset>>, e: Element, fuel: nat, k: Key)
    requires e.presets.Some?
    requires ResolveElement(table, e, fuel).Success?
    requires k !in ElementProps(e)
    ensures ResolveNames(table, e.presets.value, fuel).Success?
    ensures k in ResolveElement(table, e, fuel).value <==> k in ResolveNames(table, e.presets.value, fuel).value
    ensures k in ResolveElement(table, e, fuel).value ==>
      ResolveElement(table, e, fuel).value[k] == ResolveNames(table, e.presets.value, fuel).value[k]
  {
  }

  /** Resolving a concatenated name list is resolving each part and letting the second override the first. */
  lemma {:induction false} ResolveNamesAppend(table: Option<map<string, Preset>>, a: seq<string>, b: seq<string>, fuel: nat)
    ensures ResolveNames(table, a + b, fuel) ==
      match ResolveNames(table, a, fuel)
      case Failure(e) => Failure(e)
      case Success(x) =>
        match ResolveNames(table, b, fuel)
        case Failure(e) => Failure(e)
        case Success(y) => Success(x + y)
    decreases |b|
  {
    if |b| == 0 {
      assert a + b == a;
      if ResolveNames(table, a, fuel).Success? {
        var x := ResolveNames(table, a, fuel).value;
        assert x + map[] == x;
      }
    } else {
      var b' := b[..|b| - 1];
      assert (a + b)[..|a + b| - 1] == a + b';
      assert (a + b)[|a + b| - 1] == b[|b| - 1];
      ResolveNamesAppend(table, a, b', fuel);
      var name := b[|b| - 1];
      if ResolveNames(table, a, fuel).Success? && ResolveNames(table, b', fuel).Success?
        && table.Some? && name in table.value && fuel > 0
      {
        var x := ResolveNames(table, a, fuel).value;
        var y := ResolveNames(table, b', fuel).value;
        var preset := table.value[name];
        var inherited := ResolveNames(table, preset.presets.GetOr([]), fuel - 1);
        if inherited.Success? {
          MapUnionAssociative(x, y, inherited.value);
          MapUnionAssociative(x, y + inherited.value, PresetProps(preset));
        }
      }
    }
  }

  /** A name the table does not hold is skipped without error. */
  lemma {:induction false} MissingPresetSkipped(table: map<string, Preset>, a: seq<string>, name: string, b: seq<string>, fuel: nat)
    requires name !in table
    ensures ResolveNames(Some(table), a + [name] + b, fuel) == ResolveNames(Some(table), a + b, fuel)
  {
    ResolveNamesAppend(Some(table), a + [name], b, fuel);
    ResolveNamesAppend(Some(table), a, [name], fuel);
    ResolveNamesAppend(Some(table), a, b, fuel);
    assert [name][..0] == [];
    if ResolveNames(Some(table), a, fuel).Success? {
      var x := ResolveNames(Some(table), a, fuel).value;
      assert x + map[] == x;
    }
  }

  /** A preset's fields override those of presets listed before it, and those it
      inherits override the earlier ones too; a field neither sets keeps the earlier value. */
  lemma {:induction false} LaterPresetWins(table: map<string, Preset>, earlier: seq<string>, name: string, fuel: nat, k: Key)
    requires name in table && fuel > 0
    requires ResolveNames(Some(table), earlier + [name], fuel).Success?
    ensures ResolveNames(Some(table), earlier, fuel).Success?
    ensures ResolveNames(Some(table), table[name].presets.GetOr([]), fuel - 1).Success?
    ensures
      var before := ResolveNames(Some(table), earlier, fuel).value;
      var inherited := ResolveNames(Some(table), table[name].presets.GetOr([]), fuel - 1).value;
      var after := ResolveNames(Some(table), earlier + [name], fuel).value;
      && (k in PresetProps(table[name]) ==> after[k] == PresetProps(table[name])[k])
      && (k !in PresetProps(table[name]) && k in inherited ==> after[k] == inherited[k])
      && (k !in PresetProps(table[name]) && k !in inherited ==> (k in after <==> k in before))
      && (k !in PresetProps(table[name]) && k !in inherited && k in before ==> after[k] == before[k])
  {
    assert (earlier + [name])[..|earlier|] == earlier;
  }

  // ---------------------------------------------------------------------------
  // Canvas rectangles (`getCanvasRect`)
  // ---------------------------------------------------------------------------

  function PageRect(page: Page): Rect {
    Rect(0.0, 0.0, page.width, page.height)
  }

  /** A percentage box placed inside an outer rectangle. */
  function Place(c: Canvas, outer: Rect): Rect {
    Rect(
      outer.x + (c.x / 100.0) * outer.width,
      outer.y + (c.y / 100.0) * outer.height,
      ((c.x2 - c.x) / 100.0) * outer.width,
      ((c.y2 - c.y) / 100.0) * outer.height)
  }

  /** The page rectangle of a named canvas: a root canvas is its percentage box
      of the page; a canvas with a (truthy) parent is its percentage box of the
      parent's rectangle. */
  function CanvasRect(table: Option<map<string, Canvas>>, page: Page, name: string, fuel: nat): (r: Result<Rect, RenderError>)
    ensures table.None? ==> r == Failure(NoCanvasTable)
    ensures table.Some? && name !in table.value ==> r == Failure(CanvasNotFound(name))
    ensures r.Success? ==> table.Some? && name in table.value
    decreases fuel
  {
    if table.None? then Failure(NoCanvasTable)
    else if name !in table.value then Failure(CanvasNotFound(name))
    else
      var c := table.value[name];
      if Truthy(c.parent) then
        if fuel == 0 then Failure(CanvasCycle(name))
        else
          var outer :- CanvasRect(table, page, c.parent.value, fuel - 1);
          Success(Place(c, outer))
      else Success(Place(c, PageRect(page)))
  }

  /** A root canvas is its percentage box of the page. */
  lemma {:induction false} RootCanvasRect(table: map<string, Canvas>, page: Page, name: string, fuel: nat)
    requires name in table && !Truthy(table[name].parent)
    ensures CanvasRect(Some(table), page, name, fuel) == Success(RootRect(table[name], page))
  {
    RootCanvasPlace(table, page, name, fuel);
    PlaceInPage(table[name], page);
  }

  lemma {:induction false} RootCanvasPlace(table: map<string, Canvas>, page: Page, name: string, fuel: nat)
    requires name in table && !Truthy(table[name].parent)
    ensures CanvasRect(Some(table), page, name, fuel) == Success(Place(table[name], PageRect(page)))
  {
  }

  /** A canvas with a parent is its percentage box of the parent's rectangle. */
  lemma {:induction false} NestedCanvasRect(table: map<string, Canvas>, page: Page, name: string, fuel: nat)
    requires name in table && Truthy(table[name].parent) && fuel > 0
    requires CanvasRect(Some(table), page, table[name].parent.value, fuel - 1).Success?
    ensures var c := table[name];
      var p := CanvasRect(Some(table), page, c.parent.value, fuel - 1).value;
      var r := CanvasRect(Some(table), page, name, fuel);
      r.Success? && r.value == Rect(
        p.x + (c.x / 100.0) * p.width, p.y + (c.y / 100.0) * p.height,
        ((c.x2 - c.x) / 100.0) * p.width, ((c.y2 - c.y) / 100.0) * p.height)
  {
    var c := table[name];
    var p := CanvasRect(Some(table), page, c.parent.value, fuel - 1).value;
    assert CanvasRect(Some(table), page, name, fuel) == Success(Place(c, p));
  }

  /** A percentage box of the page size. */
  function RootRect(c: Canvas, page: Page): Rect {
    Rect(
      (c.x / 100.0) * page.width, (c.y / 100.0) * page.height,
      ((c.x2 - c.x) / 100.0) * page.width, ((c.y2 - c.y) / 100.0) * page.height)
  }

  /** A box placed in the whole page is its percentages of the page size. */
  lemma {:induction false} PlaceInPage(c: Canvas, page: Page)
    ensures Place(c, PageRect(page)) == RootRect(c, page)
  {
    var r := PageRect(page);
    assert r.x == 0.0 && r.y == 0.0 && r.width == page.width && r.height == page.height;
  }

  /** A child spanning `(0,0)-(100,100)` of its parent has the parent's rectangle. */
  lemma {:induction false} FullChildIsParent(table: map<string, Canvas>, page: Page, name: string, fuel: nat)
    requires name in table
    requires var c := table[name]; Truthy(c.parent) && c.x == 0.0 && c.y == 0.0 && c.x2 == 100.0 && c.y2 == 100.0
    requires fuel > 0
    ensures CanvasRect(Some(table), page, name, fuel) == CanvasRect(Some(table), page, table[name].parent.value, fuel - 1)
  {
  }

  /** `(0,0)-(50,50)` under a full-page root canvas is the top-left quadrant of the page. */
  lemma {:induction false} QuadrantOfFullPage(table: map<string, Canvas>, page: Page, name: string, fuel: nat)
    requires name in table && fuel > 0
    requires var c := table[name]; Truthy(c.parent) && c.x == 0.0 && c.y == 0.0 && c.x2 == 50.0 && c.y2 == 50.0
    requires var p := table[name].parent.value;
      p in table && !Truthy(table[p].parent)
      && table[p].x == 0.0 && table[p].y == 0.0 && table[p].x2 == 100.0 && table[p].y2 == 100.0
    ensures CanvasRect(Some(table), page, name, fuel) == Success(Rect(0.0, 0.0, page.width / 2.0, page.height / 2.0))
  {
  }

  /** The box of `inner` within the box of `outer`, as percentages of the outermost rectangle. */
  function Compose(outer: Canvas, inner: Canvas): Canvas {
    Canvas(outer.parent,
      outer.x + inner.x * (outer.x2 - outer.x) / 100.0,
      outer.y + inner.y * (outer.y2 - outer.y) / 100.0,
      outer.x + inner.x2 * (outer.x2 - outer.x) / 100.0,
      outer.y + inner.y2 * (outer.y2 - outer.y) / 100.0)
  }

  /** The offset step of `PlaceCompose` on one axis, `d` being the outer box's extent. */
  lemma {:induction false} OffsetCompose(o: real, i: real, d: real, w: real)
    ensures (o / 100.0) * w + (i / 100.0) * ((d / 100.0) * w) == ((o + i * d / 100.0) / 100.0) * w
  {
    assert (i / 100.0) * ((d / 100.0) * w) == ((i * d / 100.0) / 100.0) * w;
    assert (o / 100.0) * w + ((i * d / 100.0) / 100.0) * w == ((o + i * d / 100.0) / 100.0) * w;
  }

  /** The extent step of `PlaceCompose` on one axis. */
  lemma {:induction false} ExtentCompose(o: real, i: real, i2: real, d: real, w: real)
    ensures ((i2 - i) / 100.0) * ((d / 100.0) * w) == (((o + i2 * d / 100.0) - (o + i * d / 100.0)) / 100.0) * w
  {
    assert (o + i2 * d / 100.0) - (o + i * d / 100.0) == (i2 - i) * d / 100.0;
    assert ((i2 - i) / 100.0) * ((d / 100.0) * w) == (((i2 - i) * d / 100.0) / 100.0) * w;
  }

  /** Placing a box inside a placed box is placing the composed box. */
  lemma {:induction false} PlaceCompose(outer: Canvas, inner: Canvas, r: Rect)
    ensures Place(inner, Place(outer, r)) == Place(Compose(outer, inner), r)
  {
    var mid := Place(outer, r);
    var lhs := Place(inner, mid);
    var c := Compose(outer, inner);
    var rhs := Place(c, r);
    OffsetCompose(outer.x, inner.x, outer.x2 - outer.x, r.width);
    assert lhs.x == rhs.x;
    OffsetCompose(outer.y, inner.y, outer.y2 - outer.y, r.height);
    assert lhs.y == rhs.y;
    ExtentCompose(outer.x, inner.x, inner.x2, outer.x2 - outer.x, r.width);
    assert mid.width == ((outer.x2 - outer.x) / 100.0) * r.width;
    assert lhs.width == ((inner.x2 - inner.x) / 100.0) * mid.width;
    assert rhs.width == ((c.x2 - c.x) / 100.0) * r.width;
    ExtentCompose(outer.y, inner.y, inner.y2, outer.y2 - outer.y, r.height);
    assert mid.height == ((outer.y2 - outer.y) / 100.0) * r.height;
    assert lhs.height == ((inner.y2 - inner.y) / 100.0) * mid.height;
    assert rhs.height == ((c.y2 - c.y) / 100.0) * r.height;
  }

  // ---------------------------------------------------------------------------
  // Fonts and colours (`getFont`, `getColor`)
  // ---------------------------------------------------------------------------

  function FontName(f: Font): string {
    match f
    case Helvetica => "helvetica"
    case TimesRoman => "times"
    case Courier => "courier"
  }

  /** Case-insensitive font table; an absent, empty or unknown name is Helvetica. */
  function FontFor(name: Option<string>): (f: Font)
    ensures !Truthy(name) ==> f == Helvetica
    ensures Truthy(name) && Lower(name.value) !in {"times", "courier"} ==> f == Helvetica
  {
    if !Truthy(name) then Helvetica
    else
      var key := Lower(name.value);
      if key == "helvetica" then Helvetica
      else if key == "times" then TimesRoman
      else if key == "courier" then Courier
      else Helvetica
  }

  /** Every font is found under its own table name, in any letter case. */
  lemma {:induction false} FontLookupRoundTrip(f: Font, spelled: string)
    requires Lower(spelled) == FontName(f)
    ensures FontFor(Some(spelled)) == f
  {
  }

  /** Only the letter case of the name matters to the font lookup. */
  lemma {:induction false} FontCaseInsensitive(name: string)
    ensures FontFor(Some(name)) == FontFor(Some(Upper(name))) == FontFor(Some(Lower(name)))
  {
    forall i | 0 <= i < |name|
      ensures Lower(Upper(name))[i] == Lower(name)[i] && Lower(Lower(name))[i] == Lower(name)[i]
    {
      LowerOfUpper(name[i]);
    }
    assert Lower(Upper(name)) == Lower(name);
    assert Lower(Lower(name)) == Lower(name);
  }

  const Black := Rgb(0.0, 0.0, 0.0)

  /** The five named colours. */
  datatype Named = NBlack | NWhite | NRed | NGreen | NBlue

  function ColorName(c: Named): string {
    match c
    case NBlack => "black"
    case NWhite => "white"
    case NRed => "red"
    case NGreen => "green"
    case NBlue => "blue"
  }

  function ColorValue(c: Named): Rgb {
    match c
    case NBlack => Rgb(0.0, 0.0, 0.0)
    case NWhite => Rgb(1.0, 1.0, 1.0)
    case NRed => Rgb(1.0, 0.0, 0.0)
    case NGreen => Rgb(0.0, 1.0, 0.0)
    case NBlue => Rgb(0.0, 0.0, 1.0)
  }

  /** Case-insensitive colour table; an absent, empty or unknown name is black. */
  function ColorFor(name: Option<string>): (c: Rgb)
    ensures !Truthy(name) ==> c == Black
    ensures Truthy(name) && Lower(name.value) !in {"white", "red", "green", "blue"} ==> c == Black
  {
    if !Truthy(name) then Black
    else
      var key := Lower(name.value);
      if key == "black" then ColorValue(NBlack)
      else if key == "white" then ColorValue(NWhite)
      else if key == "red" then ColorValue(NRed)
      else if key == "green" then ColorValue(NGreen)
      else if key == "blue" then ColorValue(NBlue)
      else Black
  }

  /** Every named colour is found under its name, in any letter case. */
  lemma {:induction false} ColorLookupRoundTrip(c: Named, spelled: string)
    requires Lower(spelled) == ColorName(c)
    ensures ColorFor(Some(spelled)) == ColorValue(c)
  {
  }

  /** `fontsize || 12` */
  function TextSize(fontsize: Option<real>): (s: real)
    ensures s != 0.0
    ensures fontsize.Some? && fontsize.value != 0.0 ==> s == fontsize.value
    ensures fontsize.None? || fontsize.value == 0.0 ==> s == 12.0
  {
    if fontsize.Some? && fontsize.value != 0.0 then fontsize.value else 12.0
  }

  // ---------------------------------------------------------------------------
  // Values (`resolveValue`)
  // ---------------------------------------------------------------------------

  const ParamPrefix: string := "param:"

  /** An absent or empty value is absent; `param:<name>` reads the data (absent
      when the name is not there); any other string is itself. */
  function ResolveValue(value: Option<string>, data: Data): (r: Option<string>)
    ensures !Truthy(value) ==> r.None?
    ensures Truthy(value) && !StartsWith(value.value, ParamPrefix) ==> r == value
    ensures r.Some? && r != value ==> r.value in data.Values
  {
    if !Truthy(value) then None
    else if StartsWith(value.value, ParamPrefix) then
      var name := value.value[|ParamPrefix|..];
      if name in data then Some(data[name]) else None
    else value
  }

  /** `param:<name>` is the data entry `name`, verbatim. */
  lemma {:induction false} ParamReference(name: string, data: Data)
    ensures ResolveValue(Some(ParamPrefix + name), data) == (if name in data then Some(data[name]) else None)
  {
    assert (ParamPrefix + name)[..|ParamPrefix|] == ParamPrefix;
    assert (ParamPrefix + name)[|ParamPrefix|..] == name;
  }

  // ---------------------------------------------------------------------------
  // Alignment and placement (`drawText`, `drawMultilineText`)
  // ---------------------------------------------------------------------------

  /** `align && align.includes(c)` for a one-letter flag. */
  predicate HasFlag(align: Option<string>, c: char) {
    align.Some? && c in align.value
  }

  /** The text box: `x` on the page, `top` measured from the top of its canvas. */
  datatype Box = Box(x: real, top: real, width: real, height: real)

  /** The element's `x`,`y`,`x2`,`y2` (default 0) as a box inside the canvas rectangle. */
  function BoxIn(rect: Rect, props: Props): Box {
    var x := GetNum(props, XKey).GetOr(0.0);
    var y := GetNum(props, YKey).GetOr(0.0);
    var x2 := GetNum(props, X2Key).GetOr(0.0);
    var y2 := GetNum(props, Y2Key).GetOr(0.0);
    Box(rect.x + (x / 100.0) * rect.width, (y / 100.0) * rect.height,
      ((x2 - x) / 100.0) * rect.width, ((y2 - y) / 100.0) * rect.height)
  }

  /** Horizontal placement: `C` centres, else `R` right-aligns, else the left edge. */
  function AlignX(align: Option<string>, box: Box, textWidth: real): real {
    if HasFlag(align, 'C') then box.x + (box.width - textWidth) / 2.0
    else if HasFlag(align, 'R') then box.x + box.width - textWidth
    else box.x
  }

  /** Baseline offset from the canvas top: `M` centres, else `B` sits on the
      bottom, else the text hangs from the box top. */
  function BaselineFromTop(align: Option<string>, box: Box, textHeight: real): real {
    if HasFlag(align, 'M') then box.top + (box.height + textHeight) / 2.0
    else if HasFlag(align, 'B') then box.top + box.height
    else box.top + textHeight
  }

  /** What the alignment letters mean: equal margins when centring (`C` even if
      `R` is present too), the text's right edge on the box's right edge for
      `R`, the left edge otherwise; vertically, equal space above and below for
      `M` (even with `B`), baseline on the bottom for `B`, text top on the box
      top otherwise. */
  lemma {:induction false} AlignmentMeaning(align: Option<string>, box: Box, tw: real, th: real)
    ensures var tx := AlignX(align, box, tw);
      && (HasFlag(align, 'C') ==> tx - box.x == (box.x + box.width) - (tx + tw))
      && (!HasFlag(align, 'C') && HasFlag(align, 'R') ==> tx + tw == box.x + box.width)
      && (!HasFlag(align, 'C') && !HasFlag(align, 'R') ==> tx == box.x)
    ensures var base := BaselineFromTop(align, box, th);
      && (HasFlag(align, 'M') ==> (base - th) - box.top == (box.top + box.height) - base)
      && (!HasFlag(align, 'M') && HasFlag(align, 'B') ==> base == box.top + box.height)
      && (!HasFlag(align, 'M') && !HasFlag(align, 'B') ==> base - th == box.top)
  {
  }

  /** The rectangle text is placed in: the named canvas when `canvas` is truthy, else the whole page. */
  function TargetRect(layout: Layout, page: Page, props: Props, fuel: nat): (r: Result<Rect, RenderError>)
    ensures !Truthy(GetStr(props, CanvasKey)) ==> r == Success(PageRect(page))
  {
    var canvas := GetStr(props, CanvasKey);
    if Truthy(canvas) then CanvasRect(layout.canvas, page, canvas.value, fuel) else Success(PageRect(page))
  }

  /** `drawText`: nothing when the resolved value is falsy; otherwise one draw
      of that value, its baseline flipped once into PDF coordinates. */
  function DrawTextOps(layout: Layout, page: Page, data: Data, props: Props, m: Metrics, fuel: nat): (r: Result<seq<DrawOp>, RenderError>)
    ensures r.Success? ==> |r.value| <= 1
    ensures !Truthy(ResolveValue(GetStr(props, ValueKey), data)) ==> r == Success([])
    ensures Truthy(ResolveValue(GetStr(props, ValueKey), data)) ==>
      r == (match TargetRect(layout, page, props, fuel)
        case Failure(e) => Failure(e)
        case Success(_) => r)
    ensures r.Success? && |r.value| == 1 ==>
      var op := r.value[0];
      && op.text == ResolveValue(GetStr(props, ValueKey), data).value
      && op.font == FontFor(GetStr(props, FontKey))
      && op.size == TextSize(GetNum(props, FontSizeKey))
      && op.color == ColorFor(GetStr(props, ColorKey))
      && TargetRect(layout, page, props, fuel).Success?
      && op.x == AlignX(GetStr(props, AlignKey), BoxIn(TargetRect(layout, page, props, fuel).value, props), m.widthOf(op.font, op.text, op.size))
      && op.y == page.height - (TargetRect(layout, page, props, fuel).value.y
        + BaselineFromTop(GetStr(props, AlignKey), BoxIn(TargetRect(layout, page, props, fuel).value, props), m.heightAt(op.font, op.size)))
    ensures Truthy(ResolveValue(GetStr(props, ValueKey), data)) && TargetRect(layout, page, props, fuel).Success? ==>
      r.Success? && |r.value| == 1
  {
    var value := ResolveValue(GetStr(props, ValueKey), data);
    if !Truthy(value) then Success([])
    else
      var rect :- TargetRect(layout, page, props, fuel);
      var box := BoxIn(rect, props);
      var font := FontFor(GetStr(props, FontKey));
      var size := TextSize(GetNum(props, FontSizeKey));
      var tw := m.widthOf(font, value.value, size);
      var th := m.heightAt(font, size);
      var align := GetStr(props, AlignKey);
      var textX := AlignX(align, box, tw);
      var baseline := BaselineFromTop(align, box, th);
      Success([DrawText(value.value, textX, page.height - (rect.y + baseline), font, size, ColorFor(GetStr(props, ColorKey)))])
  }

  /** The fixed part of every row of one multiline element. */
  datatype Rows = Rows(
    parts: seq<string>, lines: Option<real>, pageHeight: real, rectY: real, box: Box,
    font: Font, size: real, color: Rgb, align: Option<string>, m: Metrics)
  {
    /** `lines || #parts`: the loop bound besides the number of rows. */
    function limit(): real {
      RowLimit(lines, |parts|)
    }

    /** `boxHeight / (lines || 1)` */
    function lineHeight(): real {
      box.height / LineDivisor(lines)
    }
  }

  /** Row `i`: its own width for horizontal alignment, `i` line heights below the box top. */
  function RowOp(rows: Rows, i: nat): DrawOp
    requires i < |rows.parts|
  {
    var th := rows.m.heightAt(rows.font, rows.size);
    var tw := rows.m.widthOf(rows.font, rows.parts[i], rows.size);
    var fromTop := rows.box.top + (i as real) * rows.lineHeight() + th;
    DrawText(rows.parts[i], AlignX(rows.align, rows.box, tw), rows.pageHeight - (rows.rectY + fromTop), rows.font, rows.size, rows.color)
  }

  /** How many rows the loop `for (i = from; i < min(#parts, limit); i++)` runs. */
  function RowsRun(rows: Rows, from: nat): (n: nat)
    requires from <= |rows.parts|
    ensures from + n <= |rows.parts|
    ensures n > 0 ==> ((from + n - 1) as real) < rows.limit()
    ensures from + n == |rows.parts| || ((from + n) as real) >= rows.limit()
    decreases |rows.parts| - from
  {
    if from < |rows.parts| && (from as real) < rows.limit() then 1 + RowsRun(rows, from + 1)
    else 0
  }

  /** The loop's draws: row `from + k` for each row the loop runs. */
  function RowOps(rows: Rows, from: nat): (ops: seq<DrawOp>)
    requires from <= |rows.parts|
    ensures from + |ops| <= |rows.parts|
    ensures forall k :: 0 <= k < |ops| ==> ((from + k) as real) < rows.limit() && ops[k] == RowOp(rows, from + k)
    ensures from + |ops| == |rows.parts| || ((from + |ops|) as real) >= rows.limit()
  {
    var n := RowsRun(rows, from);
    seq(n, k requires 0 <= k < n => RowOp(rows, from + k))
  }

  /** `lines || n`, the row limit for `n` split rows. */
  function RowLimit(lines: Option<real>, n: nat): real {
    if lines.Some? && lines.value != 0.0 then lines.value else n as real
  }

  /** `drawMultilineText`: nothing when the resolved value is falsy; otherwise
      one draw per `\n`-separated row, for as many rows as `lines` allows. */
  function DrawMultilineOps(layout: Layout, page: Page, data: Data, props: Props, m: Metrics, fuel: nat): (r: Result<seq<DrawOp>, RenderError>)
    ensures !Truthy(ResolveValue(GetStr(props, ValueKey), data)) ==> r == Success([])
    ensures Truthy(ResolveValue(GetStr(props, ValueKey), data)) && TargetRect(layout, page, props, fuel).Failure? ==>
      r == Failure(TargetRect(layout, page, props, fuel).error)
    ensures Truthy(ResolveValue(GetStr(props, ValueKey), data)) && TargetRect(layout, page, props, fuel).Success? ==>
      r.Success?
    ensures r.Success? && r.value != [] ==>
      |r.value| <= |Split(ResolveValue(GetStr(props, ValueKey), data).value, '\n')|
    ensures r.Success? ==> forall k :: 0 <= k < |r.value| ==> r.value[k].color == ColorFor(GetStr(props, ColorKey))
  {
    var value := ResolveValue(GetStr(props, ValueKey), data);
    if !Truthy(value) then Success([])
    else
      var rect :- TargetRect(layout, page, props, fuel);
      var rows := MultilineRows(page, rect, props, value.value, m);
      Success(RowOps(rows, 0))
  }

  /** The fixed part of the rows of one multiline element. */
  function MultilineRows(page: Page, rect: Rect, props: Props, value: string, m: Metrics): (rows: Rows)
    ensures rows.parts == Split(value, '\n')
    ensures rows.box == BoxIn(rect, props) && rows.rectY == rect.y && rows.pageHeight == page.height
    ensures rows.font == FontFor(GetStr(props, FontKey)) && rows.size == TextSize(GetNum(props, FontSizeKey))
    ensures rows.align == GetStr(props, AlignKey) && rows.m == m && rows.lines == GetNum(props, LinesKey)
    ensures rows.color == ColorFor(GetStr(props, ColorKey))
    ensures var lines := GetNum(props, LinesKey);
      if lines.Some? && lines.value != 0.0 then
        rows.limit() == lines.value && rows.lineHeight() * lines.value == rows.box.height
      else
        rows.limit() == |rows.parts| as real && rows.lineHeight() == rows.box.height
  {
    var box := BoxIn(rect, props);
    var font := FontFor(GetStr(props, FontKey));
    var size := TextSize(GetNum(props, FontSizeKey));
    var lines := GetNum(props, LinesKey);
    var parts := Split(value, '\n');
    Rows(parts, lines, page.height, rect.y, box,
      font, size, ColorFor(GetStr(props, ColorKey)), GetStr(props, AlignKey), m)
  }

  /** `lines || 1`: the number of rows the box height is divided into. */
  function LineDivisor(lines: Option<real>): (d: real)
    ensures d != 0.0
  {
    if lines.Some? && lines.value != 0.0 then lines.value else 1.0
  }

  /** How `drawMultilineText` places the `\n`-separated rows `parts` of a value:
      row `k` is drawn exactly when `k` is below both the number of rows and
      `lines || #rows`; its text is the `k`-th row, and its baseline sits `k`
      line heights (the box height over `lines || 1`) plus the text height below
      the top of the box, measured from the top of the page. Every row has the
      element's font, size and colour. */
  predicate RowsPlaced(ops: seq<DrawOp>, parts: seq<string>, lines: Option<real>, box: Box, rectY: real,
                       pageHeight: real, font: Font, size: real, color: Rgb, align: Option<string>, m: Metrics)
  {
    && |ops| <= |parts|
    && (|ops| == |parts| || (|ops| as real) >= RowLimit(lines, |parts|))
    && (forall k :: 0 <= k < |ops| ==>
          && (k as real) < RowLimit(lines, |parts|)
          && ops[k].text == parts[k]
          && ops[k].font == font && ops[k].size == size && ops[k].color == color
          && ops[k].x == AlignX(align, box, m.widthOf(font, parts[k], size))
          && ops[k].y == pageHeight - (rectY + (box.top + (k as real) * (box.height / LineDivisor(lines)) + m.heightAt(font, size))))
  }

  /** The loop over a set of rows places them as `RowsPlaced` says. */
  lemma {:induction false} RowsPlacement(rows: Rows)
    ensures RowsPlaced(RowOps(rows, 0), rows.parts, rows.lines, rows.box, rows.rectY, rows.pageHeight,
      rows.font, rows.size, rows.color, rows.align, rows.m)
  {
    var ops := RowOps(rows, 0);
    forall k | 0 <= k < |ops|
      ensures ops[k] == RowOp(rows, k)
    {
    }
  }

  /** The rows of one multiline element are placed as `drawMultilineText` places them. */
  lemma {:induction false} MultilineRowsPlaced(page: Page, rect: Rect, props: Props, value: string, m: Metrics)
    ensures RowsPlaced(RowOps(MultilineRows(page, rect, props, value, m), 0), Split(value, '\n'),
      GetNum(props, LinesKey), BoxIn(rect, props), rect.y, page.height,
      FontFor(GetStr(props, FontKey)), TextSize(GetNum(props, FontSizeKey)), ColorFor(GetStr(props, ColorKey)),
      GetStr(props, AlignKey), m)
  {
    RowsPlacement(MultilineRows(page, rect, props, value, m));
  }

  /** Where each row of a drawn multiline value lands, for a truthy value whose canvas resolves. */
  lemma {:induction false} MultilineRowPlacement(layout: Layout, page: Page, data: Data, props: Props, m: Metrics, fuel: nat, rect: Rect)
    requires Truthy(ResolveValue(GetStr(props, ValueKey), data))
    requires TargetRect(layout, page, props, fuel) == Success(rect)
    ensures var r := DrawMultilineOps(layout, page, data, props, m, fuel);
      && r.Success?
      && RowsPlaced(r.value, Split(ResolveValue(GetStr(props, ValueKey), data).value, '\n'),
           GetNum(props, LinesKey), BoxIn(rect, props), rect.y, page.height,
           FontFor(GetStr(props, FontKey)), TextSize(GetNum(props, FontSizeKey)), ColorFor(GetStr(props, ColorKey)),
           GetStr(props, AlignKey), m)
  {
    var value := ResolveValue(GetStr(props, ValueKey), data).value;
    assert DrawMultilineOps(layout, page, data, props, m, fuel) == Success(RowOps(MultilineRows(page, rect, props, value, m), 0));
    MultilineRowsPlaced(page, rect, props, value, m);
  }

  /** With `lines` unset or 0 every row is drawn; with `lines` a positive whole
      number `k`, exactly `min(#rows, k)` rows are drawn. */
  lemma {:induction false} RowCount(rows: Rows, k: nat)
    ensures rows.limit() == |rows.parts| as real ==> |RowOps(rows, 0)| == |rows.parts|
    ensures rows.limit() == k as real ==>
      |RowOps(rows, 0)| == if k < |rows.parts| then k else |rows.parts|
  {
    var ops := RowOps(rows, 0);
    if |ops| > 0 {
      var last := |ops| - 1;
      assert ops[last] == RowOp(rows, last);
      assert (last as real) < rows.limit();
    }
  }

  // ---------------------------------------------------------------------------
  // Dispatch and generation (`drawElement`, `generate`)
  // ---------------------------------------------------------------------------

  /** `drawElement`: presets are resolved for every element, then only `text`
      and `multiline` draw; every other tag draws nothing. */
  function DrawElement(layout: Layout, page: Page, data: Data, e: Element, m: Metrics, fuel: nat): (r: Result<seq<DrawOp>, RenderError>)
    ensures ResolveElement(layout.presets, e, fuel).Failure? ==> r == Failure(ResolveElement(layout.presets, e, fuel).error)
    ensures ResolveElement(layout.presets, e, fuel).Success? && e.kind !in {Text, Multiline} ==> r == Success([])
    ensures e.kind == Text ==> r.Success? ==> |r.value| <= 1
  {
    var props :- ResolveElement(layout.presets, e, fuel);
    match props[TypeKey]
    case PType(Text) => DrawTextOps(layout, page, data, props, m, fuel)
    case PType(Multiline) => DrawMultilineOps(layout, page, data, props, m, fuel)
    case _ => Success([])
  }

  /** The elements drawn strictly in order; the first failure aborts. */
  function DrawAll(layout: Layout, page: Page, data: Data, es: seq<Element>, m: Metrics, fuel: nat): (r: Result<seq<DrawOp>, RenderError>)
    ensures es == [] ==> r == Success([])
  {
    ConcatMapResult(es, (e: Element) => DrawElement(layout, page, data, e, m, fuel))
  }

  /** Drawing a concatenation draws the first part, then the second. */
  lemma {:induction false} DrawAllAppend(layout: Layout, page: Page, data: Data, a: seq<Element>, b: seq<Element>, m: Metrics, fuel: nat)
    ensures DrawAll(layout, page, data, a + b, m, fuel) ==
      match DrawAll(layout, page, data, a, m, fuel)
      case Failure(e) => Failure(e)
      case Success(x) =>
        match DrawAll(layout, page, data, b, m, fuel)
        case Failure(e) => Failure(e)
        case Success(y) => Success(x + y)
  {
    ConcatMapAppend(a, b, (e: Element) => DrawElement(layout, page, data, e, m, fuel));
  }

  /** A single element draws what `DrawElement` draws for it. */
  lemma {:induction false} DrawAllSingle(layout: Layout, page: Page, data: Data, e: Element, m: Metrics, fuel: nat)
    ensures DrawAll(layout, page, data, [e], m, fuel) == DrawElement(layout, page, data, e, m, fuel)
  {
    assert [e][1..] == [];
    var r := DrawElement(layout, page, data, e, m, fuel);
    if r.Success? {
      assert r.value + [] == r.value;
    }
  }

  /** Whitespace-free decimal text as JavaScript's `Number` reads it; the empty string is 0. */
  function JsNumber(s: string): (r: Option<real>)
    ensures AllDigits(s) && s != "" ==> r == Some(DigitsValue(s) as real)
  {
    if IsBlank(s) then Some(0.0)
    else
      DigitsStripToThemselves(s);
      ParseDecimal(Strip(s))
  }

  lemma {:induction false} DigitsStripToThemselves(s: string)
    ensures AllDigits(s) ==> Strip(s) == s
  {
    if AllDigits(s) {
      StripUnspaced(s);
    }
  }

  /** The page after `aspectratio`: a truthy `"W:H"` keeps the height and sets
      the width to `height * W / H`; a falsy one leaves the page alone. */
  function ApplyAspect(ratio: Option<string>, page: Page): (r: Result<Page, RenderError>)
    ensures !Truthy(ratio) ==> r == Success(page)
    ensures r.Success? ==> r.value.height == page.height
    ensures r.Failure? ==> r.error.BadAspectRatio?
  {
    if !Truthy(ratio) then Success(page)
    else
      var parts := Split(ratio.value, ':');
      if |parts| < 2 then Failure(BadAspectRatio(ratio.value))
      else
        match (JsNumber(parts[0]), JsNumber(parts[1]))
        case (Some(w), Some(h)) =>
          if h == 0.0 then Failure(BadAspectRatio(ratio.value))
          else Success(Page(WidthFor(page.height, w, h), page.height))
        case _ => Failure(BadAspectRatio(ratio.value))
  }

  /** `height * W / H`, the width that gives the page the ratio `W:H`. */
  function WidthFor(height: real, w: real, h: real): (width: real)
    requires h != 0.0
    ensures height != 0.0 ==> width / height == w / h
  {
    RatioCancels(height, w, h);
    (height * w) / h
  }

  /** `"W:H"` written in digits keeps the height and gives a page whose
      width-to-height ratio is `W/H`. */
  lemma {:induction false} AspectRatioHolds(a: string, b: string, page: Page)
    requires AllDigits(a) && a != "" && AllDigits(b) && b != "" && DigitsValue(b) > 0
    ensures var w, h := DigitsValue(a) as real, DigitsValue(b) as real;
      var r := ApplyAspect(Some(a + ":" + b), page);
      && r.Success? && r.value.height == page.height
      && r.value.width == WidthFor(page.height, w, h)
      && (page.height != 0.0 ==> r.value.width / page.height == w / h)
  {
    var w, h := DigitsValue(a) as real, DigitsValue(b) as real;
    var ratio := a + ":" + b;
    SplitDigitPair(a, b);
    AspectOfNumbers(ratio, page, w, h);
  }

  lemma {:induction false} AspectOfNumbers(ratio: string, page: Page, w: real, h: real)
    requires |Split(ratio, ':')| >= 2 && h != 0.0
    requires JsNumber(Split(ratio, ':')[0]) == Some(w) && JsNumber(Split(ratio, ':')[1]) == Some(h)
    ensures ApplyAspect(Some(ratio), page) == Success(Page(WidthFor(page.height, w, h), page.height))
  {
  }

  lemma {:induction false} SplitDigitPair(a: string, b: string)
    requires AllDigits(a) && AllDigits(b)
    ensures Split(a + ":" + b, ':') == [a, b]
  {
    assert forall i :: 0 <= i < |a| ==> a[i] != ':';
    assert forall i :: 0 <= i < |b| ==> b[i] != ':';
    assert a + ":" + b == a + [':'] + b;
    SplitCons(a, b, ':');
    SplitNoSep(b, ':');
  }

  lemma {:induction false} RatioCancels(height: real, w: real, h: real)
    requires h != 0.0
    ensures height != 0.0 ==> (height * w / h) / height == w / h
  {
  }

  /** `generate`: apply the aspect ratio, then draw every content element in order. */
  function Generate(layout: Layout, page: Page, data: Data, m: Metrics, fuel: nat): (r: Result<(Page, seq<DrawOp>), RenderError>)
    ensures r.Success? ==> r.value.0.height == page.height
    ensures r.Success? ==> layout.content.Some? && ApplyAspect(layout.aspectratio, page) == Success(r.value.0)
    ensures ApplyAspect(layout.aspectratio, page).Success? && layout.content.None? ==> r == Failure(NoContent)
    ensures r.Success? ==> DrawAll(layout, r.value.0, data, layout.content.value, m, fuel) == Success(r.value.1)
    ensures ApplyAspect(layout.aspectratio, page).Success? && layout.content.Some? ==>
      (r.Success? <==> DrawAll(layout, ApplyAspect(layout.aspectratio, page).value, data, layout.content.value, m, fuel).Success?)
  {
    var sized :- ApplyAspect(layout.aspectratio, page);
    if layout.content.None? then Failure(NoContent)
    else
      var ops :- DrawAll(layout, sized, data, layout.content.value, m, fuel);
      Success((sized, ops))
  }

  /** Content is drawn in array order: when the content is `a + b` and both
      parts draw, the page gets `a`'s draws followed by `b`'s; when `a` fails,
      so does the whole generation, with `a`'s error. */
  lemma {:induction false} GenerateInOrder(layout: Layout, page: Page, data: Data, a: seq<Element>, b: seq<Element>, m: Metrics, fuel: nat)
    requires layout.content == Some(a + b)
    requires ApplyAspect(layout.aspectratio, page).Success?
    ensures var sized := ApplyAspect(layout.aspectratio, page).value;
      var r := Generate(layout, page, data, m, fuel);
      && (DrawAll(layout, sized, data, a, m, fuel).Failure? ==> r == Failure(DrawAll(layout, sized, data, a, m, fuel).error))
      && (DrawAll(layout, sized, data, a, m, fuel).Success? && DrawAll(layout, sized, data, b, m, fuel).Success? ==>
            r == Success((sized, DrawAll(layout, sized, data, a, m, fuel).value + DrawAll(layout, sized, data, b, m, fuel).value)))
  {
    var sized := ApplyAspect(layout.aspectratio, page).value;
    DrawAllAppend(layout, sized, data, a, b, m, fuel);
  }

  /** A layout whose only content is one `text` element draws it exactly once
      when its value resolves truthy and its canvas resolves, and draws
      nothing when the value is falsy. */
  lemma {:induction false} SingleTextDrawsOnce(layout: Layout, page: Page, data: Data, e: Element, m: Metrics, fuel: nat)
    requires layout.content == Some([e]) && e.kind == Text
    requires ApplyAspect(layout.aspectratio, page).Success?
    requires ResolveElement(layout.presets, e, fuel).Success?
    ensures var sized := ApplyAspect(layout.aspectratio, page).value;
      var props := ResolveElement(layout.presets, e, fuel).value;
      var r := Generate(layout, page, data, m, fuel);
      && (!Truthy(ResolveValue(GetStr(props, ValueKey), data)) ==> r == Success((sized, [])))
      && (Truthy(ResolveValue(GetStr(props, ValueKey), data)) && TargetRect(layout, sized, props, fuel).Success? ==>
            && r.Success? && r.value.0 == sized
            && DrawTextOps(layout, sized, data, props, m, fuel).Success?
            && r.value.1 == DrawTextOps(layout, sized, data, props, m, fuel).value
            && |r.value.1| == 1)
  {
    var sized := ApplyAspect(layout.aspectratio, page).value;
    var props := ResolveElement(layout.presets, e, fuel).value;
    DrawAllSingle(layout, sized, data, e, m, fuel);
    assert DrawElement(layout, sized, data, e, m, fuel) == DrawTextOps(layout, sized, data, props, m, fuel);
  }

  /** Content made only of non-drawing tags draws nothing once its presets resolve. */
  lemma {:induction false} NonDrawingContentDrawsNothing(layout: Layout, page: Page, data: Data, es: seq<Element>, m: Metrics, fuel: nat)
    requires forall i :: 0 <= i < |es| ==> es[i].kind !in {Text, Multiline} && es[i].presets.None?
    ensures DrawAll(layout, page, data, es, m, fuel) == Success([])
    decreases |es|
  {
    if |es| > 0 {
      NonDrawingContentDrawsNothing(layout, page, data, es[1..], m, fuel);
      assert DrawElement(layout, page, data, es[0], m, fuel) == Success([]);
      var none: seq<DrawOp> := [];
      assert none + none == none;
    }
  }
}

=== FILE: pdf_scenarios.dfy ===
/** The four rendering scenarios of scripts/PdfGenerator.test.ts, stated over
    arbitrary page sizes and arbitrary font metrics. */
module PdfScenarios {

  import opened Wrappers
  import opened Strings
  import opened Sequences
  import opened LayoutModel
  import opened PdfGenerator

  const Red := Rgb(1.0, 0.0, 0.0)

  lemma {:induction false} HelveticaCapitalised()
    ensures FontFor(Some("Helvetica")) == Helvetica
  {
    var s := "Helvetica";
    assert forall i :: 0 <= i < 9 ==> Lower(s)[i] == "helvetica"[i];
    FontLookupRoundTrip(Helvetica, s);
  }

  lemma {:induction false} HelveticaLower()
    ensures FontFor(Some("helvetica")) == Helvetica
  {
    var s := "helvetica";
    assert forall i :: 0 <= i < 9 ==> Lower(s)[i] == s[i];
    FontLookupRoundTrip(Helvetica, s);
  }

  lemma {:induction false} TimesLower()
    ensures FontFor(Some("times")) == TimesRoman
  {
    var s := "times";
    assert forall i :: 0 <= i < 5 ==> Lower(s)[i] == s[i];
    FontLookupRoundTrip(TimesRoman, s);
  }

  lemma {:induction false} CourierLower()
    ensures FontFor(Some("courier")) == Courier
  {
    var s := "courier";
    assert forall i :: 0 <= i < 7 ==> Lower(s)[i] == s[i];
    FontLookupRoundTrip(Courier, s);
  }

  lemma {:induction false} RedLower()
    ensures ColorFor(Some("red")) == Red
  {
    var s := "red";
    assert forall i :: 0 <= i < 3 ==> Lower(s)[i] == s[i];
    ColorLookupRoundTrip(NRed, s);
  }

  /** A sheet holding one text element whose value resolves to non-empty text,
      outside any canvas, draws that text once, in the font, size and colour
      its properties name. */
  lemma {:induction false} OneTextDraw(layout: Layout, page: Page, data: Data, e: Element, m: Metrics, fuel: nat, props: Props, text: string)
    requires layout.content == Some([e]) && e.kind == Text && layout.aspectratio.None?
    requires ResolveElement(layout.presets, e, fuel) == Success(props)
    requires ResolveValue(GetStr(props, ValueKey), data) == Some(text) && text != ""
    requires !Truthy(GetStr(props, CanvasKey))
    ensures var r := Generate(layout, page, data, m, fuel);
      && r.Success? && |r.value.1| == 1
      && r.value.1[0].text == text
      && r.value.1[0].font == FontFor(GetStr(props, FontKey))
      && r.value.1[0].size == TextSize(GetNum(props, FontSizeKey))
      && r.value.1[0].color == ColorFor(GetStr(props, ColorKey))
  {
    assert ApplyAspect(layout.aspectratio, page) == Success(page);
    assert TargetRect(layout, page, props, fuel) == Success(PageRect(page));
    SingleTextDrawsOnce(layout, page, data, e, m, fuel);
  }

  /** A literal not starting with `p` is not a parameter reference. */
  lemma {:induction false} NotParamRef(s: string)
    requires |s| > 0 && s[0] != 'p'
    ensures !StartsWith(s, ParamPrefix)
  {
    if |ParamPrefix| <= |s| {
      assert s[..|ParamPrefix|][0] != ParamPrefix[0];
    }
  }

  /** An element listing one parentless preset resolves to that preset's fields under its own. */
  lemma {:induction false} ResolveOnePreset(t: map<string, Preset>, n: string, e: Element, fuel: nat)
    requires n in t && t[n].presets.None? && fuel > 0 && e.presets == Some([n])
    ensures ResolveElement(Some(t), e, fuel) == Success(PresetProps(t[n]) + ElementProps(e))
  {
    assert [n][..0] == [];
    assert ResolveNames(Some(t), [], fuel - 1) == Success(map[]);
    MapUnionEmpty(PresetProps(t[n]));
    MapUnionEmpty(map[] + PresetProps(t[n]));
    assert ResolveNames(Some(t), [n], fuel) == Success(PresetProps(t[n]));
  }

  /** An element listing two parentless presets resolves to both, the second over the first, under its own fields. */
  lemma {:induction false} ResolveTwoPresets(t: map<string, Preset>, a: string, b: string, e: Element, fuel: nat)
    requires a in t && b in t && t[a].presets.None? && t[b].presets.None? && fuel > 0
    requires e.presets == Some([a, b])
    ensures ResolveElement(Some(t), e, fuel) == Success(PresetProps(t[a]) + PresetProps(t[b]) + ElementProps(e))
  {
    assert [a][..0] == [] && [b][..0] == [];
    assert ResolveNames(Some(t), [], fuel - 1) == Success(map[]);
    MapUnionEmpty(PresetProps(t[a]));
    MapUnionEmpty(map[] + PresetProps(t[a]));
    MapUnionEmpty(PresetProps(t[b]));
    MapUnionEmpty(map[] + PresetProps(t[b]));
    assert ResolveNames(Some(t), [a], fuel) == Success(PresetProps(t[a]));
    assert ResolveNames(Some(t), [b], fuel) == Success(PresetProps(t[b]));
    ResolveNamesAppend(Some(t), [a], [b], fuel);
    assert [a] + [b] == [a, b];
  }

  /** A layout holding just presets and content, with empty canvas and parameter tables. */
  function Sheet(presets: map<string, Preset>, content: seq<Element>): Layout {
    EmptyLayout.(
      canvas := Some(map[]), parameters := Some(map[]),
      presets := Some(presets), content := Some(content))
  }

  // ---------------------------------------------------------------------------
  // 'should draw a simple text element from parameters'
  // ---------------------------------------------------------------------------

  const DefaultFont := EmptyPreset.(font := Some("Helvetica"), fontsize := Some(18.0))

  const ParamText := Bare(Text).(
    value := Some("param:characterName"), presets := Some(["defaultfont"]),
    x := Some(10.0), y := Some(10.0), x2 := Some(90.0), y2 := Some(20.0),
    align := Some("C"), color := Some("red"))

  lemma {:induction false} ParamTextProps()
    ensures var props := PresetProps(DefaultFont) + ElementProps(ParamText);
      && GetStr(props, FontKey) == Some("Helvetica") && GetNum(props, FontSizeKey) == Some(18.0)
      && GetStr(props, ColorKey) == Some("red") && GetStr(props, CanvasKey) == None
      && GetStr(props, ValueKey) == Some(ParamPrefix + "characterName")
  {
    ParamTextStyle();
    ParamTextPlace();
  }

  lemma {:induction false} ParamTextStyle()
    ensures var props := PresetProps(DefaultFont) + ElementProps(ParamText);
      && GetStr(props, FontKey) == Some("Helvetica") && GetNum(props, FontSizeKey) == Some(18.0)
      && GetStr(props, ColorKey) == Some("red")
  {
    assert ElementField(ParamText, FontKey) == None;
    assert ElementField(ParamText, FontSizeKey) == None;
    assert PresetField(DefaultFont, FontKey) == Some(PStr("Helvetica"));
    assert PresetField(DefaultFont, FontSizeKey) == Some(PNum(18.0));
    assert ElementField(ParamText, ColorKey) == Some(PStr("red"));
  }

  lemma {:induction false} ParamTextPlace()
    ensures var props := PresetProps(DefaultFont) + ElementProps(ParamText);
      GetStr(props, CanvasKey) == None && GetStr(props, ValueKey) == Some(ParamPrefix + "characterName")
  {
    assert ElementField(ParamText, CanvasKey) == None;
    assert PresetField(DefaultFont, CanvasKey) == None;
    assert ParamPrefix + "characterName" == "param:characterName";
    assert ElementField(ParamText, ValueKey) == Some(PStr("param:characterName"));
  }

  /** One draw of the parameter's value, in Helvetica 18, red. */
  lemma {:induction false} SimpleTextFromParameter(page: Page, m: Metrics, fuel: nat)
    requires fuel > 0
    ensures var r := Generate(Sheet(map["defaultfont" := DefaultFont], [ParamText]), page,
        map["characterName" := "Test Character"], m, fuel);
      && r.Success? && |r.value.1| == 1
      && r.value.1[0].text == "Test Character"
      && r.value.1[0].font == Helvetica
      && r.value.1[0].size == 18.0
      && r.value.1[0].color == Red
  {
    var layout := Sheet(map["defaultfont" := DefaultFont], [ParamText]);
    var props := PresetProps(DefaultFont) + ElementProps(ParamText);
    ParamTextResolves(fuel);
    ParamTextProps();
    ParamTextValue(props);
    HelveticaCapitalised();
    RedLower();
    TextSizeOf(18.0);
    OneTextDraw(layout, page, map["characterName" := "Test Character"], ParamText, m, fuel, props, "Test Character");
  }

  lemma {:induction false} ParamTextResolves(fuel: nat)
    requires fuel > 0
    ensures ResolveElement(Some(map["defaultfont" := DefaultFont]), ParamText, fuel)
      == Success(PresetProps(DefaultFont) + ElementProps(ParamText))
  {
    ResolveOnePreset(map["defaultfont" := DefaultFont], "defaultfont", ParamText, fuel);
  }

  lemma {:induction false} ParamTextValue(props: Props)
    requires GetStr(props, ValueKey) == Some(ParamPrefix + "characterName")
    ensures ResolveValue(GetStr(props, ValueKey), map["characterName" := "Test Character"]) == Some("Test Character")
  {
    ParamReference("characterName", map["characterName" := "Test Character"]);
  }

  lemma {:induction false} TextSizeOf(size: real)
    requires size != 0.0
    ensures TextSize(Some(size)) == size
  {
  }

  // ---------------------------------------------------------------------------
  // 'should resolve presets correctly'
  // ---------------------------------------------------------------------------

  const Title := EmptyPreset.(font := Some("times"), fontsize := Some(24.0), align := Some("C"))

  const RedText := EmptyPreset.(color := Some("red"))

  const HelloTitle := Bare(Text).(
    presets := Some(["title", "red-text"]), value := Some("Hello World"),
    x := Some(0.0), y := Some(0.0), x2 := Some(100.0), y2 := Some(10.0))

  lemma {:induction false} HelloTitleProps()
    ensures var props := PresetProps(Title) + PresetProps(RedText) + ElementProps(HelloTitle);
      && GetStr(props, FontKey) == Some("times") && GetNum(props, FontSizeKey) == Some(24.0)
      && GetStr(props, ColorKey) == Some("red") && GetStr(props, CanvasKey) == None
      && GetStr(props, ValueKey) == Some("Hello World")
  {
    assert ElementField(HelloTitle, FontKey) == None && PresetField(RedText, FontKey) == None;
    assert ElementField(HelloTitle, FontSizeKey) == None && PresetField(RedText, FontSizeKey) == None;
    assert PresetField(Title, FontKey) == Some(PStr("times"));
    assert PresetField(Title, FontSizeKey) == Some(PNum(24.0));
    assert ElementField(HelloTitle, ColorKey) == None;
    assert PresetField(RedText, ColorKey) == Some(PStr("red"));
    assert ElementField(HelloTitle, CanvasKey) == None;
    assert PresetField(Title, CanvasKey) == None && PresetField(RedText, CanvasKey) == None;
    assert ElementField(HelloTitle, ValueKey) == Some(PStr("Hello World"));
  }

  /** Fields of two presets combine: Times 24 from one, red from the other. */
  lemma {:induction false} PresetsCombine(page: Page, m: Metrics, fuel: nat)
    requires fuel > 0
    ensures var r := Generate(Sheet(map["title" := Title, "red-text" := RedText], [HelloTitle]), page, map[], m, fuel);
      && r.Success? && |r.value.1| == 1
      && r.value.1[0].text == "Hello World"
      && r.value.1[0].font == TimesRoman
      && r.value.1[0].size == 24.0
      && r.value.1[0].color == Red
  {
    var layout := Sheet(map["title" := Title, "red-text" := RedText], [HelloTitle]);
    var props := PresetProps(Title) + PresetProps(RedText) + ElementProps(HelloTitle);
    HelloTitleResolves(fuel);
    HelloTitleProps();
    LiteralValue(props, "Hello World");
    TimesLower();
    RedLower();
    TextSizeOf(24.0);
    OneTextDraw(layout, page, map[], HelloTitle, m, fuel, props, "Hello World");
  }

  lemma {:induction false} HelloTitleResolves(fuel: nat)
    requires fuel > 0
    ensures ResolveElement(Some(map["title" := Title, "red-text" := RedText]), HelloTitle, fuel)
      == Success(PresetProps(Title) + PresetProps(RedText) + ElementProps(HelloTitle))
  {
    ResolveTwoPresets(map["title" := Title, "red-text" := RedText], "title", "red-text", HelloTitle, fuel);
  }

  /** A value that is not a parameter reference is drawn as written. */
  lemma {:induction false} LiteralValue(props: Props, text: string)
    requires GetStr(props, ValueKey) == Some(text) && |text| > 0 && text[0] != 'p'
    ensures ResolveValue(GetStr(props, ValueKey), map[]) == Some(text)
  {
    NotParamRef(text);
  }

  // ---------------------------------------------------------------------------
  // 'should handle nested presets where properties are overridden'
  // ---------------------------------------------------------------------------

  const BaseStyle := EmptyPreset.(font := Some("courier"), fontsize := Some(10.0))

  const Header := EmptyPreset.(fontsize := Some(16.0))

  const Overridden := Bare(Text).(
    presets := Some(["base-style", "header"]), value := Some("Nested Preset Text"),
    x := Some(0.0), y := Some(0.0), x2 := Some(100.0), y2 := Some(10.0))

  lemma {:induction false} OverriddenProps()
    ensures var props := PresetProps(BaseStyle) + PresetProps(Header) + ElementProps(Overridden);
      && GetStr(props, FontKey) == Some("courier") && GetNum(props, FontSizeKey) == Some(16.0)
      && GetStr(props, CanvasKey) == None && GetStr(props, ValueKey) == Some("Nested Preset Text")
  {
    assert ElementField(Overridden, FontKey) == None && PresetField(Header, FontKey) == None;
    assert PresetField(BaseStyle, FontKey) == Some(PStr("courier"));
    assert ElementField(Overridden, FontSizeKey) == None;
    assert PresetField(Header, FontSizeKey) == Some(PNum(16.0));
    assert ElementField(Overridden, CanvasKey) == None;
    assert PresetField(BaseStyle, CanvasKey) == None && PresetField(Header, CanvasKey) == None;
    assert ElementField(Overridden, ValueKey) == Some(PStr("Nested Preset Text"));
  }

  /** The later preset's size overrides the earlier one's; the earlier font stays. */
  lemma {:induction false} LaterPresetOverrides(page: Page, m: Metrics, fuel: nat)
    requires fuel > 0
    ensures var r := Generate(Sheet(map["base-style" := BaseStyle, "header" := Header], [Overridden]), page, map[], m, fuel);
      && r.Success? && |r.value.1| == 1
      && r.value.1[0].text == "Nested Preset Text"
      && r.value.1[0].font == Courier
      && r.value.1[0].size == 16.0
  {
    var layout := Sheet(map["base-style" := BaseStyle, "header" := Header], [Overridden]);
    var props := PresetProps(BaseStyle) + PresetProps(Header) + ElementProps(Overridden);
    OverriddenResolves(fuel);
    OverriddenProps();
    LiteralValue(props, "Nested Preset Text");
    CourierLower();
    TextSizeOf(16.0);
    OneTextDraw(layout, page, map[], Overridden, m, fuel, props, "Nested Preset Text");
  }

  lemma {:induction false} OverriddenResolves(fuel: nat)
    requires fuel > 0
    ensures ResolveElement(Some(map["base-style" := BaseStyle, "header" := Header]), Overridden, fuel)
      == Success(PresetProps(BaseStyle) + PresetProps(Header) + ElementProps(Overridden))
  {
    ResolveTwoPresets(map["base-style" := BaseStyle, "header" := Header], "base-style", "header", Overridden, fuel);
  }

  // ---------------------------------------------------------------------------
  // 'should handle aspect ratio correctly'
  // ---------------------------------------------------------------------------

  const FullPage := Canvas(None, 0.0, 0.0, 100.0, 100.0)

  const Centered := EmptyPreset.(align := Some("CM"), font := Some("helvetica"), fontsize := Some(12.0))

  const CenteredHello := Bare(Text).(
    canvas := Some("fullpage"), presets := Some(["centered"]), value := Some("Hello World"),
    x := Some(0.0), y := Some(0.0), x2 := Some(100.0), y2 := Some(100.0))

  const RatioSheet := EmptyLayout.(
    aspectratio := Some("603:783"),
    canvas := Some(map["fullpage" := FullPage]), parameters := Some(map[]),
    presets := Some(map["centered" := Centered]), content := Some([CenteredHello]))

  lemma {:induction false} RatioDigits()
    ensures AllDigits("603") && DigitsValue("603") == 603
    ensures AllDigits("783") && DigitsValue("783") == 783
  {
    assert "603"[..2] == "60" && "60"[..1] == "6" && "6"[..0] == "";
    assert "783"[..2] == "78" && "78"[..1] == "7" && "7"[..0] == "";
  }

  /** The sheet is resized to the 603:783 ratio at the page's height. */
  lemma {:induction false} RatioSheetSize(page: Page)
    ensures ApplyAspect(RatioSheet.aspectratio, page) == Success(Page(WidthFor(page.height, 603.0, 783.0), page.height))
  {
    RatioDigits();
    AspectRatioHolds("603", "783", page);
    assert "603" + ":" + "783" == "603:783";
  }

  lemma {:induction false} CenteredHelloProps()
    ensures var props := PresetProps(Centered) + ElementProps(CenteredHello);
      && GetStr(props, FontKey) == Some("helvetica") && GetNum(props, FontSizeKey) == Some(12.0)
      && GetStr(props, AlignKey) == Some("CM") && GetStr(props, CanvasKey) == Some("fullpage")
      && GetStr(props, ValueKey) == Some("Hello World")
      && GetNum(props, XKey) == Some(0.0) && GetNum(props, YKey) == Some(0.0)
      && GetNum(props, X2Key) == Some(100.0) && GetNum(props, Y2Key) == Some(100.0)
  {
    CenteredHelloStyle();
    CenteredHelloPlace();
    CenteredHelloBox();
  }

  lemma {:induction false} CenteredHelloStyle()
    ensures var props := PresetProps(Centered) + ElementProps(CenteredHello);
      && GetStr(props, FontKey) == Some("helvetica") && GetNum(props, FontSizeKey) == Some(12.0)
      && GetStr(props, AlignKey) == Some("CM")
  {
    assert ElementField(CenteredHello, FontKey) == None && PresetField(Centered, FontKey) == Some(PStr("helvetica"));
    assert ElementField(CenteredHello, FontSizeKey) == None && PresetField(Centered, FontSizeKey) == Some(PNum(12.0));
    assert ElementField(CenteredHello, AlignKey) == None && PresetField(Centered, AlignKey) == Some(PStr("CM"));
  }

  lemma {:induction false} CenteredHelloPlace()
    ensures var props := PresetProps(Centered) + ElementProps(CenteredHello);
      GetStr(props, CanvasKey) == Some("fullpage") && GetStr(props, ValueKey) == Some("Hello World")
  {
    assert ElementField(CenteredHello, CanvasKey) == Some(PStr("fullpage"));
    assert ElementField(CenteredHello, ValueKey) == Some(PStr("Hello World"));
  }

  lemma {:induction false} CenteredHelloBox()
    ensures var props := PresetProps(Centered) + ElementProps(CenteredHello);
      && GetNum(props, XKey) == Some(0.0) && GetNum(props, YKey) == Some(0.0)
      && GetNum(props, X2Key) == Some(100.0) && GetNum(props, Y2Key) == Some(100.0)
  {
    assert ElementField(CenteredHello, XKey) == Some(PNum(0.0)) && ElementField(CenteredHello, YKey) == Some(PNum(0.0));
    assert ElementField(CenteredHello, X2Key) == Some(PNum(100.0)) && ElementField(CenteredHello, Y2Key) == Some(PNum(100.0));
  }

  /** `x`,`y` at 0 and `x2`,`y2` at 100 fill the rectangle. */
  lemma {:induction false} FullBox(rect: Rect, props: Props)
    requires GetNum(props, XKey) == Some(0.0) && GetNum(props, YKey) == Some(0.0)
    requires GetNum(props, X2Key) == Some(100.0) && GetNum(props, Y2Key) == Some(100.0)
    ensures BoxIn(rect, props) == Box(rect.x, 0.0, rect.width, rect.height)
  {
  }

  /** `CM` centres both ways in a box at the canvas top. */
  lemma {:induction false} CentreBoth(width: real, height: real, tw: real, th: real)
    ensures AlignX(Some("CM"), Box(0.0, 0.0, width, height), tw) == (width - tw) / 2.0
    ensures height - BaselineFromTop(Some("CM"), Box(0.0, 0.0, width, height), th) == (height - th) / 2.0
  {
    assert "CM"[0] == 'C' && "CM"[1] == 'M';
    assert HasFlag(Some("CM"), 'C') && HasFlag(Some("CM"), 'M');
  }

  /** Centring in the full-page canvas, given the resolved properties. */
  lemma {:induction false} CentredPlacement(sized: Page, props: Props, m: Metrics, fuel: nat)
    requires GetStr(props, FontKey) == Some("helvetica") && GetNum(props, FontSizeKey) == Some(12.0)
    requires GetStr(props, AlignKey) == Some("CM") && GetStr(props, CanvasKey) == Some("fullpage")
    requires GetStr(props, ValueKey) == Some("Hello World")
    requires GetNum(props, XKey) == Some(0.0) && GetNum(props, YKey) == Some(0.0)
    requires GetNum(props, X2Key) == Some(100.0) && GetNum(props, Y2Key) == Some(100.0)
    ensures var r := DrawTextOps(RatioSheet, sized, map[], props, m, fuel);
      && r.Success? && |r.value| == 1
      && var op := r.value[0];
         && op.text == "Hello World" && op.font == Helvetica && op.size == 12.0
         && op.x == (sized.width - m.widthOf(Helvetica, "Hello World", 12.0)) / 2.0
         && op.y == (sized.height - m.heightAt(Helvetica, 12.0)) / 2.0
  {
    LiteralValue(props, "Hello World");
    HelveticaLower();
    TextSizeOf(12.0);
    RootCanvasRect(map["fullpage" := FullPage], sized, "fullpage", fuel);
    var rect := Rect(0.0, 0.0, sized.width, sized.height);
    assert TargetRect(RatioSheet, sized, props, fuel) == Success(rect);
    FullBox(rect, props);
    CentreBoth(sized.width, sized.height, m.widthOf(Helvetica, "Hello World", 12.0), m.heightAt(Helvetica, 12.0));
  }

  /** The page keeps its height and takes the 603:783 ratio; text aligned `CM`
      in a full-page canvas lands at `((W - tw) / 2, (H - th) / 2)`. */
  lemma {:induction false} AspectRatioAndCentring(page: Page, m: Metrics, fuel: nat)
    requires fuel > 0
    ensures var r := Generate(RatioSheet, page, map[], m, fuel);
      && r.Success?
      && r.value.0.height == page.height
      && (page.height != 0.0 ==> r.value.0.width / page.height == 603.0 / 783.0)
      && |r.value.1| == 1
      && var op := r.value.1[0];
         var w, h := r.value.0.width, r.value.0.height;
         && op.text == "Hello World" && op.font == Helvetica && op.size == 12.0
         && op.x == (w - m.widthOf(Helvetica, "Hello World", 12.0)) / 2.0
         && op.y == (h - m.heightAt(Helvetica, 12.0)) / 2.0
  {
    RatioSheetSize(page);
    var sized := ApplyAspect(RatioSheet.aspectratio, page).value;
    ResolveOnePreset(map["centered" := Centered], "centered", CenteredHello, fuel);
    var props := PresetProps(Centered) + ElementProps(CenteredHello);
    CenteredHelloProps();
    CentredPlacement(sized, props, m, fuel);
    SingleTextDrawsOnce(RatioSheet, page, map[], CenteredHello, m, fuel);
  }
}

=== FILE: py_builtins.dfy ===
/** The few Python and NumPy numeric builtins the layout-authoring tools lean
    on, with the rounding direction made explicit. */
module PyBuiltins {

  import opened Sequences

  /** `int(x)` on a float: truncation toward zero. */
  function Trunc(r: real): (t: int)
    ensures r >= 0.0 ==> t as real <= r < t as real + 1.0 && t >= 0
    ensures r < 0.0 ==> t as real - 1.0 < r <= t as real && t <= 0
  {
    if r >= 0.0 then r.Floor else -((-r).Floor)
  }

  /** Truncating a value that lies between two integers lands between them. */
  lemma {:induction false} TruncBetween(lo: int, r: real, hi: int)
    requires lo as real <= r <= hi as real
    ensures lo <= Trunc(r) <= hi
  {
  }

  predicate IntLess(a: int, b: int) {
    a < b
  }

  lemma {:induction false} IntLessIsStrictOrder()
    ensures StrictOrder(IntLess)
  {
  }

  /** `np.median`: the middle of the sorted values, or the mean of the two
      middle values when there is an even number of them. */
  function Median(xs: seq<int>): real
    requires |xs| > 0
  {
    var s := Sort(xs, IntLess);
    var n := |s|;
    if n % 2 == 1 then s[n / 2] as real
    else (s[n / 2 - 1] + s[n / 2]) as real / 2.0
  }

  function AtMost(v: real): int -> bool {
    x => x as real <= v
  }

  function AtLeast(v: real): int -> bool {
    x => x as real >= v
  }

  /** In ascending values, everything up to index `a` is at or below a bound `s[a]` reaches. */
  lemma {:induction false} SortedPrefixAtMost(s: seq<int>, v: real, a: nat)
    requires Sorted(s, IntLess)
    requires a < |s| && s[a] as real <= v
    ensures |Filter(s, AtMost(v))| >= a + 1
  {
    var pre := s[..a + 1];
    forall i | 0 <= i < |pre|
      ensures AtMost(v)(pre[i])
    {
      assert pre[i] == s[i];
      assert !IntLess(s[a], s[i]) || i == a;
    }
    FilterAll(pre, AtMost(v));
    assert s == pre + s[a + 1..];
    FilterAppend(pre, s[a + 1..], AtMost(v));
  }

  /** In ascending values, everything from index `b` on is at or above a bound `s[b]` reaches. */
  lemma {:induction false} SortedSuffixAtLeast(s: seq<int>, v: real, b: nat)
    requires Sorted(s, IntLess)
    requires b < |s| && v <= s[b] as real
    ensures |Filter(s, AtLeast(v))| >= |s| - b
  {
    var suf := s[b..];
    forall i | 0 <= i < |suf|
      ensures AtLeast(v)(suf[i])
    {
      assert suf[i] == s[b + i];
      assert !IntLess(s[b + i], s[b]) || i == 0;
    }
    FilterAll(suf, AtLeast(v));
    assert s == s[..b] + suf;
    FilterAppend(s[..b], suf, AtLeast(v));
  }

  /** The median splits the values in half: at least half of them are at or
      below it and at least half at or above it; it lies between two of the
      values, and is one of them when there is an odd number. */
  lemma {:induction false} MedianBounds(xs: seq<int>)
    requires |xs| > 0
    ensures 2 * |Filter(xs, AtMost(Median(xs)))| >= |xs|
    ensures 2 * |Filter(xs, AtLeast(Median(xs)))| >= |xs|
    ensures exists i :: 0 <= i < |xs| && xs[i] as real <= Median(xs)
    ensures exists j :: 0 <= j < |xs| && Median(xs) <= xs[j] as real
    ensures |xs| % 2 == 1 ==> exists i :: 0 <= i < |xs| && xs[i] as real == Median(xs)
  {
    IntLessIsStrictOrder();
    var s := Sort(xs, IntLess);
    SortSorted(xs, IntLess);
    var n := |s|;
    var med := Median(xs);
    var a, b := if n % 2 == 1 then n / 2 else n / 2 - 1, n / 2;
    assert s[a] <= s[b];
    assert s[a] as real <= med <= s[b] as real;
    assert s[a] in multiset(xs) && s[b] in multiset(xs);
    var i :| 0 <= i < |xs| && xs[i] == s[a];
    var j :| 0 <= j < |xs| && xs[j] == s[b];
    assert xs[i] as real <= med <= xs[j] as real;
    SortedPrefixAtMost(s, med, a);
    SortedSuffixAtLeast(s, med, b);
    FilterCountPermutation(s, xs, AtMost(med));
    FilterCountPermutation(s, xs, AtLeast(med));
  }

  /** Every value is the median of a list holding only that value. */
  lemma {:induction false} MedianOfConstant(x: int, n: nat)
    requires n > 0
    ensures Median(seq(n, _ => x)) == x as real
  {
    var xs := seq(n, _ => x);
    var s := Sort(xs, IntLess);
    forall k | 0 <= k < |s|
      ensures s[k] == x
    {
      assert s[k] in multiset(xs);
    }
  }
}

=== FILE: region.dfy ===
/** The OCR region of the layout-authoring tools: the `--region` argument, the
    `items` canvas of a base layout resolved to page percentages
    (`transform_coordinates`), the default region, and the crop to pixels. */
module Region {

  import opened Wrappers
  import opened Strings
  import opened LayoutModel
  import PdfGenerator
  import Sequences
  import opened PyBuiltins

  /** `[x0, y0, x1, y1]` in percent of the page. */
  datatype Region = Region(x0: real, y0: real, x1: real, y1: real)

  /** The region used when neither the command line nor a base layout gives one. */
  const DefaultRegion := Region(0.5, 50.8, 40.0, 83.0)

  // ---------------------------------------------------------------------------
  // `transform_coordinates`
  // ---------------------------------------------------------------------------

  /** The point `pct` percent of the way along a span starting at `lo`. */
  function Lerp(lo: real, pct: real, span: real): real {
    lo + (pct / 100.0) * span
  }

  /** A percentage between 0 and 100 of a non-negative span stays within the
      span, and a larger percentage lands no earlier. */
  lemma {:induction false} LerpWithin(lo: real, a: real, b: real, span: real)
    requires 0.0 <= a <= b <= 100.0 && span >= 0.0
    ensures lo <= Lerp(lo, a, span) <= Lerp(lo, b, span) <= lo + span
  {
    var s, t := a / 100.0, b / 100.0;
    assert 0.0 <= s <= t <= 1.0;
    assert (t - s) * span >= 0.0;
    assert (1.0 - t) * span >= 0.0;
    assert s * span >= 0.0;
  }

  /** The distance between two points of a span is their percentage
      difference of the span. */
  lemma {:induction false} LerpDifference(lo: real, a: real, b: real, span: real)
    ensures Lerp(lo, b, span) - Lerp(lo, a, span) == ((b - a) / 100.0) * span
  {
    assert (b - a) / 100.0 == b / 100.0 - a / 100.0;
  }

  /** The page-percent box of a named canvas. A canvas with a `parent` key is
      placed inside its parent's resolved box, each corner interpolated
      linearly. `None` is the exception the tool swallows: an unknown canvas
      name, or a parent chain longer than `fuel` (Python's recursion limit). */
  function TransformCoordinates(canvases: map<string, Canvas>, name: string, fuel: nat): (r: Option<Region>)
    ensures name !in canvases ==> r.None?
    ensures name in canvases && canvases[name].parent.None? ==>
      r == Some(Region(canvases[name].x, canvases[name].y, canvases[name].x2, canvases[name].y2))
    decreases fuel
  {
    if name !in canvases then None
    else
      var c := canvases[name];
      if c.parent.None? then Some(Region(c.x, c.y, c.x2, c.y2))
      else if fuel == 0 then None
      else
        match TransformCoordinates(canvases, c.parent.value, fuel - 1)
        case None => None
        case Some(p) =>
          var pw, ph := p.x1 - p.x0, p.y1 - p.y0;
          Some(Region(Lerp(p.x0, c.x, pw), Lerp(p.y0, c.y, ph), Lerp(p.x0, c.x2, pw), Lerp(p.y0, c.y2, ph)))
  }

  /** A canvas whose percentages are ordered and within 0..100. */
  predicate InRange(c: Canvas) {
    0.0 <= c.x <= c.x2 <= 100.0 && 0.0 <= c.y <= c.y2 <= 100.0
  }

  /** A region ordered and within the page. */
  predicate OnPage(r: Region) {
    0.0 <= r.x0 <= r.x1 <= 100.0 && 0.0 <= r.y0 <= r.y1 <= 100.0
  }

  /** When every canvas keeps its percentages in range, a resolved canvas lies
      on the page, and a child lies within its parent's region. */
  lemma {:induction false} TransformStaysInside(canvases: map<string, Canvas>, name: string, fuel: nat)
    requires forall n :: n in canvases ==> InRange(canvases[n])
    requires TransformCoordinates(canvases, name, fuel).Some?
    ensures OnPage(TransformCoordinates(canvases, name, fuel).value)
    ensures canvases[name].parent.Some? ==> (fuel > 0 &&
      var p := TransformCoordinates(canvases, canvases[name].parent.value, fuel - 1);
      var r := TransformCoordinates(canvases, name, fuel).value;
      p.Some? && p.value.x0 <= r.x0 && r.x1 <= p.value.x1 && p.value.y0 <= r.y0 && r.y1 <= p.value.y1)
    decreases fuel
  {
    var c := canvases[name];
    if c.parent.Some? {
      TransformStaysInside(canvases, c.parent.value, fuel - 1);
      var p := TransformCoordinates(canvases, c.parent.value, fuel - 1).value;
      LerpWithin(p.x0, c.x, c.x2, p.x1 - p.x0);
      LerpWithin(p.y0, c.y, c.y2, p.y1 - p.y0);
    }
  }

  /** The two tools and the renderer agree: on a 100-by-100 page the renderer's
      rectangle for a canvas is the authoring tool's region, as long as no
      canvas names the empty string as its parent (a key the tool follows and
      the renderer, testing truthiness, does not). */
  lemma {:induction false} TransformMatchesRenderer(canvases: map<string, Canvas>, name: string, fuel: nat)
    requires forall n :: n in canvases ==> canvases[n].parent != Some("")
    ensures var r := TransformCoordinates(canvases, name, fuel);
      var rect := PdfGenerator.CanvasRect(Some(canvases), PdfGenerator.Page(100.0, 100.0), name, fuel);
      && (r.Some? <==> rect.Success?)
      && (r.Some? ==> rect.value == AsRect(r.value))
    decreases fuel
  {
    var page := PdfGenerator.Page(100.0, 100.0);
    if name in canvases {
      var c := canvases[name];
      if c.parent.None? {
        PdfGenerator.RootCanvasRect(canvases, page, name, fuel);
        RootOnHundredPage(c);
      } else if fuel > 0 {
        TransformMatchesRenderer(canvases, c.parent.value, fuel - 1);
        var p := TransformCoordinates(canvases, c.parent.value, fuel - 1);
        if p.Some? {
          PlaceIsInterpolation(c, p.value);
        }
      }
    }
  }

  /** A region as the renderer's `x, y, width, height` rectangle. */
  function AsRect(r: Region): PdfGenerator.Rect {
    PdfGenerator.Rect(r.x0, r.y0, r.x1 - r.x0, r.y1 - r.y0)
  }

  lemma {:induction false} RootOnHundredPage(c: Canvas)
    ensures PdfGenerator.Rect(
        (c.x / 100.0) * 100.0, (c.y / 100.0) * 100.0,
        ((c.x2 - c.x) / 100.0) * 100.0, ((c.y2 - c.y) / 100.0) * 100.0)
      == AsRect(Region(c.x, c.y, c.x2, c.y2))
  {
  }

  /** `Place` in the parent's rectangle is the tool's corner interpolation. */
  lemma {:induction false} PlaceIsInterpolation(c: Canvas, p: Region)
    ensures var pw, ph := p.x1 - p.x0, p.y1 - p.y0;
      PdfGenerator.Place(c, AsRect(p))
      == AsRect(Region(Lerp(p.x0, c.x, pw), Lerp(p.y0, c.y, ph), Lerp(p.x0, c.x2, pw), Lerp(p.y0, c.y2, ph)))
  {
    LerpDifference(p.x0, c.x, c.x2, p.x1 - p.x0);
    LerpDifference(p.y0, c.y, c.y2, p.y1 - p.y0);
  }

  // ---------------------------------------------------------------------------
  // Choosing the region
  // ---------------------------------------------------------------------------

  /** `float(s)` for a stripped field: an optional sign, then a decimal literal.
      Exponents, `inf` and `nan` are not modelled and give `None`. */
  function ParseFloat(s: string): (r: Option<real>)
    ensures AllDigits(s) && s != "" ==> r == Some(DigitsValue(s) as real)
  {
    if |s| > 0 && s[0] == '-' then
      match ParseDecimal(s[1..])
      case Some(v) => Some(-v)
      case None => None
    else if |s| > 0 && s[0] == '+' then ParseDecimal(s[1..])
    else ParseDecimal(s)
  }

  /** The stripped, non-blank comma-separated fields of `--region`. */
  function RegionFields(s: string): (fs: seq<string>)
    ensures |fs| <= |Split(s, ',')|
    ensures forall f :: f in fs ==> f != ""
  {
    var parts := Split(s, ',');
    var stripped := seq(|parts|, i requires 0 <= i < |parts| => Strip(parts[i]));
    Sequences.Filter(stripped, (f: string) => f != "")
  }

  /** The `--region` argument: absent or empty means "not given"; otherwise
      exactly four numeric fields, or an error. */
  function ParseRegionArg(arg: Option<string>): (r: Result<Option<Region>, string>)
    ensures !Truthy(arg) ==> r == Success(None)
    ensures Truthy(arg) && |RegionFields(arg.value)| != 4 ==> r.Failure?
    ensures r.Success? && Truthy(arg) ==> r.value.Some?
    ensures Truthy(arg) && |RegionFields(arg.value)| == 4 ==>
      var fs := RegionFields(arg.value);
      && (r.Success? <==> ParseFloat(fs[0]).Some? && ParseFloat(fs[1]).Some? && ParseFloat(fs[2]).Some? && ParseFloat(fs[3]).Some?)
      && (r.Success? ==> r.value == Some(Region(ParseFloat(fs[0]).value, ParseFloat(fs[1]).value,
                                                ParseFloat(fs[2]).value, ParseFloat(fs[3]).value)))
  {
    if !Truthy(arg) then Success(None)
    else
      var fs := RegionFields(arg.value);
      if |fs| != 4 then Failure("region must have four comma-separated values")
      else
        var a, b, c, d := ParseFloat(fs[0]), ParseFloat(fs[1]), ParseFloat(fs[2]), ParseFloat(fs[3]);
        if a.Some? && b.Some? && c.Some? && d.Some? then Success(Some(Region(a.value, b.value, c.value, d.value)))
        else Failure("could not convert string to float")
  }

  /** A field the `--region` reading leaves alone: non-empty, with no comma and no whitespace. */
  predicate PlainField(f: string) {
    f != "" && ',' !in f && forall k :: 0 <= k < |f| ==> !IsSpace(f[k])
  }

  /** Comma-joined plain fields are read back as themselves. */
  lemma {:induction false} RegionFieldsOfJoin(fs: seq<string>)
    requires |fs| >= 1
    requires forall i :: 0 <= i < |fs| ==> PlainField(fs[i])
    ensures RegionFields(Join(fs, ",")) == fs
  {
    assert Split(Join(fs, ","), ',') == fs by {
      assert "," == [','];
      SplitJoin(fs, ',');
    }
    assert seq(|fs|, i requires 0 <= i < |fs| => Strip(fs[i])) == fs by {
      forall i | 0 <= i < |fs|
        ensures Strip(fs[i]) == fs[i]
      {
        StripUnspaced(fs[i]);
      }
    }
    Sequences.FilterAll(fs, (f: string) => f != "");
  }

  /** A whole number written in decimal reads back as itself. */
  lemma {:induction false} ParseShowNat(n: nat)
    ensures ParseFloat(ShowNat(n)) == Some(n as real)
    ensures PlainField(ShowNat(n))
  {
    ShowNatRoundTrip(n);
    var s := ShowNat(n);
    assert forall k :: 0 <= k < |s| ==> IsDigit(s[k]);
  }

  /** Four whole percentages written out with commas read back as that region. */
  lemma {:induction false} RegionArgRoundTrip(a: nat, b: nat, c: nat, d: nat)
    ensures ParseRegionArg(Some(Join([ShowNat(a), ShowNat(b), ShowNat(c), ShowNat(d)], ",")))
      == Success(Some(Region(a as real, b as real, c as real, d as real)))
  {
    var fs := [ShowNat(a), ShowNat(b), ShowNat(c), ShowNat(d)];
    ParseShowNat(a);
    ParseShowNat(b);
    ParseShowNat(c);
    ParseShowNat(d);
    RegionFieldsOfJoin(fs);
  }

  /** The region `extract_text_lines` works on: the command line's, else the
      base layout's `items` canvas when it resolves, else the default. `base`
      is the base layout file when it exists and parses. */
  function RegionFor(given: Option<Region>, base: Option<Layout>, fuel: nat): (r: Region)
    ensures given.Some? ==> r == given.value
    ensures given.None? && (base.None? || base.value.canvas.None? || "items" !in base.value.canvas.value) ==> r == DefaultRegion
    ensures given.None? && base.Some? && base.value.canvas.Some? ==>
      var t := TransformCoordinates(base.value.canvas.value, "items", fuel);
      r == (if t.Some? then t.value else DefaultRegion)
  {
    if given.Some? then given.value
    else if base.Some? && base.value.canvas.Some? && "items" in base.value.canvas.value then
      match TransformCoordinates(base.value.canvas.value, "items", fuel)
      case Some(t) => t
      case None => DefaultRegion
    else DefaultRegion
  }

  // ---------------------------------------------------------------------------
  // Cropping
  // ---------------------------------------------------------------------------

  /** `max(0, min(dim - 1, v))` */
  function Clamp(v: int, dim: int): (c: int)
    ensures dim >= 1 ==> 0 <= c <= dim - 1
    ensures 0 <= v <= dim - 1 ==> c == v
    ensures v < 0 ==> c == 0
    ensures c <= v || c == 0
    ensures dim >= 1 && v > dim - 1 ==> c == dim - 1
  {
    if dim - 1 < v then (if dim - 1 < 0 then 0 else dim - 1)
    else if v < 0 then 0
    else v
  }

  /** A percentage of a pixel dimension, truncated. */
  function ToPixel(pct: real, dim: int): int {
    Trunc((pct / 100.0) * (dim as real))
  }

  /** A crop rectangle in image pixels. */
  datatype Crop = Crop(x0: int, y0: int, x1: int, y1: int)

  /** The region in pixels of a `w` by `h` image, each edge clamped into the
      image; `None` (the tool returns `[]`) when the clamped box is empty. */
  function CropBox(region: Region, w: int, h: int): (r: Option<Crop>)
    ensures r.Some? ==> 0 <= r.value.x0 < r.value.x1 <= w - 1 && 0 <= r.value.y0 < r.value.y1 <= h - 1
    ensures r.None? <==>
      || Clamp(ToPixel(region.x1, w), w) <= Clamp(ToPixel(region.x0, w), w)
      || Clamp(ToPixel(region.y1, h), h) <= Clamp(ToPixel(region.y0, h), h)
    ensures r.Some? ==>
      r.value == Crop(Clamp(ToPixel(region.x0, w), w), Clamp(ToPixel(region.y0, h), h),
                      Clamp(ToPixel(region.x1, w), w), Clamp(ToPixel(region.y1, h), h))
  {
    var cx0, cy0 := Clamp(ToPixel(region.x0, w), w), Clamp(ToPixel(region.y0, h), h);
    var cx1, cy1 := Clamp(ToPixel(region.x1, w), w), Clamp(ToPixel(region.y1, h), h);
    if cx1 <= cx0 || cy1 <= cy0 then None else Some(Crop(cx0, cy0, cx1, cy1))
  }

  /** A region inside the page crops to its own truncated pixel edges. */
  lemma {:induction false} CropInside(region: Region, w: int, h: int)
    requires 0 <= ToPixel(region.x0, w) < ToPixel(region.x1, w) <= w - 1
    requires 0 <= ToPixel(region.y0, h) < ToPixel(region.y1, h) <= h - 1
    ensures CropBox(region, w, h) == Some(Crop(ToPixel(region.x0, w), ToPixel(region.y0, h), ToPixel(region.x1, w), ToPixel(region.y1, h)))
  {
  }

  /** A region whose right edge is not right of its left edge crops to nothing. */
  lemma {:induction false} InvertedRegionIsEmpty(region: Region, w: int, h: int)
    requires region.x1 <= region.x0 && w >= 0
    ensures CropBox(region, w, h).None?
  {
    var a, b := (region.x0 / 100.0) * (w as real), (region.x1 / 100.0) * (w as real);
    assert b <= a;
    TruncMonotonic(b, a);
    ClampMonotonic(ToPixel(region.x1, w), ToPixel(region.x0, w), w);
  }

  lemma {:induction false} TruncMonotonic(a: real, b: real)
    requires a <= b
    ensures Trunc(a) <= Trunc(b)
  {
  }

  lemma {:induction false} ClampMonotonic(a: int, b: int, dim: int)
    requires a <= b
    ensures Clamp(a, dim) <= Clamp(b, dim)
  {
  }

  /** The default region on a letter page rendered at zoom 6 (3672 by 4752 pixels). */
  lemma {:induction false} DefaultRegionOnLetterPage()
    ensures CropBox(DefaultRegion, 3672, 4752) == Some(Crop(18, 2414, 1468, 3944))
  {
    assert ToPixel(0.5, 3672) == 18;
    assert ToPixel(50.8, 4752) == 2414;
    assert ToPixel(40.0, 3672) == 1468;
    assert ToPixel(83.0, 4752) == 3944;
  }
}

=== FILE: sequences.dfy ===
/** Sequence utilities: flattening, filtering and a stable insertion sort
    parameterised by a strict order (the source sorts with JavaScript's
    stable `Array.prototype.sort` and Python's stable `sorted`/`list.sort`). */
module Sequences {

  import opened Wrappers

  // ---------------------------------------------------------------------------
  // Flattening and filtering
  // ---------------------------------------------------------------------------

  /** Concatenation of all inner sequences, in order. */
  function Flatten<T>(ss: seq<seq<T>>): seq<T>
  {
    if |ss| == 0 then [] else ss[0] + Flatten(ss[1..])
  }

  /** Flattening distributes over concatenation. */
  lemma {:induction false} FlattenAppend<T>(a: seq<seq<T>>, b: seq<seq<T>>)
    ensures Flatten(a + b) == Flatten(a) + Flatten(b)
    decreases |a|
  {
    if |a| > 0 {
      FlattenAppend(a[1..], b);
      assert (a + b)[1..] == a[1..] + b;
    } else {
      assert a + b == b;
    }
  }

  /** Sum of the lengths of the inner sequences. */
  function TotalLength<T>(ss: seq<seq<T>>): nat
  {
    if |ss| == 0 then 0 else |ss[0]| + TotalLength(ss[1..])
  }

  lemma {:induction false} FlattenLength<T>(ss: seq<seq<T>>)
    ensures |Flatten(ss)| == TotalLength(ss)
    decreases |ss|
  {
    if |ss| > 0 {
      FlattenLength(ss[1..]);
    }
  }

  /** The elements satisfying `keep`, in their original order (a list comprehension with `if`). */
  function Filter<T(!new)>(s: seq<T>, keep: T -> bool): (r: seq<T>)
    ensures |r| <= |s|
    ensures forall x :: x in r <==> x in s && keep(x)
  {
    if |s| == 0 then []
    else if keep(s[0]) then [s[0]] + Filter(s[1..], keep)
    else Filter(s[1..], keep)
  }

  /** Filtering distributes over concatenation. */
  lemma {:induction false} FilterAppend<T(!new)>(a: seq<T>, b: seq<T>, keep: T -> bool)
    ensures Filter(a + b, keep) == Filter(a, keep) + Filter(b, keep)
    decreases |a|
  {
    if |a| == 0 {
      assert a + b == b;
    } else {
      FilterAppend(a[1..], b, keep);
      assert (a + b)[1..] == a[1..] + b;
    }
  }

  /** A filter every element passes keeps the whole sequence. */
  lemma {:induction false} FilterAll<T(!new)>(s: seq<T>, keep: T -> bool)
    requires forall i :: 0 <= i < |s| ==> keep(s[i])
    ensures Filter(s, keep) == s
    decreases |s|
  {
    if |s| > 0 {
      FilterAll(s[1..], keep);
    }
  }

  /** A filter no element passes keeps nothing. */
  lemma {:induction false} FilterNone<T(!new)>(s: seq<T>, keep: T -> bool)
    requires forall i :: 0 <= i < |s| ==> !keep(s[i])
    ensures Filter(s, keep) == []
    decreases |s|
  {
    if |s| > 0 {
      FilterNone(s[1..], keep);
    }
  }

  /** Taking out the element at `j` takes one pass out of the filter count when it passes. */
  lemma {:induction false} RemoveAtCount<T(!new)>(b: seq<T>, j: nat, keep: T -> bool)
    requires j < |b|
    ensures |Filter(b, keep)| == |Filter(b[..j] + b[j + 1..], keep)| + |Filter([b[j]], keep)|
  {
    assert b == b[..j] + ([b[j]] + b[j + 1..]);
    FilterAppend(b[..j], [b[j]] + b[j + 1..], keep);
    FilterAppend([b[j]], b[j + 1..], keep);
    FilterAppend(b[..j], b[j + 1..], keep);
  }

  /** Matching the first element of `a` with an equal one at `j` in a permutation `b`
      leaves permutations of each other behind. */
  lemma {:induction false} PermutationRest<T>(a: seq<T>, b: seq<T>, j: nat)
    requires multiset(a) == multiset(b)
    requires |a| > 0 && j < |b| && b[j] == a[0]
    ensures multiset(a[1..]) == multiset(b[..j] + b[j + 1..])
  {
    var rest := b[..j] + b[j + 1..];
    assert a == [a[0]] + a[1..];
    assert b == b[..j] + [b[j]] + b[j + 1..];
    assert multiset(b) == multiset(rest) + multiset{a[0]};
    assert multiset(a) == multiset(a[1..]) + multiset{a[0]};
    MultisetCancel(multiset(a[1..]), multiset(rest), a[0]);
  }

  lemma {:induction false} MultisetCancel<T>(p: multiset<T>, q: multiset<T>, x: T)
    requires p + multiset{x} == q + multiset{x}
    ensures p == q
  {
    assert p == (p + multiset{x}) - multiset{x};
    assert q == (q + multiset{x}) - multiset{x};
  }

  /** How many elements pass a filter depends only on the multiset of elements. */
  lemma {:induction false} FilterCountPermutation<T(!new)>(a: seq<T>, b: seq<T>, keep: T -> bool)
    requires multiset(a) == multiset(b)
    ensures |Filter(a, keep)| == |Filter(b, keep)|
    decreases |a|
  {
    if |a| == 0 {
      assert |b| == |multiset(b)| == 0;
    } else {
      assert a[0] in multiset(b);
      var j :| 0 <= j < |b| && b[j] == a[0];
      PermutationRest(a, b, j);
      FilterCountPermutation(a[1..], b[..j] + b[j + 1..], keep);
      RemoveAtCount(b, j, keep);
      assert a == [a[0]] + a[1..];
      FilterAppend([a[0]], a[1..], keep);
    }
  }

  /** Map union (`{...a, ...b}`, right wins) is associative. */
  lemma {:induction false} MapUnionAssociative<K, V>(a: map<K, V>, b: map<K, V>, c: map<K, V>)
    ensures (a + b) + c == a + (b + c)
  {
    assert ((a + b) + c).Keys == (a + (b + c)).Keys;
    forall k | k in (a + b) + c
      ensures ((a + b) + c)[k] == (a + (b + c))[k]
    {
    }
  }

  /** `map[]` is the identity of map union, on either side. */
  lemma {:induction false} MapUnionEmpty<K, V>(m: map<K, V>)
    ensures map[] + m == m && m + map[] == m
  {
    assert (map[] + m).Keys == m.Keys;
    assert (m + map[]).Keys == m.Keys;
  }

  /** Apply `f` to each element in order and concatenate the results; the
      first failure aborts (a `for ... of` loop whose body may throw). */
  function ConcatMapResult<T, U, E>(s: seq<T>, f: T -> Result<seq<U>, E>): (r: Result<seq<U>, E>)
    ensures s == [] ==> r == Success([])
  {
    if |s| == 0 then Success([])
    else
      var first :- f(s[0]);
      var rest :- ConcatMapResult(s[1..], f);
      Success(first + rest)
  }

  /** Mapping a concatenation maps the first part, then the second. */
  lemma {:induction false} ConcatMapAppend<T, U, E>(a: seq<T>, b: seq<T>, f: T -> Result<seq<U>, E>)
    ensures ConcatMapResult(a + b, f) ==
      match ConcatMapResult(a, f)
      case Failure(e) => Failure(e)
      case Success(x) =>
        match ConcatMapResult(b, f)
        case Failure(e) => Failure(e)
        case Success(y) => Success(x + y)
    decreases |a|
  {
    if |a| == 0 {
      assert a + b == b;
      var rb := ConcatMapResult(b, f);
      if rb.Success? {
        assert [] + rb.value == rb.value;
      }
    } else {
      assert (a + b)[0] == a[0];
      assert (a + b)[1..] == a[1..] + b;
      ConcatMapAppend(a[1..], b, f);
      var fa := f(a[0]);
      var ra := ConcatMapResult(a[1..], f);
      var rb := ConcatMapResult(b, f);
      if fa.Success? && ra.Success? && rb.Success? {
        assert fa.value + (ra.value + rb.value) == (fa.value + ra.value) + rb.value;
      }
    }
  }

  // ---------------------------------------------------------------------------
  // Stable insertion sort
  // ---------------------------------------------------------------------------

  /** `lt` is a strict order: transitive and asymmetric. */
  ghost predicate StrictOrder<T(!new)>(lt: (T, T) -> bool) {
    && (forall a, b :: lt(a, b) ==> !lt(b, a))
    && (forall a, b, c :: lt(a, b) && lt(b, c) ==> lt(a, c))
  }

  /** No element is strictly smaller than one placed before it. */
  predicate Sorted<T>(s: seq<T>, lt: (T, T) -> bool) {
    forall i, j :: 0 <= i < j < |s| ==> !lt(s[j], s[i])
  }

  /** Inserts `x` after every element that does not strictly follow it, so equal
      elements keep their arrival order. */
  function Insert<T>(x: T, s: seq<T>, lt: (T, T) -> bool): (r: seq<T>)
    ensures multiset(r) == multiset(s) + multiset{x}
    ensures |r| == |s| + 1
  {
    if |s| == 0 || lt(x, s[0]) then [x] + s
    else
      var rest := Insert(x, s[1..], lt);
      assert s == [s[0]] + s[1..];
      [s[0]] + rest
  }

  /** Stable sort: a permutation of the input (sortedness is `SortSorted`,
      stability `SortStable`). */
  function Sort<T>(s: seq<T>, lt: (T, T) -> bool): (r: seq<T>)
    ensures multiset(r) == multiset(s)
    ensures |r| == |s|
  {
    if |s| == 0 then []
    else
      assert s == s[..|s| - 1] + [s[|s| - 1]];
      Insert(s[|s| - 1], Sort(s[..|s| - 1], lt), lt)
  }

  lemma {:induction false} InsertSorted<T(!new)>(x: T, s: seq<T>, lt: (T, T) -> bool)
    requires StrictOrder(lt)
    requires Sorted(s, lt)
    ensures Sorted(Insert(x, s, lt), lt)
    decreases |s|
  {
    if |s| == 0 {
    } else if lt(x, s[0]) {
      var r := [x] + s;
      forall i, j | 0 <= i < j < |r|
        ensures !lt(r[j], r[i])
      {
        if i == 0 && j > 1 {
          assert r[j] == s[j - 1];
          assert !lt(s[j - 1], s[0]);
        }
      }
    } else {
      var rest := Insert(x, s[1..], lt);
      InsertSorted(x, s[1..], lt);
      var r := [s[0]] + rest;
      forall i, j | 0 <= i < j < |r|
        ensures !lt(r[j], r[i])
      {
        if i == 0 {
          var y := rest[j - 1];
          assert y in multiset(rest);
          assert y in multiset(s[1..]) + multiset{x};
          if y == x {
          } else {
            assert y in s[1..];
            var k :| 0 <= k < |s[1..]| && s[1..][k] == y;
            assert s[k + 1] == y;
          }
        }
      }
    }
  }

  /** The sort's output is ordered when `lt` is a strict order. */
  lemma {:induction false} SortSorted<T(!new)>(s: seq<T>, lt: (T, T) -> bool)
    requires StrictOrder(lt)
    ensures Sorted(Sort(s, lt), lt)
    decreases |s|
  {
    if |s| > 0 {
      SortSorted(s[..|s| - 1], lt);
      InsertSorted(s[|s| - 1], Sort(s[..|s| - 1], lt), lt);
    }
  }

  /** A strict weak order: a strict order under which "neither precedes the other"
      is an equivalence (JavaScript's and Python's comparators are assumed to be one). */
  ghost predicate StrictWeakOrder<T(!new)>(lt: (T, T) -> bool) {
    && StrictOrder(lt)
    && (forall a, b, c :: lt(a, b) ==> lt(a, c) || lt(c, b))
  }

  /** The elements that tie with `k`: neither precedes the other. */
  function SameRank<T>(lt: (T, T) -> bool, k: T): T -> bool {
    e => !lt(e, k) && !lt(k, e)
  }

  /** Inserting into a sorted sequence puts `x` after every element it ties with. */
  lemma {:induction false} InsertAfterTies<T(!new)>(x: T, t: seq<T>, lt: (T, T) -> bool, k: T)
    requires StrictWeakOrder(lt)
    requires Sorted(t, lt)
    ensures Filter(Insert(x, t, lt), SameRank(lt, k)) == Filter(t, SameRank(lt, k)) + Filter([x], SameRank(lt, k))
    decreases |t|
  {
    var tie := SameRank(lt, k);
    if |t| == 0 {
      assert Insert(x, t, lt) == [x];
    } else if lt(x, t[0]) {
      assert Insert(x, t, lt) == [x] + t;
      FilterAppend([x], t, tie);
      if tie(x) {
        forall i | 0 <= i < |t|
          ensures !tie(t[i])
        {
          if i > 0 {
            assert !lt(t[i], t[0]);
          }
          assert lt(x, t[i]);
        }
        FilterNone(t, tie);
      }
    } else {
      var rest := Insert(x, t[1..], lt);
      assert Insert(x, t, lt) == [t[0]] + rest;
      InsertAfterTies(x, t[1..], lt, k);
      FilterAppend([t[0]], rest, tie);
      assert t == [t[0]] + t[1..];
      FilterAppend([t[0]], t[1..], tie);
    }
  }

  /** Stability: under a strict weak order, the elements that tie with any `k`
      come out of the sort in the order they went in. */
  lemma {:induction false} SortStable<T(!new)>(s: seq<T>, lt: (T, T) -> bool, k: T)
    requires StrictWeakOrder(lt)
    ensures Filter(Sort(s, lt), SameRank(lt, k)) == Filter(s, SameRank(lt, k))
    decreases |s|
  {
    if |s| > 0 {
      var init := s[..|s| - 1];
      SortStable(init, lt, k);
      SortSorted(init, lt);
      InsertAfterTies(s[|s| - 1], Sort(init, lt), lt, k);
      assert s == init + [s[|s| - 1]];
      FilterAppend(init, [s[|s| - 1]], SameRank(lt, k));
    }
  }
}

=== FILE: standalone_store.dfy ===
/** scripts/StandaloneLayoutStore.ts: the same resolution as the browser store,
    over documents registered from parsed YAML files. Directory walking and
    YAML parsing are outside the model; the parsed documents arrive in order. */
module StandaloneStore {

  import opened Wrappers
  import opened LayoutModel
  import LayoutStore

  // ---------------------------------------------------------------------------
  // Registration
  // ---------------------------------------------------------------------------

  /** The key a parsed document is registered under: its `id`, when truthy. */
  function KeyOf(l: Layout): Option<string> {
    if Truthy(l.id) then l.id else None
  }

  /** `files[i]` is the last of `files[..n]` registered under `id`. */
  ghost predicate LastWith(files: seq<Layout>, n: nat, id: string, i: nat)
    requires n <= |files|
  {
    && i < n
    && KeyOf(files[i]) == Some(id)
    && forall j :: i < j < n ==> KeyOf(files[j]) != Some(id)
  }

  /** The ids registered so far are exactly the keys of `files[..n]`. */
  ghost predicate KeysRegistered(files: seq<Layout>, n: nat, docs: map<string, Layout>)
    requires n <= |files|
  {
    forall id :: id in docs <==> exists i :: 0 <= i < n && KeyOf(files[i]) == Some(id)
  }

  /** Each registered id holds the last of `files[..n]` with that key. */
  ghost predicate LastRegistered(files: seq<Layout>, n: nat, docs: map<string, Layout>)
    requires n <= |files|
  {
    forall id :: id in docs ==> exists i: nat :: LastWith(files, n, id, i) && docs[id] == files[i]
  }

  /** One document entered: stored under its key, if it has one. */
  function Enter(docs: map<string, Layout>, doc: Layout): (next: map<string, Layout>)
    ensures KeyOf(doc).Some? ==> next == docs[KeyOf(doc).value := doc]
    ensures KeyOf(doc).None? ==> next == docs
  {
    if Truthy(doc.id) then docs[doc.id.value := doc] else docs
  }

  lemma {:induction false} EnterKeys(files: seq<Layout>, n: nat, docs: map<string, Layout>)
    requires n < |files| && KeysRegistered(files, n, docs)
    ensures KeysRegistered(files, n + 1, Enter(docs, files[n]))
  {
    var next := Enter(docs, files[n]);
    forall id
      ensures id in next <==> exists i :: 0 <= i < n + 1 && KeyOf(files[i]) == Some(id)
    {
      if id in next && KeyOf(files[n]) != Some(id) {
        assert id in docs;
      }
      if exists i :: 0 <= i < n + 1 && KeyOf(files[i]) == Some(id) {
        var i :| 0 <= i < n + 1 && KeyOf(files[i]) == Some(id);
        if i < n {
          assert id in docs;
        }
      }
    }
  }

  lemma {:induction false} EnterLast(files: seq<Layout>, n: nat, docs: map<string, Layout>)
    requires n < |files| && LastRegistered(files, n, docs)
    ensures LastRegistered(files, n + 1, Enter(docs, files[n]))
  {
    var next := Enter(docs, files[n]);
    forall id | id in next
      ensures exists i: nat :: LastWith(files, n + 1, id, i) && next[id] == files[i]
    {
      if KeyOf(files[n]) == Some(id) {
        assert LastWith(files, n + 1, id, n);
      } else {
        var i: nat :| LastWith(files, n, id, i) && docs[id] == files[i];
        assert LastWith(files, n + 1, id, i);
      }
    }
  }

  /** The registration loop of `findAllLayouts`: a document is stored under its
      id iff that id is truthy, and a later document with the same id replaces
      an earlier one. */
  method Register(files: seq<Layout>) returns (docs: map<string, Layout>)
    ensures forall id :: id in docs <==> exists i :: 0 <= i < |files| && KeyOf(files[i]) == Some(id)
    ensures forall id :: id in docs ==> exists i: nat :: LastWith(files, |files|, id, i) && docs[id] == files[i]
  {
    docs := map[];
    for n := 0 to |files|
      invariant KeysRegistered(files, n, docs) && LastRegistered(files, n, docs)
    {
      EnterKeys(files, n, docs);
      EnterLast(files, n, docs);
      var doc := files[n];
      if Truthy(doc.id) {
        docs := docs[doc.id.value := doc];
      }
    }
  }

  // ---------------------------------------------------------------------------
  // Merge and resolution
  // ---------------------------------------------------------------------------

  /** `mergeLayouts` as written here: spread parent then child, then overwrite
      the three maps and the content list. */
  function MergeLayouts(parent: Layout, child: Layout): Layout {
    var merged := Layout(
      id := LayoutStore.Pick(parent.id, child.id),
      description := LayoutStore.Pick(parent.description, child.description),
      parent := LayoutStore.Pick(parent.parent, child.parent),
      aspectratio := LayoutStore.Pick(parent.aspectratio, child.aspectratio),
      parameters := LayoutStore.Pick(parent.parameters, child.parameters),
      canvas := LayoutStore.Pick(parent.canvas, child.canvas),
      presets := LayoutStore.Pick(parent.presets, child.presets),
      content := LayoutStore.Pick(parent.content, child.content),
      extra := parent.extra + child.extra);
    merged.(
      presets := Some(PresetsOf(parent) + PresetsOf(child)),
      canvas := Some(CanvasOf(parent) + CanvasOf(child)),
      parameters := Some(ParametersOf(parent) + ParametersOf(child)),
      content := Some(ContentOf(parent) + ContentOf(child)))
  }

  /** Both stores merge to the same layout. */
  lemma {:induction false} MergeLayoutsAgree(parent: Layout, child: Layout)
    ensures MergeLayouts(parent, child) == LayoutStore.MergeLayouts(parent, child)
  {
  }

  /** `getLayout`: cached layouts are returned as is; otherwise the registered
      document is resolved (parent first, with this file's merge) and cached. */
  function GetLayout(s: LayoutStore.Store, id: string, fuel: nat): (out: (Result<Layout, LayoutStore.StoreError>, LayoutStore.Store))
    ensures id in s.cache ==> out == (Success(s.cache[id]), s)
    ensures id !in s.cache && id !in s.docs ==> out == (Failure(LayoutStore.NotFound(id)), s)
    ensures out.0.Success? ==> id in out.1.cache && out.1.cache[id] == out.0.value
    decreases fuel
  {
    if id in s.cache then (Success(s.cache[id]), s)
    else if id !in s.docs then (Failure(LayoutStore.NotFound(id)), s)
    else
      var data := s.docs[id];
      if Truthy(data.parent) then
        if fuel == 0 then (Failure(LayoutStore.CyclicInheritance(id)), s)
        else
          var (pr, s1) := GetLayout(s, data.parent.value, fuel - 1);
          match pr
          case Success(p) =>
            var merged := MergeLayouts(p, data);
            (Success(merged), s1.(cache := s1.cache[id := merged]))
          case Failure(e) => (Failure(e), s)
      else (Success(data), s.(cache := s.cache[id := data]))
  }

  /** The standalone store resolves and caches exactly as the browser store does. */
  lemma {:induction false} GetLayoutAgrees(s: LayoutStore.Store, id: string, fuel: nat)
    ensures GetLayout(s, id, fuel) == LayoutStore.GetLayout(s, id, fuel)
    decreases fuel
  {
    if id !in s.cache && id in s.docs && Truthy(s.docs[id].parent) && fuel > 0 {
      GetLayoutAgrees(s, s.docs[id].parent.value, fuel - 1);
      var (pr, s1) := GetLayout(s, s.docs[id].parent.value, fuel - 1);
      if pr.Success? {
        MergeLayoutsAgree(pr.value, s.docs[id]);
      }
    }
  }
}

=== FILE: strings.dfy ===
/** String helpers with the semantics of the JavaScript and Python string
    methods the source calls (`split`, `join`, `includes`, `startsWith`,
    `strip`, `toLowerCase`, decimal formatting and parsing), restricted to
    ASCII for case mapping and whitespace. */
module Strings {

  import opened Wrappers
  import Sequences

  // ---------------------------------------------------------------------------
  // Character classes and case mapping (ASCII)
  // ---------------------------------------------------------------------------

  predicate IsUpper(c: char) { 'A' <= c <= 'Z' }

  predicate IsLower(c: char) { 'a' <= c <= 'z' }

  predicate IsDigit(c: char) { '0' <= c <= '9' }

  /** Python's `str.isspace` on the ASCII range (also what `str.split()` and `strip()` remove). */
  predicate IsSpace(c: char) {
    c == ' ' || c == '\t' || c == '\n' || c == '\r' || c == '\U{0B}' || c == '\U{0C}'
    || c == '\U{1C}' || c == '\U{1D}' || c == '\U{1E}' || c == '\U{1F}'
  }

  function UpperChar(c: char): (u: char)
    ensures !IsLower(u)
    ensures IsLower(c) || u == c
  {
    if IsLower(c) then (c as int - 32) as char else c
  }

  function LowerChar(c: char): (l: char)
    ensures !IsUpper(l)
    ensures IsUpper(c) || l == c
  {
    if IsUpper(c) then (c as int + 32) as char else c
  }

  lemma {:induction false} LowerOfUpper(c: char)
    ensures LowerChar(UpperChar(c)) == LowerChar(c)
  {
  }

  function Upper(s: string): (r: string)
    ensures |r| == |s|
    ensures forall i :: 0 <= i < |s| ==> r[i] == UpperChar(s[i])
  {
    seq(|s|, i requires 0 <= i < |s| => UpperChar(s[i]))
  }

  function Lower(s: string): (r: string)
    ensures |r| == |s|
    ensures forall i :: 0 <= i < |s| ==> r[i] == LowerChar(s[i])
  {
    seq(|s|, i requires 0 <= i < |s| => LowerChar(s[i]))
  }

  /** Every occurrence of `a` replaced by `b` (`replace(/a/g, b)` for one character). */
  function ReplaceChar(s: string, a: char, b: char): (r: string)
    ensures |r| == |s|
    ensures forall i :: 0 <= i < |s| ==> r[i] == (if s[i] == a then b else s[i])
  {
    seq(|s|, i requires 0 <= i < |s| => if s[i] == a then b else s[i])
  }

  /** Replacing `a` by `b` moves every `a` onto the count of `b` and leaves
      every other character's count alone. */
  lemma {:induction false} ReplaceCharCount(s: string, a: char, b: char)
    requires a != b
    ensures multiset(ReplaceChar(s, a, b))[a] == 0
    ensures multiset(ReplaceChar(s, a, b))[b] == multiset(s)[b] + multiset(s)[a]
    ensures forall c :: c != a && c != b ==> multiset(ReplaceChar(s, a, b))[c] == multiset(s)[c]
  {
    ReplaceCharCountOf(s, a, b, a);
    ReplaceCharCountOf(s, a, b, b);
    forall c | c != a && c != b
      ensures multiset(ReplaceChar(s, a, b))[c] == multiset(s)[c]
    {
      ReplaceCharCountOf(s, a, b, c);
    }
  }

  /** The count of one character `c` after replacing `a` by `b`. */
  lemma {:induction false} ReplaceCharCountOf(s: string, a: char, b: char, c: char)
    requires a != b
    ensures multiset(ReplaceChar(s, a, b))[c]
      == if c == a then 0 else if c == b then multiset(s)[b] + multiset(s)[a] else multiset(s)[c]
  {
    ReplacedCount(s, ReplaceChar(s, a, b), a, b, c);
  }

  /** The same count for any `r` that is `s` with `a` replaced by `b` position by position. */
  lemma {:induction false} ReplacedCount(s: string, r: string, a: char, b: char, c: char)
    requires a != b
    requires |r| == |s| && forall i :: 0 <= i < |s| ==> r[i] == (if s[i] == a then b else s[i])
    ensures multiset(r)[c] == if c == a then 0 else if c == b then multiset(s)[b] + multiset(s)[a] else multiset(s)[c]
    decreases |s|
  {
    if |s| > 0 {
      ReplacedCount(s[1..], r[1..], a, b, c);
      assert s == [s[0]] + s[1..];
      assert r == [r[0]] + r[1..];
      ConsCount(r[0], r[1..], c);
      ConsCount(s[0], s[1..], a);
      ConsCount(s[0], s[1..], b);
      ConsCount(s[0], s[1..], c);
    }
  }

  /** Counting in a sequence with one element in front. */
  lemma {:induction false} ConsCount(x: char, u: string, c: char)
    ensures multiset([x] + u)[c] == (if x == c then 1 else 0) + multiset(u)[c]
  {
    assert multiset([x] + u) == multiset([x]) + multiset(u);
  }

  /** `s` with every character of `drop` deleted, order kept. */
  function RemoveChars(s: string, drop: set<char>): (r: string)
    ensures |r| <= |s|
    ensures forall c :: c in r ==> c in s && c !in drop
    decreases |s|
  {
    if |s| == 0 then ""
    else if s[0] in drop then RemoveChars(s[1..], drop)
    else [s[0]] + RemoveChars(s[1..], drop)
  }

  /** Deleting `drop` removes every occurrence of its characters and keeps the
      count of every other character. */
  lemma {:induction false} RemoveCharsCounts(s: string, drop: set<char>)
    ensures forall c :: c in drop ==> multiset(RemoveChars(s, drop))[c] == 0
    ensures forall c :: c !in drop ==> multiset(RemoveChars(s, drop))[c] == multiset(s)[c]
    decreases |s|
  {
    if |s| > 0 {
      RemoveCharsCounts(s[1..], drop);
      assert s == [s[0]] + s[1..];
    }
  }

  /** Replacing `a` by `b` and then deleting `drop`, where `b` is kept: every
      kept character other than `a` and `b` keeps its count, and `b` gains
      the count of `a`. */
  lemma {:induction false} ReplaceRemoveCounts(s: string, a: char, b: char, drop: set<char>)
    requires a != b && b !in drop
    ensures multiset(RemoveChars(ReplaceChar(s, a, b), drop))[b] == multiset(s)[b] + multiset(s)[a]
    ensures forall c :: c != a && c != b && c !in drop ==> multiset(RemoveChars(ReplaceChar(s, a, b), drop))[c] == multiset(s)[c]
  {
    ReplaceCharCount(s, a, b);
    RemoveCharsCounts(ReplaceChar(s, a, b), drop);
  }

  /** Deleting the characters of `drop` is filtering by "not in `drop`": the
      kept characters come out in their original order. */
  lemma {:induction false} RemoveCharsIsFilter(s: string, drop: set<char>)
    ensures RemoveChars(s, drop) == Sequences.Filter(s, (c: char) => c !in drop)
    decreases |s|
  {
    if |s| > 0 {
      RemoveCharsIsFilter(s[1..], drop);
    }
  }

  // ---------------------------------------------------------------------------
  // Prefixes and substrings
  // ---------------------------------------------------------------------------

  predicate StartsWith(s: string, prefix: string) {
    |prefix| <= |s| && s[..|prefix|] == prefix
  }

  predicate EndsWith(s: string, suffix: string) {
    |suffix| <= |s| && s[|s| - |suffix|..] == suffix
  }

  /** `sub` occurs in `s` (`s.includes(sub)`, Python `sub in s`). */
  predicate Contains(s: string, sub: string)
    decreases |s|
  {
    StartsWith(s, sub) || (|s| > 0 && Contains(s[1..], sub))
  }

  /** `sub` occurs in `s` starting at index `i`. */
  predicate OccursAt(s: string, sub: string, i: int) {
    0 <= i && i + |sub| <= |s| && s[i..i + |sub|] == sub
  }

  /** The recursive scan finds exactly the positions where `sub` occurs. */
  lemma {:induction false} ContainsIff(s: string, sub: string)
    ensures Contains(s, sub) <==> exists i :: OccursAt(s, sub, i)
    decreases |s|
  {
    if StartsWith(s, sub) {
      assert OccursAt(s, sub, 0);
    } else if |s| == 0 {
    } else {
      ContainsIff(s[1..], sub);
      if Contains(s[1..], sub) {
        var i :| OccursAt(s[1..], sub, i);
        assert s[1..][i..i + |sub|] == s[i + 1..i + 1 + |sub|];
        assert OccursAt(s, sub, i + 1);
      }
      if exists i :: OccursAt(s, sub, i) {
        var i :| OccursAt(s, sub, i);
        assert i != 0;
        assert s[1..][i - 1..i - 1 + |sub|] == s[i..i + |sub|];
        assert OccursAt(s[1..], sub, i - 1);
      }
    }
  }

  /** A single character occurs as a substring exactly when it is an element. */
  lemma {:induction false} ContainsChar(s: string, c: char)
    ensures Contains(s, [c]) <==> c in s
    decreases |s|
  {
    if |s| > 0 {
      ContainsChar(s[1..], c);
      assert s == [s[0]] + s[1..];
    }
  }

  // ---------------------------------------------------------------------------
  // Split and join on a single-character separator
  // ---------------------------------------------------------------------------

  /** `parts[0] + sep + parts[1] + ...` (JavaScript `join`, Python `sep.join`). */
  function Join(parts: seq<string>, sep: string): string
  {
    if |parts| == 0 then ""
    else if |parts| == 1 then parts[0]
    else parts[0] + sep + Join(parts[1..], sep)
  }

  /** `s.split(sep)` for a one-character separator: the maximal separator-free
      pieces, empty ones included, so there is always at least one part. */
  function Split(s: string, sep: char): (parts: seq<string>)
    ensures |parts| >= 1
    ensures forall i :: 0 <= i < |parts| ==> sep !in parts[i]
    decreases |s|
  {
    if |s| == 0 then [""]
    else
      var rest := Split(s[1..], sep);
      if s[0] == sep then [""] + rest
      else [[s[0]] + rest[0]] + rest[1..]
  }

  /** Splitting loses nothing: joining the parts with the separator gives the input back. */
  lemma {:induction false} JoinSplit(s: string, sep: char)
    ensures Join(Split(s, sep), [sep]) == s
    decreases |s|
  {
    if |s| > 0 {
      var rest := Split(s[1..], sep);
      JoinSplit(s[1..], sep);
      if s[0] == sep {
        assert Join([""] + rest, [sep]) == "" + [sep] + Join(rest, [sep]);
      } else {
        var parts := [[s[0]] + rest[0]] + rest[1..];
        if |rest| == 1 {
          assert Join(parts, [sep]) == [s[0]] + rest[0];
        } else {
          assert parts[1..] == rest[1..];
          assert Join(rest, [sep]) == rest[0] + [sep] + Join(rest[1..], [sep]);
        }
        assert s == [s[0]] + s[1..];
      }
    }
  }

  /** A separator-free piece followed by the separator is split off as the first part. */
  lemma {:induction false} SplitCons(a: string, t: string, sep: char)
    requires sep !in a
    ensures Split(a + [sep] + t, sep) == [a] + Split(t, sep)
    decreases |a|
  {
    if |a| == 0 {
      assert a + [sep] + t == [sep] + t;
      assert ([sep] + t)[1..] == t;
    } else {
      SplitCons(a[1..], t, sep);
      assert (a + [sep] + t)[1..] == a[1..] + [sep] + t;
      assert [a[0]] + a[1..] == a;
    }
  }

  /** A separator-free string is a single part. */
  lemma {:induction false} SplitNoSep(a: string, sep: char)
    requires sep !in a
    ensures Split(a, sep) == [a]
    decreases |a|
  {
    if |a| > 0 {
      SplitNoSep(a[1..], sep);
      assert [a[0]] + a[1..] == a;
    }
  }

  /** The converse round trip: separator-free parts are recovered by splitting their join. */
  lemma {:induction false} SplitJoin(parts: seq<string>, sep: char)
    requires |parts| >= 1
    requires forall i :: 0 <= i < |parts| ==> sep !in parts[i]
    ensures Split(Join(parts, [sep]), sep) == parts
    decreases |parts|
  {
    if |parts| == 1 {
      SplitNoSep(parts[0], sep);
    } else {
      SplitJoin(parts[1..], sep);
      SplitCons(parts[0], Join(parts[1..], [sep]), sep);
      assert [parts[0]] + parts[1..] == parts;
    }
  }

  /** One step of the split: the first character either closes an empty
      first part or is prepended to the first part of the rest. */
  lemma {:induction false} SplitStep(c: char, t: string, sep: char)
    ensures var rest := Split(t, sep);
      Split([c] + t, sep) == if c == sep then [""] + rest else [[c] + rest[0]] + rest[1..]
  {
    assert ([c] + t)[1..] == t;
  }

  /** The inductive step of `SplitAround`: one more character in front. */
  lemma {:induction false} SplitAroundStep(c: char, t: string, b: string, sep: char)
    requires Split(t + [sep] + b, sep) == Split(t, sep) + Split(b, sep)
    ensures Split([c] + t + [sep] + b, sep) == Split([c] + t, sep) + Split(b, sep)
  {
    var x := t + [sep] + b;
    var left, right := Split(t, sep), Split(b, sep);
    assert Split([c] + t + [sep] + b, sep) == Split([c] + x, sep) by {
      assert [c] + t + [sep] + b == [c] + x;
    }
    SplitStep(c, x, sep);
    SplitStep(c, t, sep);
    if c == sep {
      SeqConsAppend("", left, right);
    } else {
      SeqFirstRest(left, right);
      SeqConsAppend([c] + left[0], left[1..], right);
    }
  }

  /** Concatenation is associative, seen from a one-element front. */
  lemma {:induction false} SeqConsAppend<T>(x: T, p: seq<T>, q: seq<T>)
    ensures [x] + (p + q) == ([x] + p) + q
  {
  }

  /** The head and tail of a concatenation with a non-empty left side. */
  lemma {:induction false} SeqFirstRest<T>(p: seq<T>, q: seq<T>)
    requires |p| > 0
    ensures (p + q)[0] == p[0] && (p + q)[1..] == p[1..] + q
  {
  }

  /** Splitting around a separator splits each side on its own. */
  lemma {:induction false} SplitAround(a: string, b: string, sep: char)
    ensures Split(a + [sep] + b, sep) == Split(a, sep) + Split(b, sep)
    decreases |a|
  {
    if |a| == 0 {
      assert a + [sep] + b == [sep] + b;
      SplitStep(sep, b, sep);
    } else {
      SplitAround(a[1..], b, sep);
      SplitAroundStep(a[0], a[1..], b, sep);
      assert [a[0]] + a[1..] == a;
    }
  }

  // ---------------------------------------------------------------------------
  // Whitespace (Python `strip` and argument-less `split`)
  // ---------------------------------------------------------------------------

  predicate IsBlank(s: string) {
    forall i :: 0 <= i < |s| ==> IsSpace(s[i])
  }

  function TrimStart(s: string): (r: string)
    ensures |r| <= |s| && r == s[|s| - |r|..]
    ensures r == "" || !IsSpace(r[0])
    ensures IsBlank(s[..|s| - |r|])
    decreases |s|
  {
    if |s| > 0 && IsSpace(s[0]) then
      var r := TrimStart(s[1..]);
      assert s[..|s| - |r|] == [s[0]] + s[1..][..|s[1..]| - |r|];
      r
    else s
  }

  function TrimEnd(s: string): (r: string)
    ensures |r| <= |s| && r == s[..|r|]
    ensures r == "" || !IsSpace(r[|r| - 1])
    ensures IsBlank(s[|r|..])
    decreases |s|
  {
    if |s| > 0 && IsSpace(s[|s| - 1]) then
      var r := TrimEnd(s[..|s| - 1]);
      assert s[|r|..] == s[..|s| - 1][|r|..] + [s[|s| - 1]];
      r
    else s
  }

  /** Python `str.strip()`: leading and trailing whitespace removed. */
  function Strip(s: string): (r: string)
    ensures |r| <= |s|
    ensures r == "" || (!IsSpace(r[0]) && !IsSpace(r[|r| - 1]))
    ensures r == "" <==> IsBlank(s)
  {
    var t := TrimStart(s);
    var r := TrimEnd(t);
    assert r == "" ==> s == s[..|s| - |t|] + t[|r|..];
    assert r != "" ==> r[0] == t[0];
    r
  }

  /** A string with no whitespace at all is its own strip. */
  lemma {:induction false} StripUnspaced(s: string)
    requires forall i :: 0 <= i < |s| ==> !IsSpace(s[i])
    ensures Strip(s) == s
  {
    assert TrimStart(s) == s;
    assert TrimEnd(s) == s;
  }

  /** The longest whitespace-free prefix. */
  function TakeWord(s: string): (w: string)
    ensures |w| <= |s| && w == s[..|w|]
    ensures forall i :: 0 <= i < |w| ==> !IsSpace(w[i])
    ensures |w| == |s| || IsSpace(s[|w|])
    decreases |s|
  {
    if |s| == 0 || IsSpace(s[0]) then "" else [s[0]] + TakeWord(s[1..])
  }

  /** A non-empty whitespace-free string. */
  predicate IsWord(w: string) {
    w != "" && forall k :: 0 <= k < |w| ==> !IsSpace(w[k])
  }

  /** Python `str.split()` without arguments: the maximal runs of non-whitespace. */
  function Words(s: string): (ws: seq<string>)
    ensures forall i :: 0 <= i < |ws| ==> IsWord(ws[i])
    decreases |s|
  {
    if |s| == 0 then []
    else if IsSpace(s[0]) then Words(s[1..])
    else
      var w := TakeWord(s);
      assert IsWord(w);
      [w] + Words(s[|w|..])
  }

  // ---------------------------------------------------------------------------
  // Decimal numbers
  // ---------------------------------------------------------------------------

  predicate AllDigits(s: string) {
    forall i :: 0 <= i < |s| ==> IsDigit(s[i])
  }

  function DigitChar(d: nat): char
    requires d < 10
  {
    ('0' as int + d) as char
  }

  /** Decimal rendering of a natural number, as `str(n)` / a template literal prints it. */
  function ShowNat(n: nat): (s: string)
    ensures |s| >= 1 && AllDigits(s)
    ensures s[0] == '0' ==> n == 0
  {
    if n < 10 then [DigitChar(n)] else ShowNat(n / 10) + [DigitChar(n % 10)]
  }

  /** Value of a string of decimal digits. */
  function DigitsValue(s: string): nat
    requires AllDigits(s)
  {
    if |s| == 0 then 0 else DigitsValue(s[..|s| - 1]) * 10 + (s[|s| - 1] as int - '0' as int)
  }

  /** Printing and reading back a natural number is the identity. */
  lemma {:induction false} ShowNatRoundTrip(n: nat)
    ensures DigitsValue(ShowNat(n)) == n
  {
    if n >= 10 {
      ShowNatRoundTrip(n / 10);
      var s := ShowNat(n);
      assert s[..|s| - 1] == ShowNat(n / 10);
    }
  }

  function Pow10(k: nat): (p: nat)
    ensures p >= 1
  {
    if k == 0 then 1 else 10 * Pow10(k - 1)
  }

  /** JavaScript `Number(s)` restricted to plain decimal literals `ddd`, `ddd.ddd`,
      `.ddd` and `ddd.`; every other form gives `None`. */
  function ParseDecimal(s: string): (r: Option<real>)
    ensures AllDigits(s) && s != "" ==> r == Some(DigitsValue(s) as real)
    ensures r.Some? ==> r.value >= 0.0
  {
    var parts := Split(s, '.');
    if s != "" && AllDigits(s) then
      Some(DigitsValue(s) as real)
    else if |parts| == 2 && parts[0] + parts[1] != "" && AllDigits(parts[0]) && AllDigits(parts[1]) then
      Some(DigitsValue(parts[0]) as real + DigitsValue(parts[1]) as real / Pow10(|parts[1]|) as real)
    else None
  }
}

=== FILE: wrappers.dfy ===
/** Failure-carrying wrappers shared by every module of the model:
    `Option` stands for a JavaScript `undefined` / Python `None`,
    `Result` for a value or the error the source throws. */
module Wrappers {

  datatype Option<+T> = None | Some(value: T) {

    /** The wrapped value, or `default` when absent (the `x || {}` idiom). */
    function GetOr(default: T): T {
      match this
      case Some(v) => v
      case None => default
    }
  }

  datatype Result<+R, +E> = Success(value: R) | Failure(error: E) {

    predicate IsFailure() {
      Failure?
    }

    function PropagateFailure<U>(): Result<U, E>
      requires Failure?
    {
      Failure(error)
    }

    function Extract(): R
      requires Success?
    {
      value
    }
  }

  /** JavaScript / Python truthiness of an optional string: absent and `""` are falsy. */
  predicate Truthy(s: Option<string>) {
    s.Some? && s.value != ""
  }
}
